=== FILE: README.md ===
# Maya utilities, modelled in Dafny

This project models the decision logic of a set of Maya helper scripts and of one C++ plug-in.
It proves properties of that model.

- **Vertex snapper.** It keeps a log of picked vertices. The log is consumed in pairs (source, target): each source moves to its target's recorded position, subject to an optional tolerance and an optional merge for pairs on the same object.
- **Selection manager.** It saves selection sets by node uuid and restores them by uuid. It deletes sets by list row, and numbers the rows "Set 1", "Set 2", …
- **Saved positions.** It stores each selected transform's translation and rotation by uuid. It restores a stored pose from a list row (falling back to the uuid when the node was renamed) and deletes rows.
- **Show / hide.** It toggles the visibility of selected nodes, remembers the nodes it hid, and shows them all again.
- **Reset attributes.** It zeroes the chosen translate/rotate axes of selected NURBS curves, or all six channels. A locked channel stops the "all" reset at that point.
- **Duplicate notification plug-in.** After every duplicate it chooses an in-view message, and stays silent until the scene is ready.
- **Auto set project / autosave.** When a scene opens, it climbs to the nearest folder holding `workspace.mel` and opens it as the project. It also points autosave at `<project>/autosave/<scene name>`.
- **Material export.**
  - It finds the `scenes` folder above the open scene.
  - It builds one proxy object per material of the selected object: a plane when the material is textured, a sphere otherwise.
  - It exports the proxies under names derived from theirs, and copies a material from one selected object to another.
- **Texture auto-reload.** It is a running/stopped flag with a countdown schedule. It re-sets the selected file nodes' texture paths and refreshes the list of file nodes.
- **Pivot move.** It moves the selected objects' pivots to the selected vertex, or to the mean position of several.
- **Connect and soften.** It softens exactly the edges a connection created, and keeps an edge-flow flag behind two radio buttons.

Maya is abstracted as plain data:

- The selection is a sequence.
- Attribute values, uuids, names and positions are maps.
- Locked plugs and existing nodes are sets.
- Every host command becomes a state update or a reported outcome.
- `os.path.dirname` and `os.path.exists` are function-valued fields of a `Paths.FileSystem`.
- Positions are exact reals.

Shared helpers live in `Options`, `Text`, `Seqs`, `Geometry` and `Paths`. `Paths` follows Python's `ntpath`, since the scripts run under Windows.

## Model

| member | source | states |
|---|---|---|
| VertexSnapper.AppendNew | WithGUI/Vertex_Snapper.py:34-37 | the log only grows; each new entry is a selected ".vtx[" name not logged before, with its current world position; every selected vertex ends up logged; a duplicate-free log stays duplicate-free |
| VertexSnapper.AppendNewKeepsSelectionOrder | WithGUI/Vertex_Snapper.py:34-37 | the appended entries come in the order of the selection |
| VertexSnapper.LogSelectedVertices | WithGUI/Vertex_Snapper.py:22-37 | recording off leaves the log unchanged; an empty selection clears it; otherwise new vertices are appended; a well-formed log stays well-formed |
| VertexSnapper.NonVertices | WithGUI/Vertex_Snapper.py:84-90 | unlocking reselects exactly the selected entries that are not vertices |
| VertexSnapper.NonVerticesAppend | WithGUI/Vertex_Snapper.py:88 | unlocking distributes over concatenation, so the kept entries stay in selection order |
| VertexSnapper.NonVerticesKeepsObjects | WithGUI/Vertex_Snapper.py:88 | a selection without vertices survives unlocking unchanged |
| VertexSnapper.SourcesDistinct | WithGUI/Vertex_Snapper.py:53-55 | in a duplicate-free log no two pairs share a source, and no target is a source |
| VertexSnapper.MergeRequestsSound | WithGUI/Vertex_Snapper.py:57-73 | a merge is requested only for a pair within tolerance, with merging on, whose names share the object before the first "." |
| VertexSnapper.MergeRequestsNone | WithGUI/Vertex_Snapper.py:57-73 | no merge is requested exactly when no pair qualifies |
| VertexSnapper.MergeRequestsComplete | WithGUI/Vertex_Snapper.py:57-73 | every pair within tolerance whose names share the object, with merging on, has its merge requested |
| VertexSnapper.OnlySourcesMove | WithGUI/Vertex_Snapper.py:53-68 | a vertex that is not the source of a pair keeps its position |
| VertexSnapper.SourceLandsOnTarget | WithGUI/Vertex_Snapper.py:53-68 | the source of a pair within tolerance ends at the target's recorded position; otherwise it stays |
| VertexSnapper.SnapPairs | WithGUI/Vertex_Snapper.py:53-73 | the pair loop yields exactly the snapped positions and merge requests of the pair-by-pair definition; the snapped flag holds iff some pair snapped |
| VertexSnapper.SnapAndMergeVertices | WithGUI/Vertex_Snapper.py:39-81 | fewer than two entries warns and changes nothing; an odd count errors and changes nothing; otherwise sources move to targets and targets and other vertices stay; the merges appended are exactly those of the qualifying pairs, in pair order; the snapped and merged flags hold iff some pair snapped or merged; the log is cleared and only non-vertices stay selected |
| SelectionManager.Capture | WithGUI/selectionManager.py:14-21 | one entry per selected node with a uuid, in order; nodes without a uuid are skipped; the capture is empty iff no selected node has a uuid |
| SelectionManager.CaptureAppend | WithGUI/selectionManager.py:15-21 | capturing distributes over concatenation of the selection |
| SelectionManager.SaveSelection | WithGUI/selectionManager.py:10-26 | an empty selection warns; a selection without uuids changes nothing; otherwise exactly one set is appended and the list is refreshed |
| SelectionManager.RefreshList | WithGUI/selectionManager.py:51-63 | one row per set; uuids are kept; each stored name becomes the node's current name where the uuid resolves and is kept otherwise; row i is headed "Set i+1: " |
| SelectionManager.RowShowsEntries | WithGUI/selectionManager.py:53-63 | row i shows, after its header, each entry's current name, or `<deleted:uuid>` when the uuid no longer resolves, in set order, with ", " before every entry but the first and nothing after the last |
| SelectionManager.EmptySetShowsHead | WithGUI/selectionManager.py:63 | the row of an empty set is its header alone |
| SelectionManager.RowNumberReadsBack | WithGUI/selectionManager.py:63 | the number in row i's label parses back to i+1 |
| SelectionManager.RefreshIdempotent | WithGUI/selectionManager.py:51-63 | refreshing twice gives the same sets and rows as refreshing once |
| SelectionManager.Resolve | WithGUI/selectionManager.py:32-39 | a name is resolved iff it is the current name of a member whose uuid still resolves; never more names than members |
| SelectionManager.ResolveAppend | WithGUI/selectionManager.py:32-39 | resolving distributes over concatenation, so names come in set order, repeats kept |
| SelectionManager.ResolveOne | WithGUI/selectionManager.py:33-39 | one member gives its current name, or nothing once its uuid no longer resolves |
| SelectionManager.Collect | WithGUI/selectionManager.py:28-39 | a name is collected iff it is the current name of a member of an in-range requested set |
| SelectionManager.CollectAppend | WithGUI/selectionManager.py:28-39 | collecting distributes over concatenation of the indices: sets in index order, set order within a set |
| SelectionManager.CollectOne | WithGUI/selectionManager.py:29-39 | one index gives that set's resolved names when in range, nothing otherwise |
| SelectionManager.CollectIgnoresOutOfRange | WithGUI/selectionManager.py:30-31 | dropping out-of-range indices changes nothing |
| SelectionManager.CollectSingle | WithGUI/selectionManager.py:28-39 | one in-range index restores exactly that set's resolvable members |
| SelectionManager.RestoreSelection | WithGUI/selectionManager.py:28-43 | the selection becomes the collected names, or the tool warns and leaves the scene as it was when nothing resolves |
| SelectionManager.SortDesc | WithGUI/selectionManager.py:46 | the result is descending and a permutation of the input; distinctness is kept |
| SelectionManager.DescendingDeleteIsKeep | WithGUI/selectionManager.py:46-48 | deleting strictly descending indices one by one removes exactly those positions |
| SelectionManager.DeleteSortedIsKeep | WithGUI/selectionManager.py:45-48 | deleting distinct indices in descending order removes exactly the listed rows, whatever order they came in |
| SelectionManager.DeleteSelection | WithGUI/selectionManager.py:45-49 | for distinct indices, the sets left are those at the other positions, in order, and the list is refreshed |
| SelectionManager.OnSelect | WithGUI/selectionManager.py:83-86 | widget row k restores saved set k-1; no row selected does nothing |
| SelectionManager.DeleteSelected | WithGUI/selectionManager.py:88-91 | distinct widget rows k delete the sets at k-1; no row selected does nothing |
| SavedPositions.IsObjectMode | WithGUI/Save_and_Restore_Positions.py:23-27 | true iff every selected node is a transform |
| SavedPositions.Upsert | WithGUI/Save_and_Restore_Positions.py:52-66 | a known uuid's entry is overwritten where it stands and a new uuid is appended; other entries are unchanged and uuids stay distinct |
| SavedPositions.SaveAll | WithGUI/Save_and_Restore_Positions.py:47-66 | the stored uuids only grow, by appending; every selected node's uuid is stored; uuids stay distinct |
| SavedPositions.SaveAllLeavesOthers | WithGUI/Save_and_Restore_Positions.py:47-66 | entries of unselected uuids are untouched |
| SavedPositions.SaveAllAppendsSelected | WithGUI/Save_and_Restore_Positions.py:64-66 | every appended entry belongs to a selected node |
| SavedPositions.SaveAllRecordsSelected | WithGUI/Save_and_Restore_Positions.py:52-66 | each selected node's entry holds its current name, translation and rotation, so renames are tracked |
| SavedPositions.Save | WithGUI/Save_and_Restore_Positions.py:31-77 | an empty selection, or a non-transform in it, warns and changes nothing; an all-transform selection is saved: the store becomes the upserted store and the rows are rebuilt in step with it; stored uuids only grow, every selected node's uuid is stored, and distinct uuids stay distinct |
| SavedPositions.Label | WithGUI/Save_and_Restore_Positions.py:72 | a row starts with the entry's name, " \|\| " and "Tra: ", and ends with " \| Rot: " and the rotation |
| SavedPositions.LabelNameRoundTrip | WithGUI/Save_and_Restore_Positions.py:72 | splitting a row at " \|\| " gives back the entry's name when that name has no space |
| SavedPositions.LabelNameCanMisread | WithGUI/Save_and_Restore_Positions.py:100 | a name with a space, "a \|\|", reads back as "a" |
| SavedPositions.RowPointsAtItsEntry | WithGUI/Save_and_Restore_Positions.py:100-103 | with unique, space-free names, the row for entry k finds entry k |
| SavedPositions.RestoreRow | WithGUI/Save_and_Restore_Positions.py:99-139 | the first entry named by the row is restored, by name if the node exists, else by uuid (renaming entry and row), else reported unresolved; an unknown name is reported |
| SavedPositions.RestoreRowKeepsStep | WithGUI/Save_and_Restore_Positions.py:102-134 | restoring a shown row moves its node to the stored pose and keeps rows and store in step, even across a rename |
| SavedPositions.Restore | WithGUI/Save_and_Restore_Positions.py:91-139 | no picked row warns and changes nothing; otherwise there is one outcome per picked row, and outcome k is what restoring row k reports against the state the first k rows left behind; the final store and scene are those the last row's restore leaves after the rows before it, so every row's move and rename takes effect in order; the stored uuids never change |
| SavedPositions.RestoreRowsInOrder | WithGUI/Save_and_Restore_Positions.py:99-139 | the picked rows are handled one after another: outcome k depends only on the first k rows and row k |
| SavedPositions.DeleteRow | WithGUI/Save_and_Restore_Positions.py:151-161 | the first entry with the row's name and the row itself go; an unknown name is reported; distinct uuids stay distinct |
| SavedPositions.DeleteRowKeepsStep | WithGUI/Save_and_Restore_Positions.py:151-159 | deleting a shown row removes exactly its entry and its row, keeping rows and store in step |
| SavedPositions.Delete | WithGUI/Save_and_Restore_Positions.py:143-161 | no picked row warns and changes nothing; otherwise outcome k is what deleting row k reports after the first k rows were deleted; distinct uuids stay distinct; from rows in step with a store of unique, space-free names, picking shown rows removes exactly the entries whose rows were picked, keeps the others in order, and keeps rows and store in step |
| SavedPositions.DeleteRowsInOrder | WithGUI/Save_and_Restore_Positions.py:151-161 | the picked rows are deleted one after another: outcome k depends only on the first k rows and row k |
| SavedPositions.DeleteRowsRemovesPicked | WithGUI/Save_and_Restore_Positions.py:151-161 | from rows in step with a store of unique, space-free names, deleting shown rows one by one leaves exactly the entries whose rows were not picked, in order, with rows and store in step |
| ShowHide.ToggleEach | WithGUI/Show-hide_script.py:28-41 | a node is flipped iff it occurs an odd number of times in the selection; selected existing nodes are remembered iff now invisible; nothing else changes |
| ShowHide.Toggle | WithGUI/Show-hide_script.py:20-41 | an empty selection warns and changes nothing |
| ShowHide.ToggleTwiceRestores | WithGUI/Show-hide_script.py:28-41 | toggling the same selection twice restores every visibility |
| ShowHide.ToggleKeepsHiddenTracked | WithGUI/Show-hide_script.py:28-41 | if every invisible node is remembered before a toggle, it is afterwards |
| ShowHide.ShowAll | WithGUI/Show-hide_script.py:43-50 | remembered nodes that exist become visible, others keep their visibility, and the memory is cleared |
| ShowHide.ShowAllShowsEverything | WithGUI/Show-hide_script.py:43-50 | when every invisible node is remembered, nothing is invisible after showing all |
| ShowHide.ShowAllThenToggleTracked | WithGUI/Show-hide_script.py:20-50 | show-all followed by any toggle keeps every invisible node remembered |
| ResetAttributes.ZeroChosen | WithGUI/Reset_Attributes.py:33-51 | exactly the ticked, unlocked axes of one kind are zeroed; the flag holds iff one was |
| ResetAttributes.ResetChosenOne | WithGUI/Reset_Attributes.py:23-61 | a non-curve is reported and left alone; a curve has its chosen unlocked channels zeroed |
| ResetAttributes.ResetChosen | WithGUI/Reset_Attributes.py:18-63 | an empty selection warns; a plug becomes zero iff it is a chosen, unlocked channel of a selected curve; all else is unchanged |
| ResetAttributes.ResetChosenIdempotent | WithGUI/Reset_Attributes.py:18-63 | resetting the same choice twice equals resetting once |
| ResetAttributes.AllPlugs | WithGUI/Reset_Attributes.py:77-79 | the six channels of a curve, in write order, each exactly once |
| ResetAttributes.ZeroUntilLocked | WithGUI/Reset_Attributes.py:76-82 | channels before the first locked one are zeroed; it and later ones are untouched |
| ResetAttributes.ResetAllOne | WithGUI/Reset_Attributes.py:70-84 | a non-curve is reported; a curve is zeroed channel by channel up to its first locked channel |
| ResetAttributes.ResetAll | WithGUI/Reset_Attributes.py:65-86 | an empty selection warns; a plug becomes zero iff it is on a selected curve and before that curve's first locked channel |
| ResetAttributes.ResetAllIsResetEverythingWhenUnlocked | WithGUI/Reset_Attributes.py:65-86 | without locks, "reset all" equals resetting every axis of both kinds |
| ResetAttributes.ResetAllStopsAtFirstLock | WithGUI/Reset_Attributes.py:76-82 | a curve whose translateX is locked is left entirely unchanged |
| DuplicateNotification.SelectionNames | plugin/Object_replication_notification/Object_replication_notification.cpp:32-67 | an unreadable selection gives no names; otherwise the names are, in order, each entry's DAG name, else its node name, with unnamed entries skipped: every name comes from an entry, every named entry contributes its name, and there is one name per entry when all are named |
| DuplicateNotification.NamesOfAppend | plugin/Object_replication_notification/Object_replication_notification.cpp:40-64 | the names of a selection are the names of its parts in order: one pass over the items, each contributing independently |
| DuplicateNotification.DefaultNameIsSubstringTest | plugin/Object_replication_notification/Object_replication_notification.cpp:89-97 | the three spelled-out set names add nothing to the substring test for "default" |
| DuplicateNotification.Notify | plugin/Object_replication_notification/Object_replication_notification.cpp:70-127 | silent before ready and in the Hypershade; any "default" name gives the failure message; otherwise none, one name, or a count |
| DuplicateNotification.CommandCarriesSubject | plugin/Object_replication_notification/Object_replication_notification.cpp:99-131 | every command is non-empty, so it is always run; it names the one duplicate, or carries the decimal count |
| DuplicateNotification.Step | plugin/Object_replication_notification/Object_replication_notification.cpp:25-29 | scene events and the enable command set the ready flag; a duplicate keeps it and may show a message only when ready |
| DuplicateNotification.Run | plugin/Object_replication_notification/Object_replication_notification.cpp:141-146 | after a session the flag is set iff some scene event or enable command occurred; one optional message per event |
| DuplicateNotification.SilentUntilReady | plugin/Object_replication_notification/Object_replication_notification.cpp:73-74 | duplicates before the first scene event or enable command show nothing |
| DuplicateNotification.AlwaysNotifiedOnceReady | plugin/Object_replication_notification/Object_replication_notification.cpp:70-131 | once ready, a duplicate outside the Hypershade with a non-empty readable selection always shows a message |
| DuplicateNotification.RunPrefix | plugin/Object_replication_notification/Object_replication_notification.cpp:70-74 | a message never depends on later events |
| Paths.Ancestors | NoGUI/autoSetProject/autoSetProject.py:44-54 | the directories visited: the start, then each one the dirname of the previous and different from it, none empty, ending where dirname reaches the empty path or a fixed point (a root, which is visited) |
| AutoSetProject.FindWorkspaceMelDir | NoGUI/autoSetProject/autoSetProject.py:42-55 | none is found iff no visited directory holds workspace.mel; otherwise the first one that does |
| AutoSetProject.SetProjectOnSceneOpen | NoGUI/autoSetProject/autoSetProject.py:18-40 | no scene does nothing; the search starts from the scene's directory written with backslashes; the project opened is, written with backslashes, the nearest visited directory holding workspace.mel, and none is opened iff no visited directory holds one |
| Paths.BaseName | NoGUI/autoSetProject/autoSave.py:27 | the part of the path after its last separator |
| Paths.StripExt | NoGUI/autoSetProject/autoSave.py:28 | a prefix of the name: what follows the last "." is dropped together with it, unless only dots precede it; a name without "." is unchanged |
| AutoSave.AutosaveFolder | NoGUI/autoSetProject/autoSave.py:27-32 | the folder holds no backslash |
| AutoSave.FolderEndsWithStem | NoGUI/autoSetProject/autoSave.py:27-32 | the folder is `<root>/autosave/<scene stem>`, with the stem unchanged |
| AutoSave.Commands | NoGUI/autoSetProject/autoSave.py:39-42 | four commands, in order: enable or disable, the destination in decimal, the folder in double quotes, the interval in decimal |
| AutoSave.SetAutosaveDirectory | NoGUI/autoSetProject/autoSave.py:21-45 | no scene does nothing; otherwise autosave is enabled with destination 1, that folder and 600 seconds; the folder is created iff missing; the commands issued are those of exactly these settings |
| AutoSave.ConfiguredCommandsAsWritten | NoGUI/autoSetProject/autoSave.py:39-42 | with a scene open the commands are literally `autoSave -en true;`, `autoSave -dst 1;`, `autoSave -fol "<folder>";` and `autoSave -int 600;` |
| MaterialExport.AscendAsWritten | WithGUI/Material_obj_Export.py:22-25 | when the climb stops, it is at the empty path or at a directory ending with "scenes" |
| MaterialExport.AscentSpinsAtForeignRoot | WithGUI/Material_obj_Export.py:24-25 | at a root not ending with "scenes" the climb never stops |
| MaterialExport.AscentHangsOutsideScenes | WithGUI/Material_obj_Export.py:22-25 | a start whose whole chain to a root lacks a "scenes" folder never stops |
| MaterialExport.AscendToScenes | WithGUI/Material_obj_Export.py:22-25 | the corrected climb finds nothing iff no visited directory ends with "scenes"; otherwise it finds a visited one that does |
| MaterialExport.AscendFindsNearest | WithGUI/Material_obj_Export.py:24-25 | the corrected climb stops at the nearest such directory |
| MaterialExport.IntendedAgreesWhereAscentStops | WithGUI/Material_obj_Export.py:22-25 | wherever the original climb stops at a directory, the corrected one stops at the same directory |
| MaterialExport.SceneDir | WithGUI/Material_obj_Export.py:20-28 | always ends with "scenes": the nearest directory above the scene that ends with "scenes", else the default `~/Documents/maya/scenes` |
| MaterialExport.ExportFolder | WithGUI/Material_obj_Export.py:31 | no forward slash; the scene folder written with backslashes, then one separator if it lacks one, then `Material_obj_Export` |
| MaterialExport.ShadingGroups | WithGUI/Material_obj_Export.py:52-55 | the connected shading groups, or the future-history ones when there are none |
| MaterialExport.SurfaceShaders | WithGUI/Material_obj_Export.py:62-66 | a material is gathered iff it feeds the surface shader of one of the groups |
| MaterialExport.MaterialsOf | WithGUI/Material_obj_Export.py:61-68 | the same materials, each once |
| MaterialExport.Proxies | WithGUI/Material_obj_Export.py:81-90 | one proxy per material, in order: named `<material>_pMesh_<i+1>`, a plane iff textured |
| MaterialExport.ProxyNamesDistinct | WithGUI/Material_obj_Export.py:82-83 | proxy names never clash, whatever the material names |
| MaterialExport.ApplySelectedMaterial | WithGUI/Material_obj_Export.py:43-98 | the three warnings change nothing; whenever the selected object has materials, the outcome is the proxies built from them; on success the old proxies go, there is one distinctly named proxy per material, a plane iff textured, and only they are remembered |
| MaterialExport.ExportFileName | WithGUI/Material_obj_Export.py:117-118 | the file name ends in ".mb"; an object name free of "_pMesh" is kept whole; no forward slash is brought in |
| MaterialExport.ExportPath | WithGUI/Material_obj_Export.py:118 | no forward slash; the export folder, written with backslashes, comes first and the file name, behind a backslash, last |
| Text.RemoveAllAddsNoChar | WithGUI/Material_obj_Export.py:117 | removing "_pMesh" brings in no character the name did not hold |
| MaterialExport.ExportNameOfProxy | WithGUI/Material_obj_Export.py:117-118 | the proxy of material m at index i is exported as m with every "_pMesh" removed, then `_<i+1>.mb` |
| MaterialExport.ExportNameOfPlainProxy | WithGUI/Material_obj_Export.py:117-118 | a material free of "_pMesh" keeps its name: `<material>_<i+1>.mb` |
| MaterialExport.ExportNamesDistinct | WithGUI/Material_obj_Export.py:117-118 | two proxies of one run never share an export file, whatever the material names |
| MaterialExport.ExportEach | WithGUI/Material_obj_Export.py:112-122 | exactly the remembered objects that still exist are exported |
| MaterialExport.ExportObjects | WithGUI/Material_obj_Export.py:102-126 | nothing remembered warns; otherwise the folder is created iff missing and every remaining object is exported to its path |
| MaterialExport.ImportStartDir | WithGUI/Material_obj_Export.py:129 | the dialog opens in the export folder when it exists, else in the scene folder |
| MaterialExport.ImportOpensAtScenes | WithGUI/Material_obj_Export.py:129 | the import dialog opens at the scenes folder found at load time, or at an existing `Material_obj_Export` folder beneath it |
| MaterialExport.ApplyMaterialBetweenSelected | WithGUI/Material_obj_Export.py:138-160 | fewer than two selected warns; otherwise it warns when the second one has no history shading group, or when that group's surface shader has no material; else the first selected receives the first material of the first group |
| MaterialExport.CopiedMaterialIsSourceMaterial | WithGUI/Material_obj_Export.py:145-157 | for a source object without directly connected groups, the copied material is one of the materials the export side gathers for that object |
| TextureReload.Start | WithGUI/tx_auto-reload.py:99-118 | while running it warns and keeps running; an interval of 0 or less warns and stays stopped; otherwise it starts |
| TextureReload.Stop | WithGUI/tx_auto-reload.py:124-133 | always ends stopped; it reports stopping iff it was running |
| TextureReload.StartStopRoundTrip | WithGUI/tx_auto-reload.py:99-133 | start then stop returns to stopped; a second start or stop is refused |
| TextureReload.WaitPeriod | WithGUI/tx_auto-reload.py:84-93 | the period sleeps the interval or until the stop is seen; the lines printed are exactly those the second-by-second schedule prints up to then |
| TextureReload.PrintedCountsDown | WithGUI/tx_auto-reload.py:85-92 | the schedule prints only in the last five seconds of an interval over 5, reading 5, 4, 3, 2, 1 in order |
| TextureReload.ReloadOne | WithGUI/tx_auto-reload.py:43-53 | a node with a path is re-set to that same path iff the path can be written; an empty path is skipped; a missing node, or one whose path cannot be written, fails |
| TextureReload.ReloadSelected | WithGUI/tx_auto-reload.py:36-53 | no selection warns; the texture paths come back unchanged; one outcome per node, in selection order |
| TextureReload.ReSetEach | WithGUI/tx_auto-reload.py:42-50 | writing each node's path back, skipping the failed writes, leaves the paths unchanged |
| TextureReload.RefreshFileList | WithGUI/tx_auto-reload.py:59-67 | the rows are the file nodes, or the single placeholder with a warning when there are none |
| TextureReload.PlaceholderOnlyWhenEmpty | WithGUI/tx_auto-reload.py:59-67 | with Maya node names, the placeholder row appears iff the warning is given |
| PivotMove.Vertices | NoGUI/Pivot_move_to_Selected_vertices.py:21 | keeps, in order, exactly the entries containing "." and "vtx" |
| PivotMove.VerticesAppend | NoGUI/Pivot_move_to_Selected_vertices.py:21 | the filter keeps each entry on its own, so it distributes over concatenation and keeps selection order |
| PivotMove.MeanWithin | NoGUI/Pivot_move_to_Selected_vertices.py:27-30 | the mean lies within the points' bounds on every axis |
| PivotMove.MeanOfCoincident | NoGUI/Pivot_move_to_Selected_vertices.py:27-34 | coinciding points, in particular a single vertex, have that point as mean |
| PivotMove.PlacePivots | NoGUI/Pivot_move_to_Selected_vertices.py:41-44 | both pivots of every selected object go to the point; other objects keep theirs |
| PivotMove.MovePivotToVertices | NoGUI/Pivot_move_to_Selected_vertices.py:16-51 | no vertex ends in the error branch with no pivot moved; otherwise the point is the mean (the vertex itself for one) and is set on both pivots of every selected object |
| ConnectSoften.DefaultRadio | WithGUI/ConnectComponents_SoftenEdge.py:73 | the window opens on button 1 iff the flag is set, else on button 2 |
| ConnectSoften.UpdateEdgeFlow | WithGUI/ConnectComponents_SoftenEdge.py:84-88 | the flag is set iff button 1 is selected |
| ConnectSoften.RadioRoundTrip | WithGUI/ConnectComponents_SoftenEdge.py:73-88 | the window's default button reflects the flag, and choosing a button sets the flag it shows |
| ConnectSoften.ConnectOrEdgeFlow | WithGUI/ConnectComponents_SoftenEdge.py:23-81 | no selection or object mode only shows the window; no mesh warns; otherwise edge flow is passed iff the flag is set, and the softened edges are exactly those the mesh has after but not before, with a warning when there are none |

## Left out

- Window construction, button wiring, `scriptJob` and plug-in callback registration and teardown, and every print, warning text and dialog text are not modelled. Warnings appear as outcome values.
- Host effects are not executed: `xform`, `polyMergeVertex`, `polyConnectComponents`, `polySoftEdge`, `hyperShade` assignment, file export and import, and `os.makedirs`. They become state updates or reported outcomes.
  - The edges a connection produces are an input.
  - A new object is assumed to receive the name requested for it. Maya renames on a clash.
- The background thread, `time.sleep`, the clock and `evalDeferred` of the texture reloader are left out. One waiting period is modelled, with the step at which the flag is seen cleared as a parameter.
- Floating point is not modelled: positions are exact reals. The snap tolerance compares squared distances. `int()` of a float truncates toward zero.
- `ntpath` drive letters and UNC prefixes are not modelled, and joins assume a relative second component. `dirname` and `exists` are abstract, with one assumed fact: `dirname` shortens a path or returns it unchanged at a root.
- `list(set(...))` in the material tool leaves the order of materials to Python. The model keeps first occurrences in order, so the proxy numbering is one of the orders Python may produce.
- The Python command strings of the duplicate notifier insert node names unquoted. A name holding a quote, which Maya does not allow, is not considered.
- `show_vertex_log`, `open_export_folder_in_explorer` (a `subprocess` launch) and the actual file import of `import_object` are not modelled.
- Crease_ui_Tool, SelectionInfoPlugin, rampShader_create, face_Invert_Normal and the random animation generator are not part of this model.
- VertexSnapper.LogSelectedVertices: requires the host to know a position for every selected vertex, as `pointPosition` does for a selected vertex.
- SavedPositions.Save: requires every selected node to have a uuid and every selected transform a pose, as the host guarantees for selected nodes. `Save` states that the store becomes `SaveAll` of the selection. The per-entry facts are in the three `SaveAll…` lemmas.
- SavedPositions.RowPointsAtItsEntry: assumes unique, space-free names, as Maya node names are. `LabelNameCanMisread` shows the assumption is needed.
- SelectionManager.DeleteSelection: states its result only for duplicate-free indices. The list widget never reports a row twice.
- SavedPositions.Restore: does not state that rows and store stay in step across several picked rows. A rename can give an entry a name another entry already holds, after which a row may read back as a different entry. `RestoreRowKeepsStep` states it for one row.
- SavedPositions.Delete: states which entries go only when rows and store are in step, names are unique and space-free, and every picked row is shown. Otherwise the name read from a row may find another entry, as `LabelNameCanMisread` shows.
- ShowHide.ToggleEach: assumes every `setAttr` on a visibility plug succeeds. On a locked or connected plug Maya raises, the loop stops there, later nodes keep their visibility and the remembered set is only partly updated. This is not modelled.
- ShowHide.ShowAll: assumes every `setAttr` on a visibility plug succeeds. A failure would stop the loop after an order Python chooses for the set, which is not modelled either.
- Apart from the locked plugs of ResetAttributes and the unsettable nodes of TextureReload, host commands are assumed to succeed.
- TextureReload.PlaceholderOnlyWhenEmpty: assumes file node names use only the characters Maya allows in node names. Names are not otherwise constrained in this model.

## Findings

| source | as written | input that shows it | evidently intended | confidence | as-written member | corrected member |
|---|---|---|---|---|---|---|
| WithGUI/Material_obj_Export.py:22-25 | the loop climbs with `dirname` while the path is non-empty and does not end with "scenes"; it has no other exit | a scene saved as `C:/work/shot.mb`: the climb reaches `C:/`, whose `dirname` is `C:/` again, so the loop never ends and loading the tool hangs (`MaterialExport.AscentHangsOutsideScenes`) | stop at a root as well, and fall back to the default scenes folder when no `scenes` folder is above the scene | high; not executed | MaterialExport.AscendAsWritten | MaterialExport.SceneDir |

=== FILE: auto_save.dfy ===
/** Automatic autosave configuration: whenever a scene is opened or saved, point Maya's autosave
    at `<project root>/autosave/<scene name without extension>` (written with forward slashes),
    creating the folder when it is missing, and switch autosave on every 600 seconds. */
module AutoSave {
  import opened Text
  import opened Paths

  const IntervalSeconds := 600

  /** The autosave settings the script writes. */
  datatype Settings = Settings(enabled: bool, destination: nat, folder: string, interval: nat)

  datatype Outcome =
    | NoScene
    | Configured(settings: Settings, createFolder: bool, commands: seq<string>)

  /** The folder for a scene under a project root. */
  function AutosaveFolder(root: string, scenePath: string): (r: string)
    ensures '\\' !in r
  {
    ToSlash(JoinPath(JoinPath(root, "autosave"), StripExt(BaseName(scenePath))))
  }

  /** The folder is the project's "autosave" folder with the scene's stem as last component,
      the stem appearing unchanged. */
  lemma FolderEndsWithStem(root: string, scenePath: string)
    ensures var stem := StripExt(BaseName(scenePath));
      AutosaveFolder(root, scenePath) == ToSlash(JoinPath(root, "autosave")) + "/" + stem
  {
    var name := BaseName(scenePath);
    var stem := StripExt(name);
    var base := JoinPath(root, "autosave");
    assert base[|base| - 1] == 'e';
    assert JoinPath(base, stem) == base + "\\" + stem;
    assert '\\' !in stem by {
      forall i | 0 <= i < |stem|
        ensures stem[i] != '\\'
      {
        assert stem[i] == name[i];
        assert !IsSep(name[i]);
      }
    }
    ReplaceCharAbsent(stem, '\\', '/');
    ReplaceCharAppend(base + "\\", stem, '\\', '/');
    ReplaceCharAppend(base, "\\", '\\', '/');
    assert ReplaceChar("\\", '\\', '/') == "/";
  }

  /** The MEL commands the script evaluates, in order. */
  function Commands(s: Settings): (r: seq<string>)
    ensures |r| == 4
    ensures r[0] == (if s.enabled then "autoSave -en true;" else "autoSave -en false;")
    ensures r[1] == "autoSave -dst " + NatToString(s.destination) + ";"
    ensures r[3] == "autoSave -int " + NatToString(s.interval) + ";"
    ensures r[2] == "autoSave -fol \"" + s.folder + "\";"
  {
    ["autoSave -en " + (if s.enabled then "true" else "false") + ";",
     "autoSave -dst " + NatToString(s.destination) + ";",
     "autoSave -fol \"" + s.folder + "\";",
     "autoSave -int " + NatToString(s.interval) + ";"]
  }

  /** `set_autosave_directory`; opening and saving a scene both run it. */
  function SetAutosaveDirectory(scenePath: string, root: string, fs: FileSystem): (r: Outcome)
    ensures scenePath == "" <==> r == NoScene
    ensures r.Configured? ==>
      && r.settings.enabled
      && r.settings.destination == 1
      && r.settings.interval == IntervalSeconds
      && r.settings.folder == AutosaveFolder(root, scenePath)
      && '\\' !in r.settings.folder
      && (r.createFolder <==> !fs.pathExists(r.settings.folder))
      && r.commands == Commands(r.settings)
  {
    if scenePath == "" then NoScene
    else
      var folder := AutosaveFolder(root, scenePath);
      var s := Settings(true, 1, folder, IntervalSeconds);
      Configured(s, !fs.pathExists(folder), Commands(s))
  }

  /** The decimal forms of the destination and the interval the script writes. */
  lemma ConstantDigits()
    ensures NatToString(1) == "1" && NatToString(IntervalSeconds) == "600"
  {
    assert NatToString(6) == "6";
    assert NatToString(60) == NatToString(6) + "0";
    assert NatToString(600) == NatToString(60) + "0";
  }

  /** Written out, the commands are exactly the four lines the script evaluates: enable,
      destination 1, the folder in double quotes, and a 600-second interval. */
  lemma ConfiguredCommandsAsWritten(scenePath: string, root: string, fs: FileSystem)
    requires scenePath != ""
    ensures var r := SetAutosaveDirectory(scenePath, root, fs);
      && r.Configured?
      && |r.commands| == 4
      && r.commands[0] == "autoSave -en true;"
      && r.commands[1] == "autoSave -dst 1;"
      && r.commands[2] == "autoSave -fol \"" + AutosaveFolder(root, scenePath) + "\";"
      && r.commands[3] == "autoSave -int 600;"
  {
    ConstantDigits();
    assert "autoSave -dst " + "1" + ";" == "autoSave -dst 1;";
    assert "autoSave -int " + "600" + ";" == "autoSave -int 600;";
  }
}

=== FILE: auto_set_project.dfy ===
/** Automatic project setting: when a scene is opened, climb from the scene's directory
    towards the root and open as project the first directory holding a `workspace.mel`. */
module AutoSetProject {
  import opened Options
  import opened Paths

  /** The file the search tests for in directory `d`. */
  function WorkspaceFile(d: string): string {
    ToBackslash(JoinPath(d, "workspace.mel"))
  }

  predicate HoldsWorkspace(d: string, fs: FileSystem) {
    fs.pathExists(WorkspaceFile(d))
  }

  /** `chain[k]` is `d`, holds a `workspace.mel`, and no earlier entry of `chain` does. */
  predicate FirstHoldingAt(chain: seq<string>, k: int, d: string, fs: FileSystem) {
    && 0 <= k < |chain|
    && chain[k] == d
    && HoldsWorkspace(d, fs)
    && forall j | 0 <= j < k :: !HoldsWorkspace(chain[j], fs)
  }

  /** `find_workspace_mel_dir`: the first visited directory that holds a `workspace.mel`. */
  method FindWorkspaceMelDir(start: string, fs: FileSystem) returns (found: Option<string>)
    requires DirnameShrinks(fs)
    ensures found.None? <==> forall d | d in Ancestors(start, fs) :: !HoldsWorkspace(d, fs)
    ensures found.Some? ==> exists k :: FirstHoldingAt(Ancestors(start, fs), k, found.value, fs)
  {
    var chain := Ancestors(start, fs);
    var current := start;
    var k := 0;
    while current != ""
      invariant 0 <= k <= |chain|
      invariant chain[k..] == Ancestors(current, fs)
      invariant forall j | 0 <= j < k :: !HoldsWorkspace(chain[j], fs)
      decreases |current|
    {
      assert chain[k] == current by {
        assert chain[k..][0] == current;
      }
      if fs.pathExists(WorkspaceFile(current)) {
        assert FirstHoldingAt(chain, k, current, fs);
        return Some(current);
      }
      var parent := fs.dirname(current);
      if parent == current {
        NoneHoldAtRoot(chain, k, fs);
        return None;
      }
      ChainStep(chain, k, fs);
      current := parent;
      k := k + 1;
    }
    assert |chain| == k by {
      assert chain[k..] == [];
    }
    return None;
  }

  /** At a root the visited chain ends, so a search that has not found a `workspace.mel` up to
      and including the root finds none. */
  lemma NoneHoldAtRoot(chain: seq<string>, k: nat, fs: FileSystem)
    requires DirnameShrinks(fs)
    requires k < |chain| && chain[k] != "" && chain[k..] == Ancestors(chain[k], fs)
    requires fs.dirname(chain[k]) == chain[k]
    requires forall j | 0 <= j <= k :: !HoldsWorkspace(chain[j], fs)
    ensures forall d | d in chain :: !HoldsWorkspace(d, fs)
  {
    assert chain[k..] == [chain[k]];
    assert |chain| == k + 1;
  }

  /** Below a non-root the chain continues with the parent's own chain. */
  lemma ChainStep(chain: seq<string>, k: nat, fs: FileSystem)
    requires DirnameShrinks(fs)
    requires k < |chain| && chain[k] != "" && chain[k..] == Ancestors(chain[k], fs)
    requires fs.dirname(chain[k]) != chain[k]
    ensures chain[k + 1..] == Ancestors(fs.dirname(chain[k]), fs)
  {
    assert chain[k + 1..] == chain[k..][1..];
  }

  datatype Outcome = NoScene | NoWorkspace | OpenedProject(dir: string)

  /** `set_project_on_scene_open`: the search starts from the scene's directory written with
      backslashes, and the directory found is opened written with backslashes. */
  method SetProjectOnSceneOpen(scenePath: string, fs: FileSystem) returns (outcome: Outcome)
    requires DirnameShrinks(fs)
    ensures scenePath == "" <==> outcome == NoScene
    ensures var start := ToBackslash(fs.dirname(scenePath));
      && (outcome.NoWorkspace? ==> scenePath != "" && forall d | d in Ancestors(start, fs) :: !HoldsWorkspace(d, fs))
      && (outcome.OpenedProject? ==>
            && '/' !in outcome.dir
            && exists d, k :: FirstHoldingAt(Ancestors(start, fs), k, d, fs) && outcome.dir == ToBackslash(d))
    ensures scenePath != "" && outcome.NoWorkspace? <==>
      scenePath != "" && forall d | d in Ancestors(ToBackslash(fs.dirname(scenePath)), fs) :: !HoldsWorkspace(d, fs)
  {
    if scenePath == "" {
      return NoScene;
    }
    var start := ToBackslash(fs.dirname(scenePath));
    var found := FindWorkspaceMelDir(start, fs);
    if found.None? {
      return NoWorkspace;
    }
    return OpenedProject(ToBackslash(found.value));
  }
}

=== FILE: connect_soften.dfy ===
/** Connect components and soften: in component mode with a selection, connect the selected
    components and soften exactly the edges the connection created; otherwise open a small
    window whose radio buttons choose whether the connection follows the edge flow. */
module ConnectSoften {
  import opened Options
  import opened Text

  /** What the script reads from the host: the selection, whether component mode is on, each
      transform's mesh shapes, and each mesh's edges before and after the connection (the
      connection itself is the host's). */
  datatype Host = Host(
    selection: seq<string>,
    componentMode: bool,
    shapes: map<string, seq<string>>,
    edgesBefore: map<string, set<string>>,
    edgesAfter: map<string, set<string>>)

  datatype Outcome =
    | ShowWindow(defaultRadio: int)
    | NoMesh
    | NoNewEdges(edgeFlow: bool)
    | Softened(edgeFlow: bool, mesh: string, edges: set<string>)

  /** The radio button selected when the window opens: 1 ("on") when the flag is set, else 2. */
  function DefaultRadio(useEdgeFlow: bool): (r: int)
    ensures r == 1 || r == 2
    ensures r == 1 <==> useEdgeFlow
  {
    if useEdgeFlow then 1 else 2
  }

  /** `update_edgeflow_state`: the flag is set exactly when button 1 is selected. */
  function UpdateEdgeFlow(radio: int): (r: bool)
    ensures r <==> radio == 1
  {
    radio == 1
  }

  /** Opening the window and leaving the buttons alone keeps the flag, and the window shows
      back a choice just made. */
  lemma RadioRoundTrip(useEdgeFlow: bool, radio: int)
    ensures UpdateEdgeFlow(DefaultRadio(useEdgeFlow)) == useEdgeFlow
    ensures radio == 1 || radio == 2 ==> DefaultRadio(UpdateEdgeFlow(radio)) == radio
  {
  }

  function EdgesOf(m: map<string, set<string>>, mesh: string): (r: set<string>)
    ensures mesh !in m ==> r == {}
  {
    match Get(m, mesh)
    case Some(es) => es
    case None => {}
  }

  /** `connect_or_edgeflow`. The object is the first selected component's name up to its
      first "."; its first mesh shape is connected, with edge flow when the flag is set, and
      the edges it has afterwards but did not have before are softened. */
  function ConnectOrEdgeFlow(useEdgeFlow: bool, h: Host): (r: Outcome)
    ensures h.selection == [] || !h.componentMode <==> r.ShowWindow?
    ensures r.ShowWindow? ==> r.defaultRadio == DefaultRadio(useEdgeFlow)
    ensures r == NoMesh <==>
      h.selection != [] && h.componentMode
      && Get(h.shapes, Before(h.selection[0], ".")).GetOr([]) == []
    ensures r.NoNewEdges? || r.Softened? ==>
      && h.selection != [] && h.componentMode
      && r.edgeFlow == useEdgeFlow
      && var shapes := Get(h.shapes, Before(h.selection[0], ".")).GetOr([]);
      && shapes != []
      && var after, before := EdgesOf(h.edgesAfter, shapes[0]), EdgesOf(h.edgesBefore, shapes[0]);
      && (r.NoNewEdges? <==> after <= before)
      && (r.Softened? ==> r.mesh == shapes[0] && r.edges != {})
      && (r.Softened? ==> forall e :: e in r.edges <==> e in after && e !in before)
  {
    if h.selection == [] || !h.componentMode then ShowWindow(DefaultRadio(useEdgeFlow))
    else
      var base := Before(h.selection[0], ".");
      var shapes := Get(h.shapes, base).GetOr([]);
      if shapes == [] then NoMesh
      else
        var mesh := shapes[0];
        var added := EdgesOf(h.edgesAfter, mesh) - EdgesOf(h.edgesBefore, mesh);
        if added == {} then
          assert EdgesOf(h.edgesAfter, mesh) <= EdgesOf(h.edgesBefore, mesh) by {
            forall e | e in EdgesOf(h.edgesAfter, mesh)
              ensures e in EdgesOf(h.edgesBefore, mesh)
            {
              assert e !in added;
            }
          }
          NoNewEdges(useEdgeFlow)
        else Softened(useEdgeFlow, mesh, added)
  }
}

=== FILE: duplicate_notification.dfy ===
/** The duplicate-notification plug-in: after every duplicate the host reports, it shows an
    in-view message naming the duplicated node, or counting them, or saying that something
    could not be duplicated; it stays silent until a scene has been opened or created, or the
    `enableDuplicateNotify` command has been run. */
module DuplicateNotification {
  import opened Options
  import opened Text

  /** One entry of the active selection list: the DAG node name when the entry has a DAG path,
      and the dependency node name when it has a node. */
  datatype Item = Item(dagName: Option<string>, dependName: Option<string>)

  datatype Message =
    | CouldNotDuplicate
    | DuplicatedOne(name: string)
    | DuplicatedMany(count: nat)

  /** What reaches the plug-in: the two scene events it listens to, its own command, and the
      after-duplicate callback together with the focused panel and the selection (`None` when
      the selection list cannot be read). */
  datatype Event =
    | SceneOpened
    | NewSceneOpened
    | EnableCommand
    | Duplicated(panel: string, selection: Option<seq<Item>>)

  /** The name one entry contributes: the DAG node name where there is one, else the
      dependency node name, else none. */
  function NameOf(it: Item): (r: Option<string>)
    ensures r.None? <==> it.dagName.None? && it.dependName.None?
    ensures it.dagName.Some? ==> r == it.dagName
    ensures it.dagName.None? ==> r == it.dependName
  {
    if it.dagName.Some? then it.dagName else it.dependName
  }

  /** `getSelectionNames`: the names the entries contribute, in selection order, and nothing
      when the selection list cannot be read. */
  function SelectionNames(selection: Option<seq<Item>>): (r: seq<string>)
    ensures selection.None? ==> r == []
    ensures selection.Some? ==> r == NamesOf(selection.value)
    ensures selection.Some? ==> |r| <= |selection.value|
    ensures selection.Some? ==> forall it | it in selection.value && NameOf(it).Some? :: NameOf(it).value in r
    ensures selection.Some? ==> forall n | n in r :: exists it | it in selection.value :: NameOf(it) == Some(n)
  {
    match selection
    case None => []
    case Some(items) => NamesOf(items)
  }

  function NamesOf(items: seq<Item>): (r: seq<string>)
    ensures |r| <= |items|
    ensures (forall it | it in items :: NameOf(it).Some?) ==> |r| == |items|
    ensures forall it | it in items && NameOf(it).Some? :: NameOf(it).value in r
    ensures forall n | n in r :: exists it | it in items :: NameOf(it) == Some(n)
  {
    if |items| == 0 then []
    else
      var front := NamesOf(items[..|items| - 1]);
      var it := items[|items| - 1];
      assert items == items[..|items| - 1] + [it];
      match NameOf(it)
      case Some(n) => front + [n]
      case None => front
  }

  /** The names of a selection are those of its parts, one after the other: each entry
      contributes its own name, in place. */
  lemma {:induction false} NamesOfAppend(a: seq<Item>, b: seq<Item>)
    ensures NamesOf(a + b) == NamesOf(a) + NamesOf(b)
    decreases |b|
  {
    if |b| == 0 {
      assert a + b == a;
    } else {
      assert (a + b)[..|a + b| - 1] == a + b[..|b| - 1];
      assert (a + b)[|a + b| - 1] == b[|b| - 1];
      NamesOfAppend(a, b[..|b| - 1]);
    }
  }

  /** A single entry contributes exactly its own name. */
  lemma NamesOfOne(it: Item)
    ensures NameOf(it).Some? ==> NamesOf([it]) == [NameOf(it).value]
    ensures NameOf(it).None? ==> NamesOf([it]) == []
  {
    assert [it][..0] == [];
  }

  /** The test for "default" objects: three set names spelled out, and any name containing
      "default". */
  predicate IsDefaultName(name: string) {
    || name == "defaultObjectSet"
    || name == "defaultLightSet"
    || name == "defaultHideFaceDataSet"
    || Contains(name, "default")
  }

  /** The three spelled-out names add nothing: the substring test alone decides. */
  lemma DefaultNameIsSubstringTest(name: string)
    ensures IsDefaultName(name) <==> Contains(name, "default")
  {
    OccursInMiddle("", "default", "ObjectSet");
    OccursInMiddle("", "default", "LightSet");
    OccursInMiddle("", "default", "HideFaceDataSet");
    assert "defaultObjectSet" == "" + "default" + "ObjectSet";
    assert "defaultLightSet" == "" + "default" + "LightSet";
    assert "defaultHideFaceDataSet" == "" + "default" + "HideFaceDataSet";
  }

  /** `afterDuplicateCallback`: the message to show, if any. */
  function Notify(ready: bool, panel: string, names: seq<string>): (r: Option<Message>)
    ensures !ready ==> r == None
    ensures ready && Contains(panel, "hyperShadePanel") ==> r == None
    ensures ready && !Contains(panel, "hyperShadePanel") ==>
      && ((exists n | n in names :: Contains(n, "default")) ==> r == Some(CouldNotDuplicate))
      && ((forall n | n in names :: !Contains(n, "default")) ==>
            && (|names| == 0 ==> r == None)
            && (|names| == 1 ==> r == Some(DuplicatedOne(names[0])))
            && (|names| >= 2 ==> r == Some(DuplicatedMany(|names|))))
  {
    if !ready then None
    else if Contains(panel, "hyperShadePanel") then None
    else if exists n | n in names :: IsDefaultName(n) then
      assert exists n | n in names :: Contains(n, "default") by {
        var n :| n in names && IsDefaultName(n);
        DefaultNameIsSubstringTest(n);
      }
      Some(CouldNotDuplicate)
    else
      assert forall n | n in names :: !Contains(n, "default") by {
        forall n | n in names
          ensures !Contains(n, "default")
        {
          DefaultNameIsSubstringTest(n);
        }
      }
      if |names| == 0 then None
      else if |names| == 1 then Some(DuplicatedOne(names[0]))
      else Some(DuplicatedMany(|names|))
  }

  const MessageTail := "</hl>', pos='topCenter', fade=True, fadeStayTime=2000, alpha=.9)"

  /** The Python command that shows a message in the viewport. */
  function Command(m: Message): string {
    match m
    case CouldNotDuplicate =>
      "import maya.cmds as cmds\ncmds.inViewMessage(amg='<hl>一部のオブジェクト、またはそのオブジェクトは複製できませんでした" + MessageTail
    case DuplicatedOne(name) =>
      "import maya.cmds as cmds\ncmds.inViewMessage(amg='<hl>" + name + " が複製されました" + MessageTail
    case DuplicatedMany(count) =>
      "import maya.cmds as cmds\ncmds.inViewMessage(amg='<hl>" + NatToString(count)
      + " つのオブジェクトが複製されました</hl>', pos=\"topCenter\", fade=True, fadeStayTime=2000, alpha=.9)"
  }

  /** The command shown for one duplicate names it, the one for several carries their number
      in decimal, and every command is non-empty, so it is always run. */
  lemma CommandCarriesSubject(m: Message)
    ensures |Command(m)| > 0
    ensures m.DuplicatedOne? ==> Contains(Command(m), m.name)
    ensures m.DuplicatedMany? ==> Contains(Command(m), NatToString(m.count))
  {
    var head := "import maya.cmds as cmds\ncmds.inViewMessage(amg='<hl>";
    match m
    case CouldNotDuplicate =>
    case DuplicatedOne(name) =>
      assert Command(m) == head + name + (" が複製されました" + MessageTail);
      OccursInMiddle(head, name, " が複製されました" + MessageTail);
    case DuplicatedMany(count) =>
      var tail := " つのオブジェクトが複製されました</hl>', pos=\"topCenter\", fade=True, fadeStayTime=2000, alpha=.9)";
      assert Command(m) == head + NatToString(count) + tail;
      OccursInMiddle(head, NatToString(count), tail);
  }

  /** One event: the ready flag after it, and the message it shows. */
  function Step(ready: bool, e: Event): (r: (bool, Option<Message>))
    ensures e.Duplicated? ==> r.0 == ready
    ensures !e.Duplicated? ==> r == (true, None)
    ensures r.1.Some? ==> ready && e.Duplicated?
  {
    match e
    case SceneOpened => (true, None)
    case NewSceneOpened => (true, None)
    case EnableCommand => (true, None)
    case Duplicated(panel, selection) => (ready, Notify(ready, panel, SelectionNames(selection)))
  }

  /** A session from plug-in load: the flag starts false; each event may show a message. */
  function Run(events: seq<Event>): (r: (bool, seq<Option<Message>>))
    ensures |r.1| == |events|
    ensures r.0 <==> exists k | 0 <= k < |events| :: !events[k].Duplicated?
  {
    if |events| == 0 then (false, [])
    else
      var (ready, shown) := Run(events[..|events| - 1]);
      var last := events[|events| - 1];
      var (ready', m) := Step(ready, last);
      assert forall k | 0 <= k < |events| - 1 :: events[..|events| - 1][k] == events[k];
      (ready', shown + [m])
  }

  /** Nothing is shown for duplicates before the first scene event or enabling command. */
  lemma {:induction false} SilentUntilReady(events: seq<Event>, k: nat)
    requires k < |events|
    requires forall j | 0 <= j <= k :: events[j].Duplicated?
    ensures Run(events).1[k] == None
  {
    var n := |events|;
    var front := events[..n - 1];
    if k < n - 1 {
      SilentUntilReady(front, k);
    } else {
      assert forall j | 0 <= j < n - 1 :: front[j] == events[j];
      assert !Run(front).0;
    }
  }

  /** Once ready, a duplicate outside the Hypershade that leaves a readable, non-empty
      selection always shows a message. */
  lemma AlwaysNotifiedOnceReady(events: seq<Event>, j: nat, k: nat)
    requires j < k < |events|
    requires !events[j].Duplicated? && events[k].Duplicated?
    requires !Contains(events[k].panel, "hyperShadePanel")
    requires SelectionNames(events[k].selection) != []
    ensures Run(events).1[k].Some?
  {
    var pre, upto := events[..k], events[..k + 1];
    assert upto[..k] == pre && upto[k] == events[k];
    assert pre[j] == events[j];
    ReadyAfter(pre, j);
    var m := Step(Run(pre).0, events[k]).1;
    NotifiedWhenReady(events[k].panel, SelectionNames(events[k].selection));
    assert m.Some?;
    RunSnoc(upto);
    assert Run(upto).1[k] == m;
    RunPrefix(events, k + 1);
  }

  lemma RunSnoc(events: seq<Event>)
    requires |events| > 0
    ensures var front := Run(events[..|events| - 1]);
      var step := Step(front.0, events[|events| - 1]);
      Run(events) == (step.0, front.1 + [step.1])
  {
  }

  lemma ReadyAfter(events: seq<Event>, j: nat)
    requires j < |events| && !events[j].Duplicated?
    ensures Run(events).0
  {
  }

  lemma NotifiedWhenReady(panel: string, names: seq<string>)
    requires !Contains(panel, "hyperShadePanel") && names != []
    ensures Notify(true, panel, names).Some?
  {
    if forall n | n in names :: !Contains(n, "default") {
      assert |names| >= 1;
    }
  }

  /** Running a prefix gives the prefix of the messages. */
  lemma {:induction false} RunPrefix(events: seq<Event>, n: nat)
    requires n <= |events|
    ensures Run(events[..n]).1 == Run(events).1[..n]
    decreases |events|
  {
    if n < |events| {
      var front := events[..|events| - 1];
      assert events[..n] == front[..n];
      RunPrefix(front, n);
    } else {
      assert events[..n] == events;
    }
  }
}

=== FILE: geometry.dfy ===
/** World-space vectors as exact reals (the host's doubles are not modelled) and Python's
    `int(x)` on a float. */
module Geometry {

  datatype Vec3 = Vec3(x: real, y: real, z: real)

  function Add(a: Vec3, b: Vec3): Vec3 {
    Vec3(a.x + b.x, a.y + b.y, a.z + b.z)
  }

  function Scale(a: Vec3, k: real): Vec3 {
    Vec3(a.x * k, a.y * k, a.z * k)
  }

  /** Squared Euclidean distance; compared against a squared tolerance instead of taking a root. */
  function SqDist(a: Vec3, b: Vec3): (d: real)
    ensures d >= 0.0
    ensures a == b ==> d == 0.0
  {
    var dx, dy, dz := a.x - b.x, a.y - b.y, a.z - b.z;
    dx * dx + dy * dy + dz * dz
  }

  /** Python's `int(x)`: truncation toward zero. */
  function Trunc(r: real): (i: int)
    ensures r >= 0.0 ==> i >= 0 && i as real <= r < i as real + 1.0
    ensures r < 0.0 ==> i <= 0 && i as real - 1.0 < r <= i as real
  {
    if r >= 0.0 then r.Floor else -((-r).Floor)
  }
}

=== FILE: material_export.dfy ===
/** The material export tool: it builds one proxy object per material of the selected object
    (a plane for textured materials, a sphere otherwise), exports the proxies as Maya binary
    files into a `Material_obj_Export` folder next to the project's `scenes` folder, and copies
    a material from one selected object to another. */
module MaterialExport {
  import opened Options
  import opened Text
  import opened Seqs
  import opened Paths

  // ---------------------------------------------------------------------------------------
  // Where the export folder lives
  // ---------------------------------------------------------------------------------------

  /** The upward search for the `scenes` folder as the script writes it: climb with `dirname`
      while the path is non-empty and does not end with "scenes". The loop has no other exit,
      so `fuel` bounds the number of climbs and `None` means it has not stopped yet. */
  function AscendAsWritten(d: string, fs: FileSystem, fuel: nat): (r: Option<string>)
    ensures r.Some? ==> r.value == "" || EndsWith(r.value, "scenes")
    decreases fuel
  {
    if d == "" || EndsWith(d, "scenes") then Some(d)
    else if fuel == 0 then None
    else AscendAsWritten(fs.dirname(d), fs, fuel - 1)
  }

  /** At a root (a path `dirname` maps to itself) that does not end with "scenes" the loop
      never stops, however many climbs it is allowed. */
  lemma {:induction false} AscentSpinsAtForeignRoot(d: string, fs: FileSystem, fuel: nat)
    requires d != "" && fs.dirname(d) == d && !EndsWith(d, "scenes")
    ensures AscendAsWritten(d, fs, fuel) == None
    decreases fuel
  {
    if fuel > 0 {
      AscentSpinsAtForeignRoot(d, fs, fuel - 1);
    }
  }

  /** So every scene that is not below a `scenes` folder and whose directory chain ends at a
      root hangs the script when it is loaded. */
  lemma {:induction false} AscentHangsOutsideScenes(d: string, fs: FileSystem, fuel: nat)
    requires DirnameShrinks(fs)
    requires Ancestors(d, fs) != []
    requires var a := Ancestors(d, fs); fs.dirname(a[|a| - 1]) == a[|a| - 1]
    requires forall a | a in Ancestors(d, fs) :: !EndsWith(a, "scenes")
    ensures AscendAsWritten(d, fs, fuel) == None
    decreases |d|
  {
    var parent := fs.dirname(d);
    assert d in Ancestors(d, fs);
    if parent == d {
      AscentSpinsAtForeignRoot(d, fs, fuel);
    } else if fuel > 0 {
      assert Ancestors(d, fs) == [d] + Ancestors(parent, fs);
      AscentHangsOutsideScenes(parent, fs, fuel - 1);
    }
  }

  /** The search as intended: climb to the nearest directory ending with "scenes", giving up
      at the empty path or at a root. */
  function AscendToScenes(d: string, fs: FileSystem): (r: Option<string>)
    requires DirnameShrinks(fs)
    ensures r.None? <==> forall a | a in Ancestors(d, fs) :: !EndsWith(a, "scenes")
    ensures r.Some? ==> EndsWith(r.value, "scenes") && r.value in Ancestors(d, fs)
    decreases |d|
  {
    if d == "" then None
    else if EndsWith(d, "scenes") then
      assert Ancestors(d, fs)[0] == d;
      Some(d)
    else
      var parent := fs.dirname(d);
      if parent == d then None
      else
        assert Ancestors(d, fs) == [d] + Ancestors(parent, fs);
        AscendToScenes(parent, fs)
  }

  /** `a[k]` is `x` and no earlier entry ends with "scenes". */
  predicate NearestAt(a: seq<string>, k: int, x: string) {
    0 <= k < |a| && a[k] == x && forall j | 0 <= j < k :: !EndsWith(a[j], "scenes")
  }

  /** The directory found is the nearest one: no directory visited before it ends with
      "scenes". */
  lemma {:induction false} AscendFindsNearest(d: string, fs: FileSystem)
    requires DirnameShrinks(fs)
    requires AscendToScenes(d, fs).Some?
    ensures exists k | 0 <= k < |Ancestors(d, fs)| :: NearestAt(Ancestors(d, fs), k, AscendToScenes(d, fs).value)
    decreases |d|
  {
    var a := Ancestors(d, fs);
    var r := AscendToScenes(d, fs).value;
    if EndsWith(d, "scenes") {
      assert NearestAt(a, 0, r) by {
        assert a[0] == d == r;
      }
    } else {
      var parent := fs.dirname(d);
      assert parent != d;
      var b := Ancestors(parent, fs);
      assert a == [d] + b;
      assert AscendToScenes(parent, fs) == AscendToScenes(d, fs);
      AscendFindsNearest(parent, fs);
      var k :| 0 <= k < |b| && NearestAt(b, k, r);
      assert NearestAt(a, k + 1, r) by {
        forall j | 0 <= j < k + 1
          ensures !EndsWith(a[j], "scenes")
        {
          if j > 0 {
            assert a[j] == b[j - 1];
          }
        }
      }
    }
  }

  /** Wherever the script's loop does stop at a directory, the intended search stops there too. */
  lemma {:induction false} IntendedAgreesWhereAscentStops(d: string, fs: FileSystem, fuel: nat)
    requires DirnameShrinks(fs)
    requires AscendAsWritten(d, fs, fuel).Some? && AscendAsWritten(d, fs, fuel).value != ""
    ensures AscendToScenes(d, fs) == AscendAsWritten(d, fs, fuel)
    decreases fuel
  {
    if d != "" && !EndsWith(d, "scenes") {
      var parent := fs.dirname(d);
      if parent == d {
        AscentSpinsAtForeignRoot(d, fs, fuel - 1);
      } else {
        IntendedAgreesWhereAscentStops(parent, fs, fuel - 1);
      }
    }
  }

  /** `~/Documents/maya/scenes` with the home directory expanded. */
  function DefaultSceneDir(home: string): (r: string)
    ensures EndsWith(r, "scenes")
  {
    var r := home + "/Documents/maya/scenes";
    assert r[|r| - 6..] == "scenes";
    r
  }

  /** The scene directory the tool settles on: the nearest `scenes` folder above a saved scene,
      and the default folder when the scene is unsaved or no `scenes` folder is above it. */
  function SceneDir(scenePath: string, home: string, fs: FileSystem): (r: string)
    requires DirnameShrinks(fs)
    ensures EndsWith(r, "scenes")
    ensures scenePath == "" ==> r == DefaultSceneDir(home)
    ensures scenePath != "" ==>
      var above := Ancestors(fs.dirname(scenePath), fs);
      && ((exists a | a in above :: EndsWith(a, "scenes")) ==> r in above && exists k :: NearestAt(above, k, r))
      && ((forall a | a in above :: !EndsWith(a, "scenes")) ==> r == DefaultSceneDir(home))
  {
    if scenePath == "" then DefaultSceneDir(home)
    else
      match AscendToScenes(fs.dirname(scenePath), fs)
      case Some(d) =>
        AscendFindsNearest(fs.dirname(scenePath), fs);
        d
      case None => DefaultSceneDir(home)
  }

  const FolderName := "Material_obj_Export"

  /** `os.path.join(scene_dir, "Material_obj_Export")` written with backslashes: the folder
      name is the last component, behind a separator unless the scene directory is empty. */
  function ExportFolder(sceneDir: string): (r: string)
    ensures '/' !in r
    ensures sceneDir == "" ==> r == FolderName
    ensures sceneDir != "" ==> EndsWith(r, "\\" + FolderName)
    ensures sceneDir != "" ==> ToBackslash(sceneDir) <= r
    ensures sceneDir != "" ==> |r| == |sceneDir| + (if IsSep(sceneDir[|sceneDir| - 1]) then 0 else 1) + |FolderName|
  {
    assert '/' !in FolderName;
    JoinKeepsLastComponent(sceneDir, FolderName);
    JoinKeepsDirectory(sceneDir, FolderName);
    ToBackslash(JoinPath(sceneDir, FolderName))
  }

  /** Joining and writing the result with backslashes keeps the directory, itself written
      with backslashes, in front. */
  lemma JoinKeepsDirectory(dir: string, tail: string)
    ensures ToBackslash(dir) <= ToBackslash(JoinPath(dir, tail))
  {
    var j := JoinPath(dir, tail);
    assert j[..|dir|] == dir;
    assert j == dir + j[|dir|..];
    ReplaceCharAppend(dir, j[|dir|..], '/', '\\');
  }

  /** Joining a slash-free component and writing the result with backslashes leaves the
      component, behind a backslash, at the end. */
  lemma JoinKeepsLastComponent(dir: string, tail: string)
    requires '/' !in tail
    ensures dir == "" ==> ToBackslash(JoinPath(dir, tail)) == tail
    ensures dir != "" ==> EndsWith(ToBackslash(JoinPath(dir, tail)), "\\" + tail)
  {
    ReplaceCharAbsent(tail, '/', '\\');
    if dir == "" {
      return;
    }
    var pre := if IsSep(dir[|dir| - 1]) then dir else dir + "\\";
    assert JoinPath(dir, tail) == pre + tail;
    ReplaceCharAppend(pre, tail, '/', '\\');
    var p := ToBackslash(pre);
    assert p[|p| - 1] == '\\';
    assert ToBackslash(pre + tail) == p + tail;
    assert (p + tail)[|p| - 1..] == [p[|p| - 1]] + tail;
  }

  // ---------------------------------------------------------------------------------------
  // Proxies for the materials of the first selected object
  // ---------------------------------------------------------------------------------------

  /** What the tool reads from the scene: the selection, each object's directly connected
      shading groups and the shading groups in its future history, the nodes feeding each
      shading group's surface shader, the materials that have a file texture, and the nodes
      that exist. */
  datatype Scene = Scene(
    selection: seq<string>,
    connectedGroups: map<string, seq<string>>,
    historyGroups: map<string, seq<string>>,
    surfaceShaders: map<string, seq<string>>,
    textured: set<string>,
    existing: set<string>)

  /** A query that answers `None` yields the empty list, as `or []` does in the script. */
  function Lookup(m: map<string, seq<string>>, k: string): (r: seq<string>)
    ensures k !in m ==> r == []
  {
    match Get(m, k)
    case Some(v) => v
    case None => []
  }

  /** The shading groups of an object: the connected ones, or failing that those in its
      future history. */
  function ShadingGroups(sc: Scene, obj: string): (r: seq<string>)
    ensures Lookup(sc.connectedGroups, obj) != [] ==> r == Lookup(sc.connectedGroups, obj)
    ensures Lookup(sc.connectedGroups, obj) == [] ==> r == Lookup(sc.historyGroups, obj)
  {
    var direct := Lookup(sc.connectedGroups, obj);
    if direct != [] then direct else Lookup(sc.historyGroups, obj)
  }

  /** The surface shaders of the given shading groups, group by group. */
  function SurfaceShaders(sc: Scene, groups: seq<string>): (r: seq<string>)
    ensures forall m | m in r :: exists g | g in groups :: m in Lookup(sc.surfaceShaders, g)
    ensures forall g, m | g in groups && m in Lookup(sc.surfaceShaders, g) :: m in r
  {
    if |groups| == 0 then []
    else
      var front := groups[..|groups| - 1];
      var g := groups[|groups| - 1];
      assert groups == front + [g];
      SurfaceShaders(sc, front) + Lookup(sc.surfaceShaders, g)
  }

  datatype Shape = Plane | Sphere

  /** A created object: its name, the material assigned to it and its shape. */
  datatype Proxy = Proxy(name: string, material: string, shape: Shape)

  /** The name of the proxy for the `i`-th material (counting from 0). */
  function ProxyName(material: string, i: nat): string {
    material + "_pMesh_" + NatToString(i + 1)
  }

  /** The proxies, one per material in order: a plane when the material has a texture, a
      sphere otherwise. */
  function Proxies(materials: seq<string>, textured: set<string>): (r: seq<Proxy>)
    ensures |r| == |materials|
    ensures forall i | 0 <= i < |r| ::
      && r[i].material == materials[i]
      && r[i].name == ProxyName(materials[i], i)
      && (r[i].shape == Plane <==> materials[i] in textured)
  {
    seq(|materials|, i requires 0 <= i < |materials| =>
      Proxy(ProxyName(materials[i], i), materials[i], if materials[i] in textured then Plane else Sphere))
  }

  function Names(ps: seq<Proxy>): (r: seq<string>)
    ensures |r| == |ps| && forall i | 0 <= i < |ps| :: r[i] == ps[i].name
  {
    seq(|ps|, i requires 0 <= i < |ps| => ps[i].name)
  }

  /** The digits a string ends with. */
  function TrailingDigits(s: string): (r: string)
    ensures |r| <= |s| && r == s[|s| - |r|..]
    ensures forall i | 0 <= i < |r| :: IsDigit(r[i])
    ensures |r| == |s| || !IsDigit(s[|s| - |r| - 1])
  {
    if |s| == 0 || !IsDigit(s[|s| - 1]) then ""
    else TrailingDigits(s[..|s| - 1]) + [s[|s| - 1]]
  }

  /** Digits written after a non-digit are exactly the digits the result ends with. */
  lemma TrailingDigitsAfter(p: string, d: string)
    requires |p| > 0 && !IsDigit(p[|p| - 1])
    requires forall i | 0 <= i < |d| :: IsDigit(d[i])
    ensures TrailingDigits(p + d) == d
  {
    var s := p + d;
    assert s[|s| - |d|..] == d;
  }

  /** The position a proxy was created for can be read back from the end of its name. */
  lemma ProxyIndexReadsBack(material: string, i: nat)
    ensures var t := TrailingDigits(ProxyName(material, i)); ParseDigits(t) == i + 1
  {
    var p := material + "_pMesh_";
    assert p[|p| - 1] == '_';
    assert ProxyName(material, i) == p + NatToString(i + 1);
    TrailingDigitsAfter(p, NatToString(i + 1));
    NatToStringRoundTrip(i + 1);
  }

  /** Proxy names never clash, even when two materials' names make it look as if they could. */
  lemma ProxyNamesDistinct(materials: seq<string>, textured: set<string>)
    ensures NoDup(Names(Proxies(materials, textured)))
  {
    var names := Names(Proxies(materials, textured));
    forall i, j | 0 <= i < j < |names|
      ensures names[i] != names[j]
    {
      ProxyIndexReadsBack(materials[i], i);
      ProxyIndexReadsBack(materials[j], j);
    }
  }

  datatype ApplyOutcome =
    | NothingSelected
    | NoShadingGroup
    | NoMaterial
    | Created(proxies: seq<Proxy>)

  /** The tool's list of the objects it created, the nodes that exist afterwards, and what
      happened. */
  datatype Applied = Applied(created: seq<string>, existing: set<string>, outcome: ApplyOutcome)

  /** The materials the tool builds proxies for: those of the first selected object's shading
      groups, each once. The script removes repeats through a set, whose order Python leaves
      open; the model keeps first occurrences in order. */
  function MaterialsOf(sc: Scene, obj: string): (r: seq<string>)
    ensures NoDup(r)
    ensures forall m :: m in r <==> m in SurfaceShaders(sc, ShadingGroups(sc, obj))
  {
    Dedup(SurfaceShaders(sc, ShadingGroups(sc, obj)))
  }

  /** `apply_selected_material_to_objects`: on success the previously created objects that
      still exist are deleted and one proxy per material is created and remembered. */
  function ApplySelectedMaterial(created: seq<string>, sc: Scene): (r: Applied)
    ensures sc.selection == [] ==> r == Applied(created, sc.existing, NothingSelected)
    ensures sc.selection != [] && ShadingGroups(sc, sc.selection[0]) == [] ==>
      r == Applied(created, sc.existing, NoShadingGroup)
    ensures sc.selection != [] && ShadingGroups(sc, sc.selection[0]) != [] ==>
      var ms := SurfaceShaders(sc, ShadingGroups(sc, sc.selection[0]));
      ms == [] ==> r == Applied(created, sc.existing, NoMaterial)
    ensures sc.selection != [] && MaterialsOf(sc, sc.selection[0]) != [] ==>
      r.outcome == Created(Proxies(MaterialsOf(sc, sc.selection[0]), sc.textured))
    ensures r.outcome.Created? ==>
      && sc.selection != []
      && var ms := SurfaceShaders(sc, ShadingGroups(sc, sc.selection[0]));
      && r.created == Names(r.outcome.proxies)
      && NoDup(r.created)
      && (forall m :: m in ms <==> exists p | p in r.outcome.proxies :: p.material == m)
      && (forall p | p in r.outcome.proxies :: p.shape == Plane <==> p.material in sc.textured)
      && (forall n :: n in r.existing <==> n in r.created || (n in sc.existing && n !in created))
  {
    if sc.selection == [] then Applied(created, sc.existing, NothingSelected)
    else
      var groups := ShadingGroups(sc, sc.selection[0]);
      if groups == [] then Applied(created, sc.existing, NoShadingGroup)
      else
        var materials := MaterialsOf(sc, sc.selection[0]);
        if materials == [] then
          Applied(created, sc.existing, NoMaterial)
        else
          var proxies := Proxies(materials, sc.textured);
          var names := Names(proxies);
          ProxyNamesDistinct(materials, sc.textured);
          assert forall m | m in materials :: exists p | p in proxies :: p.material == m by {
            forall m | m in materials
              ensures exists p | p in proxies :: p.material == m
            {
              var i := IndexOf(materials, m);
              assert proxies[i] in proxies;
            }
          }
          var remaining := set n | n in sc.existing && n !in created;
          Applied(names, remaining + (set n | n in names), Created(proxies))
  }

  // ---------------------------------------------------------------------------------------
  // Export
  // ---------------------------------------------------------------------------------------

  /** The file a created object is exported to: its name with every "_pMesh" removed, plus
      ".mb", inside the export folder, written with backslashes. */
  function ExportFileName(obj: string): (r: string)
    ensures |r| >= 3 && r[|r| - 3..] == ".mb"
    ensures !Contains(obj, "_pMesh") ==> r == obj + ".mb"
    ensures '/' !in obj ==> '/' !in r
  {
    var stem := RemoveAll(obj, "_pMesh");
    assert !Contains(obj, "_pMesh") ==> stem == obj by {
      if !Contains(obj, "_pMesh") { RemoveAllAbsent(obj, "_pMesh"); }
    }
    assert '/' !in obj ==> '/' !in stem by {
      if '/' !in obj { RemoveAllAddsNoChar(obj, "_pMesh", '/'); }
    }
    stem + ".mb"
  }

  /** The export file sits in the export folder: the folder written with backslashes, then a
      separator, then the file name. */
  function ExportPath(folder: string, obj: string): (r: string)
    ensures '/' !in r
    ensures ToBackslash(folder) <= r
    ensures '/' !in obj && folder == "" ==> r == ExportFileName(obj)
    ensures '/' !in obj && folder != "" ==> EndsWith(r, "\\" + ExportFileName(obj))
  {
    var name := ExportFileName(obj);
    JoinKeepsDirectory(folder, name);
    var path := ToBackslash(JoinPath(folder, name));
    assert '/' !in obj ==>
      (folder == "" ==> path == name) && (folder != "" ==> EndsWith(path, "\\" + name)) by {
      if '/' !in obj { JoinKeepsLastComponent(folder, name); }
    }
    path
  }

  /** A proxy is exported under its material's name with every "_pMesh" removed, followed by
      "_" and the proxy's number: the "_pMesh" the proxy name inserts is removed whole, and
      the number behind it survives. */
  lemma ExportNameOfProxy(material: string, i: nat)
    ensures ExportFileName(ProxyName(material, i)) == RemoveAll(material, "_pMesh") + "_" + NatToString(i + 1) + ".mb"
  {
    var pat := "_pMesh";
    var digits := NatToString(i + 1);
    var tail := "_" + digits;
    assert ProxyName(material, i) == material + pat + tail;
    RemoveAllSplits(material, pat, tail);
    assert forall k | 0 <= k < |tail| :: tail[k] != pat[1];
    AbsentCharBlocksOccurrence(tail, pat, 1);
    RemoveAllAbsent(tail, pat);
  }

  /** A material name free of "_pMesh" comes back unchanged in front of the number. */
  lemma ExportNameOfPlainProxy(material: string, i: nat)
    requires !Contains(material, "_pMesh")
    ensures ExportFileName(ProxyName(material, i)) == material + "_" + NatToString(i + 1) + ".mb"
  {
    ExportNameOfProxy(material, i);
    RemoveAllAbsent(material, "_pMesh");
  }

  /** A name followed by "_", a number and ".mb" gives the number back. */
  lemma NumberedFileNumber(a: string, n: nat, b: string, k: nat)
    requires a + "_" + NatToString(n) + ".mb" == b + "_" + NatToString(k) + ".mb"
    ensures n == k
  {
    var x, y := a + "_" + NatToString(n), b + "_" + NatToString(k);
    assert x == (x + ".mb")[..|x|];
    assert y == (y + ".mb")[..|y|];
    assert (a + "_")[|a|] == '_' && (b + "_")[|b|] == '_';
    TrailingDigitsAfter(a + "_", NatToString(n));
    TrailingDigitsAfter(b + "_", NatToString(k));
    NatToStringRoundTrip(n);
    NatToStringRoundTrip(k);
  }

  /** Export files of one run never overwrite each other, whatever the material names. */
  lemma ExportNamesDistinct(materials: seq<string>, i: nat, j: nat)
    requires i < j < |materials|
    ensures ExportFileName(ProxyName(materials[i], i)) != ExportFileName(ProxyName(materials[j], j))
  {
    ExportNameOfProxy(materials[i], i);
    ExportNameOfProxy(materials[j], j);
    if ExportFileName(ProxyName(materials[i], i)) == ExportFileName(ProxyName(materials[j], j)) {
      NumberedFileNumber(RemoveAll(materials[i], "_pMesh"), i + 1, RemoveAll(materials[j], "_pMesh"), j + 1);
    }
  }

  /** One exported object: the file name shown to the user and the full path. */
  datatype ExportedFile = ExportedFile(fileName: string, path: string)

  datatype ExportOutcome =
    | NothingToExport
    | Exported(createFolder: bool, files: seq<ExportedFile>)

  /** The export loop: objects that no longer exist are skipped. */
  function ExportEach(created: seq<string>, existing: set<string>, folder: string): (r: seq<ExportedFile>)
    ensures |r| <= |created|
    ensures forall o | o in created && o in existing :: ExportedFile(ExportFileName(o), ExportPath(folder, o)) in r
    ensures forall f | f in r ::
      exists o | o in created && o in existing :: f == ExportedFile(ExportFileName(o), ExportPath(folder, o))
  {
    if |created| == 0 then []
    else
      var front := created[..|created| - 1];
      var o := created[|created| - 1];
      assert created == front + [o];
      var done := ExportEach(front, existing, folder);
      if o in existing then done + [ExportedFile(ExportFileName(o), ExportPath(folder, o))] else done
  }

  /** `export_objects`: nothing to export warns; otherwise the folder is created when missing
      and every created object that still exists is exported. */
  function ExportObjects(created: seq<string>, existing: set<string>, folder: string, fs: FileSystem): (r: ExportOutcome)
    ensures created == [] <==> r == NothingToExport
    ensures r.Exported? ==>
      && (r.createFolder <==> !fs.pathExists(folder))
      && (forall o | o in created && o in existing ::
            ExportedFile(ExportFileName(o), ExportPath(folder, o)) in r.files)
      && (forall f | f in r.files :: exists o | o in created && o in existing ::
            f.path == ExportPath(folder, o) && f.fileName == ExportFileName(o))
  {
    if created == [] then NothingToExport
    else Exported(!fs.pathExists(folder), ExportEach(created, existing, folder))
  }

  /** `import_object`: the file dialog opens in the export folder when it exists, else in the
      scene directory. */
  function ImportStartDir(folder: string, sceneDir: string, fs: FileSystem): (r: string)
    ensures fs.pathExists(folder) ==> r == folder
    ensures !fs.pathExists(folder) ==> r == sceneDir
  {
    if fs.pathExists(folder) then folder else sceneDir
  }

  /** The dialog opens at the scene directory the tool settled on, or in the export folder
      inside it: either way at or below a `scenes` folder. */
  lemma ImportOpensAtScenes(scenePath: string, home: string, fs: FileSystem)
    requires DirnameShrinks(fs)
    ensures var dir := SceneDir(scenePath, home, fs);
      var r := ImportStartDir(ExportFolder(dir), dir, fs);
      || (r == dir && EndsWith(r, "scenes"))
      || (ToBackslash(dir) <= r && EndsWith(r, "\\" + FolderName) && fs.pathExists(r))
  {
  }

  // ---------------------------------------------------------------------------------------
  // Copying a material from the second selected object to the first
  // ---------------------------------------------------------------------------------------

  datatype CopyOutcome =
    | NeedTwoObjects
    | NoSourceGroup
    | NoSourceMaterial
    | Assigned(target: string, material: string)

  /** `apply_material_between_selected`: only the source's future-history shading groups are
      consulted, and the first surface shader of the first of them is assigned. */
  function ApplyMaterialBetweenSelected(sc: Scene): (r: CopyOutcome)
    ensures |sc.selection| < 2 <==> r == NeedTwoObjects
    ensures |sc.selection| >= 2 ==>
      var groups := Lookup(sc.historyGroups, sc.selection[1]);
      && (groups == [] <==> r == NoSourceGroup)
      && (groups != [] ==>
            && (Lookup(sc.surfaceShaders, groups[0]) == [] <==> r == NoSourceMaterial)
            && (r.Assigned? ==> r.material in SurfaceShaders(sc, groups))
            && (r.Assigned? ==> r.material == Lookup(sc.surfaceShaders, groups[0])[0]))
    ensures r.Assigned? ==> r.target == sc.selection[0]
  {
    if |sc.selection| < 2 then NeedTwoObjects
    else
      var groups := Lookup(sc.historyGroups, sc.selection[1]);
      if groups == [] then NoSourceGroup
      else
        var materials := Lookup(sc.surfaceShaders, groups[0]);
        if materials == [] then NoSourceMaterial
        else
          assert groups[0] in groups;
          Assigned(sc.selection[0], materials[0])
  }

  /** The material copied is one the proxy tool would build a proxy for, were the source
      object selected first and had it no directly connected shading group. */
  lemma CopiedMaterialIsSourceMaterial(sc: Scene)
    requires |sc.selection| >= 2
    requires Lookup(sc.connectedGroups, sc.selection[1]) == []
    requires ApplyMaterialBetweenSelected(sc).Assigned?
    ensures ApplyMaterialBetweenSelected(sc).material in MaterialsOf(sc, sc.selection[1])
  {
    var groups := Lookup(sc.historyGroups, sc.selection[1]);
    assert ShadingGroups(sc, sc.selection[1]) == groups;
  }
}

=== FILE: options.dfy ===
/** The optional value used across the model wherever a host query may come back empty
    (a uuid that no longer resolves, a search that finds nothing). */
module Options {

  datatype Option<+T> = None | Some(value: T) {

    /** The wrapped value, or `default` when there is none. */
    function GetOr(default: T): T {
      match this
      case Some(v) => v
      case None => default
    }
  }

  /** Map lookup that turns a missing key into `None`. */
  function Get<K, V>(m: map<K, V>, k: K): (r: Option<V>)
    ensures r.Some? <==> k in m
    ensures r.Some? ==> r.value == m[k]
  {
    if k in m then Some(m[k]) else None
  }

  /** Two maps that answer every lookup alike are equal. */
  lemma GetExtensional<K, V>(a: map<K, V>, b: map<K, V>)
    requires forall k :: Get(a, k) == Get(b, k)
    ensures a == b
  {
    forall k | k in a
      ensures k in b && a[k] == b[k]
    {
      assert Get(a, k).Some?;
    }
    forall k | k in b
      ensures k in a
    {
      assert Get(b, k).Some?;
    }
  }
}

=== FILE: paths.dfy ===
/** The path handling the scripts rely on. Separator replacement, joining, base names and
    extension stripping follow Python's `ntpath` (the scripts run under Windows); `dirname`
    and `exists` stay abstract and are handed in as a `FileSystem`. */
module Paths {
  import opened Text

  predicate IsSep(c: char) {
    c == '/' || c == '\\'
  }

  /** `p.replace('/', '\\')`. */
  function ToBackslash(p: string): (r: string)
    ensures |r| == |p| && '/' !in r
  {
    ReplaceCharLeavesNone(p, '/', '\\');
    ReplaceChar(p, '/', '\\')
  }

  /** `p.replace('\\', '/')`. */
  function ToSlash(p: string): (r: string)
    ensures |r| == |p| && '\\' !in r
  {
    ReplaceCharLeavesNone(p, '\\', '/');
    ReplaceChar(p, '\\', '/')
  }

  /** `os.path.join(a, b)` for a component `b` that is relative and carries no drive:
      a separator is inserted unless `a` is empty or already ends with one. */
  function JoinPath(a: string, b: string): (r: string)
    ensures a == "" ==> r == b
    ensures a != "" && IsSep(a[|a| - 1]) ==> r == a + b
    ensures a != "" && !IsSep(a[|a| - 1]) ==> r == a + "\\" + b
  {
    if a == "" then b else if IsSep(a[|a| - 1]) then a + b else a + "\\" + b
  }

  /** `os.path.basename(p)` (drive letters aside): what follows the last separator. */
  function BaseName(p: string): (r: string)
    ensures |r| <= |p| && r == p[|p| - |r|..]
    ensures forall i | 0 <= i < |r| :: !IsSep(r[i])
    ensures |r| == |p| || IsSep(p[|p| - |r| - 1])
  {
    if |p| == 0 then ""
    else if IsSep(p[|p| - 1]) then ""
    else BaseName(p[..|p| - 1]) + [p[|p| - 1]]
  }

  /** The last position of `c` in `s`, or -1. */
  function LastIndexOf(s: string, c: char): (i: int)
    ensures -1 <= i < |s|
    ensures i >= 0 ==> s[i] == c
    ensures forall j | i < j < |s| :: s[j] != c
  {
    if |s| == 0 then -1
    else if s[|s| - 1] == c then |s| - 1
    else LastIndexOf(s[..|s| - 1], c)
  }

  predicate AllDots(s: string) {
    forall i | 0 <= i < |s| :: s[i] == '.'
  }

  /** `os.path.splitext(name)[0]` for a separator-free `name`: the last extension is cut,
      unless only dots precede its dot (".bashrc", "..x" keep their full name). */
  function StripExt(name: string): (r: string)
    ensures r <= name
    ensures r != name ==> name[|r|] == '.' && '.' !in name[|r| + 1..] && !AllDots(r)
    ensures '.' !in name ==> r == name
    ensures var d := LastIndexOf(name, '.'); 0 <= d && !AllDots(name[..d]) ==> r == name[..d]
  {
    var d := LastIndexOf(name, '.');
    if d < 0 || AllDots(name[..d]) then name
    else
      assert name[d + 1..] == name[d + 1..|name|];
      assert forall j | d < j < |name| :: name[j] != '.';
      name[..d]
  }

  /** `os.path.dirname` and `os.path.exists`, which the model does not open up. */
  datatype FileSystem = FileSystem(dirname: string -> string, pathExists: string -> bool)

  /** The one fact about `dirname` that the scripts depend on: it either shortens the path
      or has reached a fixed point (the root). */
  ghost predicate DirnameShrinks(fs: FileSystem) {
    forall p :: fs.dirname(p) == p || |fs.dirname(p)| < |p|
  }

  /** The directories an upward search visits from `d`: `d` itself, then its parents, until
      the path is empty or `dirname` reaches a fixed point (the root, which is visited). */
  function Ancestors(d: string, fs: FileSystem): (r: seq<string>)
    requires DirnameShrinks(fs)
    ensures d == "" <==> r == []
    ensures r != [] ==> r[0] == d
    ensures forall k | 0 <= k < |r| :: r[k] != ""
    ensures forall k | 0 < k < |r| :: r[k] == fs.dirname(r[k - 1]) && r[k] != r[k - 1]
    ensures r != [] ==> fs.dirname(r[|r| - 1]) == r[|r| - 1] || fs.dirname(r[|r| - 1]) == ""
    decreases |d|
  {
    if d == "" then []
    else
      var parent := fs.dirname(d);
      if parent == d then [d] else [d] + Ancestors(parent, fs)
  }
}

=== FILE: pivot_move.dfy ===
/** Moving pivots to selected vertices: the selected objects' scale and rotate pivots go to the
    selected vertex, or to the mean position of several selected vertices. */
module PivotMove {
  import opened Options
  import opened Text
  import opened Geometry

  /** The selection entries the script treats as vertices: those containing both "." and
      "vtx", kept in selection order. */
  function Vertices(sel: seq<string>): (r: seq<string>)
    ensures |r| <= |sel|
    ensures forall c :: c in r <==> c in sel && Contains(c, ".") && Contains(c, "vtx")
  {
    if |sel| == 0 then []
    else
      var front := sel[..|sel| - 1];
      var c := sel[|sel| - 1];
      assert sel == front + [c];
      if Contains(c, ".") && Contains(c, "vtx") then Vertices(front) + [c] else Vertices(front)
  }

  /** Picking vertices distributes over concatenation: kept entries stay in selection order,
      each as often as it was selected. */
  lemma {:induction false} VerticesAppend(a: seq<string>, b: seq<string>)
    ensures Vertices(a + b) == Vertices(a) + Vertices(b)
    decreases |b|
  {
    if |b| > 0 {
      var b' := b[..|b| - 1];
      assert (a + b)[..|a + b| - 1] == a + b';
      assert (a + b)[|a + b| - 1] == b[|b| - 1];
      VerticesAppend(a, b');
    } else {
      assert a + b == a;
    }
  }

  /** A single entry is kept exactly when it names a vertex. */
  lemma VerticesOne(c: string)
    ensures Vertices([c]) == if Contains(c, ".") && Contains(c, "vtx") then [c] else []
  {
    assert [c][..0] == [];
  }

  datatype Axis = X | Y | Z

  function Coord(v: Vec3, a: Axis): real {
    match a
    case X => v.x
    case Y => v.y
    case Z => v.z
  }

  function Sum(ps: seq<Vec3>): Vec3 {
    if |ps| == 0 then Vec3(0.0, 0.0, 0.0) else Add(Sum(ps[..|ps| - 1]), ps[|ps| - 1])
  }

  /** The componentwise arithmetic mean, each axis summed and divided by the count. */
  function Mean(ps: seq<Vec3>): Vec3
    requires |ps| > 0
  {
    var s := Sum(ps);
    var n := |ps| as real;
    Vec3(s.x / n, s.y / n, s.z / n)
  }

  /** `x` added to itself `n` times. */
  function Times(n: nat, x: real): real {
    if n == 0 then 0.0 else Times(n - 1, x) + x
  }

  lemma {:induction false} TimesIsProduct(n: nat, x: real)
    ensures Times(n, x) == n as real * x
  {
    if n > 0 {
      TimesIsProduct(n - 1, x);
      assert n as real * x == (n - 1) as real * x + x;
    }
  }

  /** A sum of `n` coordinates between `lo` and `hi` lies between `n` times `lo` and `n` times
      `hi`. */
  lemma {:induction false} SumWithin(ps: seq<Vec3>, a: Axis, lo: real, hi: real)
    requires forall k | 0 <= k < |ps| :: lo <= Coord(ps[k], a) <= hi
    ensures Times(|ps|, lo) <= Coord(Sum(ps), a) <= Times(|ps|, hi)
  {
    if |ps| > 0 {
      var front := ps[..|ps| - 1];
      assert forall k | 0 <= k < |front| :: front[k] == ps[k];
      SumWithin(front, a, lo, hi);
      assert Coord(Sum(ps), a) == Coord(Sum(front), a) + Coord(ps[|ps| - 1], a) by {
        match a
        case X =>
        case Y =>
        case Z =>
      }
    }
  }

  /** The mean lies inside the bounding box of the points, on every axis. */
  lemma MeanWithin(ps: seq<Vec3>, a: Axis, lo: real, hi: real)
    requires |ps| > 0
    requires forall k | 0 <= k < |ps| :: lo <= Coord(ps[k], a) <= hi
    ensures lo <= Coord(Mean(ps), a) <= hi
  {
    SumWithin(ps, a, lo, hi);
    TimesQuotientWithin(Coord(Sum(ps), a), |ps|, lo, hi);
    MeanCoord(ps, a);
  }

  lemma MeanCoord(ps: seq<Vec3>, a: Axis)
    requires |ps| > 0
    ensures Coord(Mean(ps), a) == Coord(Sum(ps), a) / (|ps| as real)
  {
    match a
    case X =>
    case Y =>
    case Z =>
  }

  /** Dividing a sum bounded by `n` times `lo` and `n` times `hi` by `n`. */
  lemma TimesQuotientWithin(s: real, n: nat, lo: real, hi: real)
    requires n > 0 && Times(n, lo) <= s <= Times(n, hi)
    ensures lo <= s / (n as real) <= hi
  {
    TimesIsProduct(n, lo);
    TimesIsProduct(n, hi);
    QuotientWithin(s, n as real, lo, hi);
  }

  lemma QuotientWithin(s: real, n: real, lo: real, hi: real)
    requires n > 0.0 && n * lo <= s <= n * hi
    ensures lo <= s / n <= hi
  {
    var q := s / n;
    assert q * n == s;
    assert n * (q - lo) >= 0.0;
    assert n * (hi - q) >= 0.0;
  }

  /** Points that all coincide have that point as their mean; in particular a single vertex
      gives its own position, so the script's separate one-vertex branch agrees with the mean. */
  lemma MeanOfCoincident(ps: seq<Vec3>, p: Vec3)
    requires |ps| > 0
    requires forall k | 0 <= k < |ps| :: ps[k] == p
    ensures Mean(ps) == p
  {
    MeanWithin(ps, X, p.x, p.x);
    MeanWithin(ps, Y, p.y, p.y);
    MeanWithin(ps, Z, p.z, p.z);
  }

  datatype Pivots = Pivots(scalePivot: Vec3, rotatePivot: Vec3)

  /** The loop of `move` calls: each object's scale and rotate pivots go to `point`. */
  function PlacePivots(pivots: map<string, Pivots>, objects: seq<string>, point: Vec3): (r: map<string, Pivots>)
    ensures forall o | o in objects :: o in r && r[o] == Pivots(point, point)
    ensures forall o | o !in objects :: Get(r, o) == Get(pivots, o)
  {
    if |objects| == 0 then pivots
    else
      var front := objects[..|objects| - 1];
      var o := objects[|objects| - 1];
      assert objects == front + [o];
      PlacePivots(pivots, front, point)[o := Pivots(point, point)]
  }

  datatype Outcome =
    | NoVertexSelected
    | PositionUnreadable(vertex: string)
    | PivotsMoved(point: Vec3, pivots: map<string, Pivots>)

  /** The first vertex whose world position the host cannot give, if any. */
  function FirstUnreadable(vs: seq<string>, positions: map<string, Vec3>): (r: Option<string>)
    ensures r.None? <==> forall v | v in vs :: v in positions
    ensures r.Some? ==> r.value in vs && r.value !in positions
  {
    if |vs| == 0 then None
    else if vs[0] !in positions then Some(vs[0])
    else FirstUnreadable(vs[1..], positions)
  }

  /** The world positions of the vertices, in order. */
  function PositionsOf(vs: seq<string>, positions: map<string, Vec3>): (r: seq<Vec3>)
    requires forall v | v in vs :: v in positions
    ensures |r| == |vs| && forall k | 0 <= k < |vs| :: r[k] == positions[vs[k]]
  {
    seq(|vs|, k requires 0 <= k < |vs| => positions[vs[k]])
  }

  /** The whole script. Without a vertex it warns and then fails on reading the never-computed
      position when printing it, so it ends in the host error. With vertices it moves the
      pivots of the selected objects (the host's object selection, `objects`) to the target. */
  function MovePivotToVertices(sel: seq<string>, positions: map<string, Vec3>, objects: seq<string>,
                               pivots: map<string, Pivots>): (r: Outcome)
    ensures Vertices(sel) == [] <==> r == NoVertexSelected
    ensures r.PositionUnreadable? ==> r.vertex in Vertices(sel) && r.vertex !in positions
    ensures r.PivotsMoved? ==>
      && Vertices(sel) != []
      && (forall v | v in Vertices(sel) :: v in positions)
      && (forall o | o in objects :: o in r.pivots && r.pivots[o] == Pivots(r.point, r.point))
      && (forall o | o !in objects :: Get(r.pivots, o) == Get(pivots, o))
      && r.point == Mean(PositionsOf(Vertices(sel), positions))
    ensures r.PivotsMoved? && |Vertices(sel)| == 1 ==> r.point == positions[Vertices(sel)[0]]
  {
    var vs := Vertices(sel);
    if vs == [] then NoVertexSelected
    else
      match FirstUnreadable(vs, positions)
      case Some(v) => PositionUnreadable(v)
      case None =>
        var ps := PositionsOf(vs, positions);
        var point :=
          if |vs| > 1 then Mean(ps)
          else (MeanOfCoincident(ps, positions[vs[0]]); positions[vs[0]]);
        PivotsMoved(point, PlacePivots(pivots, objects, point))
  }
}

=== FILE: reset_attributes.dfy ===
/** The attribute-reset tool for NURBS curves: zero the chosen translate/rotate axes of each
    selected curve, skipping locked plugs, or zero all six channels of each curve, giving up
    on a curve at its first locked plug. */
module ResetAttributes {
  import opened Options

  datatype Kind = Translate | Rotate
  datatype Axis = X | Y | Z

  /** One scalar channel of a node, e.g. `curve1.translateX`. */
  datatype Plug = Plug(node: string, kind: Kind, axis: Axis)

  /** Channel values, the plugs that refuse `setAttr` (locked or connected), and the transforms
      that have at least one NURBS curve shape. */
  datatype Scene = Scene(values: map<Plug, real>, locked: set<Plug>, curves: set<string>)

  /** The three check boxes of one row. */
  datatype AxisChoice = AxisChoice(x: bool, y: bool, z: bool)

  function Chosen(c: AxisChoice, a: Axis): bool {
    match a
    case X => c.x
    case Y => c.y
    case Z => c.z
  }

  datatype CurveOutcome =
    | NotACurve(node: string)
    | ChosenReset(node: string, translated: bool, rotated: bool)
    | AllReset(node: string)
    | StoppedAt(node: string, plug: Plug)

  datatype Report = NoCurveSelected | PerCurve(outcomes: seq<CurveOutcome>)

  const Axes := [X, Y, Z]

  /** `setAttr(plug, 0)`, which a locked plug refuses. */
  function Zero(values: map<Plug, real>, locked: set<Plug>, p: Plug): map<Plug, real> {
    if p in locked then values else values[p := 0.0]
  }

  // ---------------------------------------------------------------- chosen axes

  /** One axis of the per-axis loop: the plug is zeroed when its box is ticked and it is not
      locked. */
  function ZeroAxis(values: map<Plug, real>, locked: set<Plug>, node: string, kind: Kind, choice: AxisChoice, a: Axis)
    : (r: map<Plug, real>)
    ensures forall p ::
      Get(r, p) == if p == Plug(node, kind, a) && Chosen(choice, a) && p !in locked then Some(0.0) else Get(values, p)
  {
    if Chosen(choice, a) then Zero(values, locked, Plug(node, kind, a)) else values
  }

  /** The per-axis loop for one kind of channel; also reports whether any plug was reset. */
  function ZeroChosen(values: map<Plug, real>, locked: set<Plug>, node: string, kind: Kind, choice: AxisChoice)
    : (r: (map<Plug, real>, bool))
    ensures forall p ::
      Get(r.0, p) == if p.node == node && p.kind == kind && Chosen(choice, p.axis) && p !in locked then Some(0.0) else Get(values, p)
    ensures r.1 <==> exists a | a in Axes :: Chosen(choice, a) && Plug(node, kind, a) !in locked
  {
    var v1 := ZeroAxis(values, locked, node, kind, choice, X);
    var v2 := ZeroAxis(v1, locked, node, kind, choice, Y);
    var v3 := ZeroAxis(v2, locked, node, kind, choice, Z);
    ZeroAxesValues(values, locked, node, kind, choice);
    var did :=
      || (Chosen(choice, X) && Plug(node, kind, X) !in locked)
      || (Chosen(choice, Y) && Plug(node, kind, Y) !in locked)
      || (Chosen(choice, Z) && Plug(node, kind, Z) !in locked);
    assert did ==> exists a | a in Axes :: Chosen(choice, a) && Plug(node, kind, a) !in locked by {
      assert X in Axes && Y in Axes && Z in Axes;
    }
    (v3, did)
  }

  lemma ZeroAxesValues(values: map<Plug, real>, locked: set<Plug>, node: string, kind: Kind, choice: AxisChoice)
    ensures var v1 := ZeroAxis(values, locked, node, kind, choice, X);
      var v2 := ZeroAxis(v1, locked, node, kind, choice, Y);
      forall p :: Get(ZeroAxis(v2, locked, node, kind, choice, Z), p) ==
        if p.node == node && p.kind == kind && Chosen(choice, p.axis) && p !in locked then Some(0.0) else Get(values, p)
  {
    var v1 := ZeroAxis(values, locked, node, kind, choice, X);
    var v2 := ZeroAxis(v1, locked, node, kind, choice, Y);
    forall p
      ensures Get(ZeroAxis(v2, locked, node, kind, choice, Z), p) ==
        if p.node == node && p.kind == kind && Chosen(choice, p.axis) && p !in locked then Some(0.0) else Get(values, p)
    {
      if p.node == node && p.kind == kind {
        assert p == Plug(node, kind, p.axis);
      }
    }
  }

  /** One curve of `reset_attributes`. */
  function ResetChosenOne(s: Scene, node: string, t: AxisChoice, rot: AxisChoice): (r: (Scene, CurveOutcome))
    ensures r.0.locked == s.locked && r.0.curves == s.curves
    ensures node !in s.curves ==> r == (s, NotACurve(node))
    ensures node in s.curves ==> forall p ::
      Get(r.0.values, p) == if p.node == node && ChosenTarget(s, [node], t, rot, p) then Some(0.0) else Get(s.values, p)
  {
    if node !in s.curves then (s, NotACurve(node))
    else
      var (v1, translated) := ZeroChosen(s.values, s.locked, node, Translate, t);
      var (v2, rotated) := ZeroChosen(v1, s.locked, node, Rotate, rot);
      (s.(values := v2), ChosenReset(node, translated, rotated))
  }

  /** Whether `reset_attributes` zeroes plug `p` for the selection `sel`. */
  predicate ChosenTarget(s: Scene, sel: seq<string>, t: AxisChoice, rot: AxisChoice, p: Plug) {
    && p.node in sel
    && p.node in s.curves
    && Chosen(if p.kind == Translate then t else rot, p.axis)
    && p !in s.locked
  }

  function ResetChosenEach(s: Scene, sel: seq<string>, t: AxisChoice, rot: AxisChoice): (r: (Scene, seq<CurveOutcome>))
    ensures r.0.locked == s.locked && r.0.curves == s.curves
    ensures |r.1| == |sel|
    ensures forall p ::
      Get(r.0.values, p) == if ChosenTarget(s, sel, t, rot, p) then Some(0.0) else Get(s.values, p)
  {
    if |sel| == 0 then (s, [])
    else
      var front := sel[..|sel| - 1];
      var node := sel[|sel| - 1];
      assert sel == front + [node];
      var (mid, outs) := ResetChosenEach(s, front, t, rot);
      var (last, out) := ResetChosenOne(mid, node, t, rot);
      (last, outs + [out])
  }

  /** `reset_attributes`: every chosen, unlocked channel of every selected curve becomes zero
      and every other value is left as it was; selected non-curves are reported. */
  function ResetChosen(s: Scene, sel: seq<string>, t: AxisChoice, rot: AxisChoice): (r: (Scene, Report))
    ensures sel == [] ==> r == (s, NoCurveSelected)
    ensures sel != [] ==> r.1.PerCurve? && |r.1.outcomes| == |sel|
    ensures r.0.locked == s.locked && r.0.curves == s.curves
    ensures forall p ::
      Get(r.0.values, p) == if ChosenTarget(s, sel, t, rot, p) then Some(0.0) else Get(s.values, p)
  {
    if sel == [] then (s, NoCurveSelected)
    else
      var (s', outs) := ResetChosenEach(s, sel, t, rot);
      (s', PerCurve(outs))
  }

  /** Resetting chosen axes is idempotent. */
  lemma ResetChosenIdempotent(s: Scene, sel: seq<string>, t: AxisChoice, rot: AxisChoice)
    ensures ResetChosen(ResetChosen(s, sel, t, rot).0, sel, t, rot).0 == ResetChosen(s, sel, t, rot).0
  {
    var once := ResetChosen(s, sel, t, rot).0;
    var twice := ResetChosen(once, sel, t, rot).0;
    forall p
      ensures Get(twice.values, p) == Get(once.values, p)
    {
      assert ChosenTarget(once, sel, t, rot, p) == ChosenTarget(s, sel, t, rot, p);
    }
    GetExtensional(twice.values, once.values);
  }

  // ---------------------------------------------------------------- all channels

  /** The order `reset_all_attributes` writes a curve's channels in: per axis, translate then
      rotate. */
  function AllPlugs(node: string): (r: seq<Plug>)
    ensures |r| == 6
    ensures forall k :: 0 <= k < 6 ==> r[k].node == node
    ensures forall p: Plug | p.node == node :: p in r
  {
    var r := [Plug(node, Translate, X), Plug(node, Rotate, X),
              Plug(node, Translate, Y), Plug(node, Rotate, Y),
              Plug(node, Translate, Z), Plug(node, Rotate, Z)];
    assert forall p: Plug | p.node == node :: r[Rank(p)] == p;
    r
  }

  /** Where a plug comes in `AllPlugs`. */
  function Rank(p: Plug): (k: nat)
    ensures k < 6
  {
    (match p.axis case X => 0 case Y => 2 case Z => 4) + (if p.kind == Translate then 0 else 1)
  }

  /** The index of the first locked plug among `plugs`, or `|plugs|` when none is locked. */
  function FirstLocked(plugs: seq<Plug>, locked: set<Plug>): (k: nat)
    ensures k <= |plugs|
    ensures forall j | 0 <= j < k :: plugs[j] !in locked
    ensures k < |plugs| ==> plugs[k] in locked
  {
    if |plugs| == 0 || plugs[0] in locked then 0
    else 1 + FirstLocked(plugs[1..], locked)
  }

  lemma {:induction false} FirstLockedNone(plugs: seq<Plug>, locked: set<Plug>)
    requires forall j | 0 <= j < |plugs| :: plugs[j] !in locked
    ensures FirstLocked(plugs, locked) == |plugs|
  {
    if |plugs| > 0 {
      FirstLockedNone(plugs[1..], locked);
    }
  }

  /** Writes zero to each plug in turn, stopping at the first locked one (the exception ends
      the whole `try` block). */
  function ZeroUntilLocked(values: map<Plug, real>, plugs: seq<Plug>, locked: set<Plug>): (r: map<Plug, real>)
    ensures forall p ::
      Get(r, p) == if p in plugs[..FirstLocked(plugs, locked)] then Some(0.0) else Get(values, p)
    decreases |plugs|
  {
    if |plugs| == 0 || plugs[0] in locked then values
    else
      var rest := ZeroUntilLocked(values[plugs[0] := 0.0], plugs[1..], locked);
      assert plugs[..FirstLocked(plugs, locked)] == [plugs[0]] + plugs[1..][..FirstLocked(plugs[1..], locked)];
      rest
  }

  function ResetAllOne(s: Scene, node: string): (r: (Scene, CurveOutcome))
    ensures r.0.locked == s.locked && r.0.curves == s.curves
    ensures node !in s.curves ==> r == (s, NotACurve(node))
    ensures node in s.curves ==>
      var k := FirstLocked(AllPlugs(node), s.locked);
      && (k == 6 ==> r.1 == AllReset(node))
      && (k < 6 ==> r.1 == StoppedAt(node, AllPlugs(node)[k]))
      && forall p :: Get(r.0.values, p) == if p in AllPlugs(node)[..k] then Some(0.0) else Get(s.values, p)
  {
    if node !in s.curves then (s, NotACurve(node))
    else
      var plugs := AllPlugs(node);
      var k := FirstLocked(plugs, s.locked);
      var values := ZeroUntilLocked(s.values, plugs, s.locked);
      (s.(values := values), if k == 6 then AllReset(node) else StoppedAt(node, plugs[k]))
  }

  /** Whether `reset_all_attributes` zeroes plug `p`: its node is a selected curve and the
      plug comes before the curve's first locked plug. */
  predicate AllTarget(s: Scene, sel: seq<string>, p: Plug) {
    var plugs := AllPlugs(p.node);
    && p.node in sel
    && p.node in s.curves
    && p in plugs[..FirstLocked(plugs, s.locked)]
  }

  function ResetAllEach(s: Scene, sel: seq<string>): (r: (Scene, seq<CurveOutcome>))
    ensures r.0.locked == s.locked && r.0.curves == s.curves
    ensures |r.1| == |sel|
    ensures forall p ::
      Get(r.0.values, p) == if AllTarget(s, sel, p) then Some(0.0) else Get(s.values, p)
  {
    if |sel| == 0 then (s, [])
    else
      var front := sel[..|sel| - 1];
      var node := sel[|sel| - 1];
      assert sel == front + [node];
      var (mid, outs) := ResetAllEach(s, front);
      var (last, out) := ResetAllOne(mid, node);
      ResetAllStep(s, front, node, mid, last);
      (last, outs + [out])
  }

  lemma ResetAllStep(s: Scene, front: seq<string>, node: string, mid: Scene, last: Scene)
    requires mid.locked == s.locked && mid.curves == s.curves
    requires forall p :: Get(mid.values, p) == if AllTarget(s, front, p) then Some(0.0) else Get(s.values, p)
    requires last == ResetAllOne(mid, node).0
    ensures forall p :: Get(last.values, p) == if AllTarget(s, front + [node], p) then Some(0.0) else Get(s.values, p)
  {
    forall p
      ensures Get(last.values, p) == if AllTarget(s, front + [node], p) then Some(0.0) else Get(s.values, p)
    {
      var plugs := AllPlugs(p.node);
      var prefix := plugs[..FirstLocked(plugs, s.locked)];
      if p.node != node {
        assert p !in AllPlugs(node);
        assert Get(last.values, p) == Get(mid.values, p);
        assert AllTarget(s, front + [node], p) == AllTarget(s, front, p);
      } else if node in s.curves {
        assert AllTarget(s, front + [node], p) <==> p in prefix;
        assert Get(last.values, p) == if p in prefix then Some(0.0) else Get(mid.values, p);
      } else {
        assert last == mid;
      }
    }
  }

  /** `reset_all_attributes`. */
  function ResetAll(s: Scene, sel: seq<string>): (r: (Scene, Report))
    ensures sel == [] ==> r == (s, NoCurveSelected)
    ensures sel != [] ==> r.1.PerCurve? && |r.1.outcomes| == |sel|
    ensures r.0.locked == s.locked && r.0.curves == s.curves
    ensures forall p ::
      Get(r.0.values, p) == if AllTarget(s, sel, p) then Some(0.0) else Get(s.values, p)
  {
    if sel == [] then (s, NoCurveSelected)
    else
      var (s', outs) := ResetAllEach(s, sel);
      (s', PerCurve(outs))
  }

  /** Without locked plugs, resetting all channels is resetting every axis of both kinds. */
  lemma ResetAllIsResetEverythingWhenUnlocked(s: Scene, sel: seq<string>)
    requires forall p: Plug | p.node in sel :: p !in s.locked
    ensures ResetAll(s, sel).0 == ResetChosen(s, sel, AxisChoice(true, true, true), AxisChoice(true, true, true)).0
  {
    var all := AxisChoice(true, true, true);
    var a := ResetAll(s, sel).0;
    var b := ResetChosen(s, sel, all, all).0;
    forall p
      ensures Get(a.values, p) == Get(b.values, p)
    {
      AllTargetWhenUnlocked(s, sel, p);
    }
    GetExtensional(a.values, b.values);
  }

  lemma AllTargetWhenUnlocked(s: Scene, sel: seq<string>, p: Plug)
    requires forall p: Plug | p.node in sel :: p !in s.locked
    ensures AllTarget(s, sel, p) == ChosenTarget(s, sel, AxisChoice(true, true, true), AxisChoice(true, true, true), p)
  {
    if p.node in sel {
      var plugs := AllPlugs(p.node);
      FirstLockedNone(plugs, s.locked);
      assert plugs[..FirstLocked(plugs, s.locked)] == plugs;
    }
  }

  /** A curve whose first channel (translateX) is locked is left entirely as it was. */
  lemma ResetAllStopsAtFirstLock(s: Scene, sel: seq<string>, node: string)
    requires Plug(node, Translate, X) in s.locked
    ensures forall p: Plug | p.node == node :: Get(ResetAll(s, sel).0.values, p) == Get(s.values, p)
  {
    assert FirstLocked(AllPlugs(node), s.locked) == 0;
  }
}

=== FILE: saved_positions.dfy ===
/** The save-and-restore-positions tool: a store of world-space poses keyed by node uuid (kept
    in insertion order, as a Python dict is), a list widget with one row per stored entry, and
    restore/delete driven by the rows the user picks, which are matched back to entries by the
    name in front of " || ". */
module SavedPositions {
  import opened Options
  import opened Text
  import opened Seqs
  import opened Geometry

  datatype Pose = Pose(translation: Vec3, rotation: Vec3)

  datatype Snapshot = Snapshot(uuid: string, name: string, pose: Pose)

  /** The host: the selection, which nodes are transforms, each existing node's uuid, the node
      each uuid resolves to, and the world-space pose of each transform. A node exists exactly
      when it has a uuid. */
  datatype Host = Host(
    selection: seq<string>,
    transforms: set<string>,
    uuidOf: map<string, string>,
    nameOf: map<string, string>,
    poses: map<string, Pose>)

  /** The stored entries and the rows the list widget shows. */
  datatype State = State(store: seq<Snapshot>, rows: seq<string>)

  datatype SaveNotice = Saved | NothingSelected | NotObjectMode

  datatype RowOutcome =
    | Moved(name: string)                      // found by name, the node still exists
    | MovedByUuid(uuid: string, name: string)  // the node was renamed; found through its uuid
    | Unresolved(uuid: string)                 // neither the name nor the uuid leads anywhere
    | NotInStore(name: string)                 // no entry carries the row's name
    | Removed(name: string)                    // delete: the entry and its row are gone

  datatype Report = NoRowSelected | PerRow(outcomes: seq<RowOutcome>)

  const Separator := " || "

  function Uuids(store: seq<Snapshot>): (r: seq<string>)
    ensures |r| == |store| && forall k | 0 <= k < |store| :: r[k] == store[k].uuid
  {
    seq(|store|, k requires 0 <= k < |store| => store[k].uuid)
  }

  function Names(store: seq<Snapshot>): (r: seq<string>)
    ensures |r| == |store| && forall k | 0 <= k < |store| :: r[k] == store[k].name
  {
    seq(|store|, k requires 0 <= k < |store| => store[k].name)
  }

  /** Distinct nodes have distinct uuids. */
  predicate UuidsUnique(h: Host) {
    forall a, b | a in h.uuidOf && b in h.uuidOf && a != b :: h.uuidOf[a] != h.uuidOf[b]
  }

  // ---------------------------------------------------------------- saving

  /** `is_object_mode`: stops at the first selected node that is not a transform. */
  function IsObjectMode(sel: seq<string>, transforms: set<string>): (r: bool)
    ensures r <==> forall o | o in sel :: o in transforms
  {
    if |sel| == 0 then true
    else if sel[0] !in transforms then false
    else
      assert forall o | o in sel :: o == sel[0] || o in sel[1..];
      IsObjectMode(sel[1..], transforms)
  }

  /** What the host reports for a selected transform. */
  function SnapshotOf(h: Host, o: string): Snapshot
    requires o in h.uuidOf && o in h.poses
  {
    Snapshot(h.uuidOf[o], o, h.poses[o])
  }

  /** One step of the saving loop: an entry with the same uuid is overwritten where it stands
      (name, position and rotation); a new uuid is appended at the end. */
  function Upsert(store: seq<Snapshot>, snap: Snapshot): (r: seq<Snapshot>)
    ensures snap in r
    ensures Uuids(r) == if snap.uuid in Uuids(store) then Uuids(store) else Uuids(store) + [snap.uuid]
    ensures forall k | 0 <= k < |store| && store[k].uuid != snap.uuid :: r[k] == store[k]
    ensures NoDup(Uuids(store)) ==> NoDup(Uuids(r))
    ensures NoDup(Uuids(store)) ==> forall k | 0 <= k < |r| && r[k].uuid == snap.uuid :: r[k] == snap
  {
    var ids := Uuids(store);
    if snap.uuid in ids then
      var k := IndexOf(ids, snap.uuid);
      var r := store[k := snap];
      assert Uuids(r) == ids;
      r
    else
      var r := store + [snap];
      assert Uuids(r) == ids + [snap.uuid];
      r
  }

  /** The saving loop over the whole selection. */
  function SaveAll(store: seq<Snapshot>, sel: seq<string>, h: Host): (r: seq<Snapshot>)
    requires forall o | o in sel :: o in h.uuidOf && o in h.poses
    ensures Uuids(store) <= Uuids(r)
    ensures forall o | o in sel :: h.uuidOf[o] in Uuids(r)
    ensures NoDup(Uuids(store)) ==> NoDup(Uuids(r))
  {
    if |sel| == 0 then store
    else
      var front := sel[..|sel| - 1];
      var o := sel[|sel| - 1];
      assert sel == front + [o];
      Upsert(SaveAll(store, front, h), SnapshotOf(h, o))
  }

  /** Entries whose uuid no selected node carries come through saving untouched. */
  lemma {:induction false} SaveAllLeavesOthers(store: seq<Snapshot>, sel: seq<string>, h: Host, k: nat)
    requires forall o | o in sel :: o in h.uuidOf && o in h.poses
    requires k < |store|
    requires forall o | o in sel :: h.uuidOf[o] != store[k].uuid
    ensures SaveAll(store, sel, h)[k] == store[k]
  {
    if |sel| > 0 {
      var front := sel[..|sel| - 1];
      SaveAllLeavesOthers(store, front, h, k);
      assert Uuids(store) <= Uuids(SaveAll(store, front, h));
    }
  }

  /** Entries saving appends belong to selected nodes. */
  lemma {:induction false} SaveAllAppendsSelected(store: seq<Snapshot>, sel: seq<string>, h: Host, k: nat)
    requires forall o | o in sel :: o in h.uuidOf && o in h.poses
    requires |store| <= k < |SaveAll(store, sel, h)|
    ensures exists o | o in sel :: SaveAll(store, sel, h)[k].uuid == h.uuidOf[o]
  {
    var r := SaveAll(store, sel, h);
    var front := sel[..|sel| - 1];
    var o := sel[|sel| - 1];
    var mid := SaveAll(store, front, h);
    if k < |mid| {
      assert r[k].uuid == Uuids(r)[k] == Uuids(mid)[k];
      SaveAllAppendsSelected(store, front, h, k);
      var p :| p in front && mid[k].uuid == h.uuidOf[p];
      assert p in sel;
    } else {
      assert r[k].uuid == h.uuidOf[o];
    }
  }

  /** With distinct uuids, every selected node's entry holds exactly what the host reports
      for it now: its name and its pose. */
  lemma {:induction false} SaveAllRecordsSelected(store: seq<Snapshot>, sel: seq<string>, h: Host, o: string, k: nat)
    requires forall x | x in sel :: x in h.uuidOf && x in h.poses
    requires NoDup(Uuids(store)) && UuidsUnique(h)
    requires o in sel && k < |SaveAll(store, sel, h)| && SaveAll(store, sel, h)[k].uuid == h.uuidOf[o]
    ensures SaveAll(store, sel, h)[k] == SnapshotOf(h, o)
  {
    var front := sel[..|sel| - 1];
    var last := sel[|sel| - 1];
    var mid := SaveAll(store, front, h);
    var r := SaveAll(store, sel, h);
    if o != last {
      assert o in front;
      assert h.uuidOf[o] != h.uuidOf[last];
      if k < |mid| {
        assert r[k] == mid[k];
        SaveAllRecordsSelected(store, front, h, o, k);
      }
    }
  }

  /** A pose rendered for a row: each coordinate truncated toward zero, space separated. */
  function Coords(v: Vec3): string {
    Join(" ", [IntToString(Trunc(v.x)), IntToString(Trunc(v.y)), IntToString(Trunc(v.z))])
  }

  /** The row for one entry. */
  function Label(s: Snapshot): (r: string)
    ensures s.name + Separator + "Tra: " <= r
    ensures var rot := " | Rot: " + Coords(s.pose.rotation); |rot| <= |r| && r[|r| - |rot|..] == rot
  {
    s.name + Separator + "Tra: " + Coords(s.pose.translation) + " | Rot: " + Coords(s.pose.rotation)
  }

  function Labels(store: seq<Snapshot>): (r: seq<string>)
    ensures |r| == |store| && forall k | 0 <= k < |store| :: r[k] == Label(store[k])
  {
    seq(|store|, k requires 0 <= k < |store| => Label(store[k]))
  }

  /** `save_selected_objects_and_positions`. */
  function Save(st: State, h: Host): (r: (State, SaveNotice))
    requires forall o | o in h.selection :: o in h.uuidOf && (o in h.transforms ==> o in h.poses)
    ensures h.selection == [] ==> r == (st, NothingSelected)
    ensures h.selection != [] && (exists o | o in h.selection :: o !in h.transforms) ==> r == (st, NotObjectMode)
    ensures h.selection != [] && (forall o | o in h.selection :: o in h.transforms) ==> r.1 == Saved
    ensures r.1 == Saved ==>
      && r.0.store == SaveAll(st.store, h.selection, h)
      && InStep(r.0)
      && Uuids(st.store) <= Uuids(r.0.store)
      && (forall o | o in h.selection :: h.uuidOf[o] in Uuids(r.0.store))
      && (NoDup(Uuids(st.store)) ==> NoDup(Uuids(r.0.store)))
  {
    if h.selection == [] then (st, NothingSelected)
    else if !IsObjectMode(h.selection, h.transforms) then (st, NotObjectMode)
    else
      var store := SaveAll(st.store, h.selection, h);
      (State(store, Labels(store)), Saved)
  }

  // ---------------------------------------------------------------- reading rows back

  /** The row for an entry whose name holds no space reads back as that name. */
  lemma LabelNameRoundTrip(s: Snapshot)
    requires ' ' !in s.name
    ensures Before(Label(s), Separator) == s.name
  {
    var tail := "Tra: " + Coords(s.pose.translation) + " | Rot: " + Coords(s.pose.rotation);
    assert Label(s) == s.name + Separator + tail;
    BeforeFirstOccurrence(s.name, Separator, tail);
  }

  /** Names may hold spaces in general, and then the row can read back as another name:
      the entry named "a ||" is shown in a row that reads back as "a". */
  lemma LabelNameCanMisread(u: string, p: Pose)
    ensures Before(Label(Snapshot(u, "a ||", p)), Separator) == "a"
  {
    var tail := "|| Tra: " + Coords(p.translation) + " | Rot: " + Coords(p.rotation);
    assert Label(Snapshot(u, "a ||", p)) == "a" + Separator + tail;
    BeforeFirstOccurrence("a", Separator, tail);
  }

  /** The first entry with a given name. */
  function FirstNamed(store: seq<Snapshot>, name: string): (r: Option<nat>)
    ensures r.Some? ==> r.value < |store| && store[r.value].name == name
    ensures r.Some? ==> forall j | 0 <= j < r.value :: store[j].name != name
    ensures r.None? <==> forall j | 0 <= j < |store| :: store[j].name != name
  {
    if name in Names(store) then Some(IndexOf(Names(store), name)) else None
  }

  /** Rows of uniquely named, space-free entries point back at their own entry: the row at
      `k` is the first row with its text, and its name finds entry `k`. */
  lemma RowPointsAtItsEntry(store: seq<Snapshot>, k: nat)
    requires k < |store|
    requires NoDup(Names(store))
    requires forall j | 0 <= j < |store| :: ' ' !in store[j].name
    ensures FirstNamed(store, Before(Label(store[k]), Separator)) == Some(k)
    ensures Label(store[k]) in Labels(store) && IndexOf(Labels(store), Label(store[k])) == k
  {
    LabelNameRoundTrip(store[k]);
    var rows := Labels(store);
    var i := IndexOf(rows, Label(store[k]));
    LabelNameRoundTrip(store[i]);
    assert Names(store)[i] == Names(store)[k];
  }

  // ---------------------------------------------------------------- restoring

  /** The row list after a rename: the first row with the old text is replaced in place. */
  function ReplaceRow(rows: seq<string>, was: string, now: string): (r: seq<string>)
    ensures |r| == |rows|
    ensures was !in rows ==> r == rows
    ensures was in rows ==> r == rows[IndexOf(rows, was) := now]
  {
    if was in rows then rows[IndexOf(rows, was) := now] else rows
  }

  /** One row of `restore_selected_object_position`. */
  function RestoreRow(st: State, h: Host, row: string): (r: (State, Host, RowOutcome))
    ensures r.1.selection == h.selection && r.1.uuidOf == h.uuidOf && r.1.nameOf == h.nameOf
    ensures Uuids(r.0.store) == Uuids(st.store)
    ensures |r.0.rows| == |st.rows|
    ensures FirstNamed(st.store, Before(row, Separator)).None? ==>
      r == (st, h, NotInStore(Before(row, Separator)))
    ensures FirstNamed(st.store, Before(row, Separator)).Some? ==>
      var k := FirstNamed(st.store, Before(row, Separator)).value;
      var name := Before(row, Separator);
      && (name in h.uuidOf ==> r == (st, h.(poses := h.poses[name := st.store[k].pose]), Moved(name)))
      && (name !in h.uuidOf && st.store[k].uuid in h.nameOf ==>
            var renamed := h.nameOf[st.store[k].uuid];
            && r.1.poses == h.poses[renamed := st.store[k].pose]
            && r.0.store == st.store[k := st.store[k].(name := renamed)]
            && r.2 == MovedByUuid(st.store[k].uuid, renamed))
      && (name !in h.uuidOf && st.store[k].uuid !in h.nameOf ==> r == (st, h, Unresolved(st.store[k].uuid)))
  {
    var name := Before(row, Separator);
    match FirstNamed(st.store, name)
    case None => (st, h, NotInStore(name))
    case Some(k) =>
      var snap := st.store[k];
      if name in h.uuidOf then
        (st, h.(poses := h.poses[name := snap.pose]), Moved(name))
      else if snap.uuid in h.nameOf then
        var renamed := snap.(name := h.nameOf[snap.uuid]);
        var store := st.store[k := renamed];
        assert Uuids(store) == Uuids(st.store);
        (State(store, ReplaceRow(st.rows, row, Label(renamed))), h.(poses := h.poses[renamed.name := snap.pose]),
         MovedByUuid(snap.uuid, renamed.name))
      else
        (st, h, Unresolved(snap.uuid))
  }

  /** Rows in step with the store: row `k` shows entry `k`. */
  predicate InStep(st: State) {
    st.rows == Labels(st.store)
  }

  /** With uniquely named, space-free entries, restoring any shown row moves the node to the
      pose its entry holds, and keeps rows and store in step even when the node was renamed. */
  lemma RestoreRowKeepsStep(st: State, h: Host, k: nat)
    requires InStep(st) && k < |st.store|
    requires NoDup(Names(st.store))
    requires forall j | 0 <= j < |st.store| :: ' ' !in st.store[j].name
    ensures var r := RestoreRow(st, h, st.rows[k]);
      && InStep(r.0)
      && (r.2.Moved? || r.2.MovedByUuid? ==> r.2.name in r.1.poses && r.1.poses[r.2.name] == st.store[k].pose)
      && (r.2.Moved? ==> r.2.name == st.store[k].name)
      && (r.2.MovedByUuid? ==> r.2.uuid == st.store[k].uuid)
      && !r.2.NotInStore?
  {
    RowPointsAtItsEntry(st.store, k);
    var r := RestoreRow(st, h, st.rows[k]);
    var name := st.store[k].name;
    if name !in h.uuidOf && st.store[k].uuid in h.nameOf {
      var renamed := st.store[k].(name := h.nameOf[st.store[k].uuid]);
      assert r.0.rows == st.rows[k := Label(renamed)];
      assert r.0.store == st.store[k := renamed];
      assert Labels(r.0.store) == st.rows[k := Label(renamed)];
    }
  }

  /** `restore_selected_object_position` over every picked row, in order. */
  function RestoreRows(st: State, h: Host, picked: seq<string>): (r: (State, Host, seq<RowOutcome>))
    ensures |r.2| == |picked|
    ensures Uuids(r.0.store) == Uuids(st.store)
    ensures r.1.uuidOf == h.uuidOf && r.1.nameOf == h.nameOf
  {
    if |picked| == 0 then (st, h, [])
    else
      var front := RestoreRows(st, h, picked[..|picked| - 1]);
      var last := RestoreRow(front.0, front.1, picked[|picked| - 1]);
      (last.0, last.1, front.2 + [last.2])
  }

  /** Restoring rows one batch after another is restoring them all at once. */
  lemma {:induction false} RestoreRowsAppend(st: State, h: Host, a: seq<string>, b: seq<string>)
    ensures var m := RestoreRows(st, h, a);
      var n := RestoreRows(m.0, m.1, b);
      RestoreRows(st, h, a + b) == (n.0, n.1, m.2 + n.2)
    decreases |b|
  {
    var m := RestoreRows(st, h, a);
    if |b| == 0 {
      assert a + b == a;
      assert RestoreRows(m.0, m.1, b) == (m.0, m.1, []);
      assert m.2 + [] == m.2;
    } else {
      var b', x := b[..|b| - 1], b[|b| - 1];
      assert (a + b)[..|a + b| - 1] == a + b';
      assert (a + b)[|a + b| - 1] == x;
      RestoreRowsAppend(st, h, a, b');
      var n' := RestoreRows(m.0, m.1, b');
      var last := RestoreRow(n'.0, n'.1, x);
      assert RestoreRows(st, h, a + b) == (last.0, last.1, (m.2 + n'.2) + [last.2]);
      assert RestoreRows(m.0, m.1, b) == (last.0, last.1, n'.2 + [last.2]);
      assert (m.2 + n'.2) + [last.2] == m.2 + (n'.2 + [last.2]);
    }
  }

  /** Outcome `k` is what restoring row `k` reports, against the store and scene the first
      `k` rows left behind: the rows are handled one by one, in the order they were picked. */
  lemma RestoreRowsInOrder(st: State, h: Host, picked: seq<string>, k: nat)
    requires k < |picked|
    ensures var m := RestoreRows(st, h, picked[..k]);
      RestoreRows(st, h, picked).2[k] == RestoreRow(m.0, m.1, picked[k]).2
  {
    var m := RestoreRows(st, h, picked[..k]);
    var upto := picked[..k + 1];
    assert upto[..k] == picked[..k] && upto[k] == picked[k];
    var step := RestoreRows(st, h, upto);
    assert step.2 == m.2 + [RestoreRow(m.0, m.1, picked[k]).2];
    assert picked == upto + picked[k + 1..];
    RestoreRowsAppend(st, h, upto, picked[k + 1..]);
    assert RestoreRows(st, h, picked).2[k] == step.2[k];
  }

  function Restore(st: State, h: Host, picked: seq<string>): (r: (State, Host, Report))
    ensures picked == [] ==> r == (st, h, NoRowSelected)
    ensures picked != [] ==> r.2.PerRow? && |r.2.outcomes| == |picked|
    ensures picked != [] ==> forall k | 0 <= k < |picked| ::
      var m := RestoreRows(st, h, picked[..k]);
      r.2.outcomes[k] == RestoreRow(m.0, m.1, picked[k]).2
    ensures picked != [] ==>
      var m := RestoreRows(st, h, picked[..|picked| - 1]);
      var last := RestoreRow(m.0, m.1, picked[|picked| - 1]);
      r.0 == last.0 && r.1 == last.1
    ensures Uuids(r.0.store) == Uuids(st.store)
  {
    if picked == [] then (st, h, NoRowSelected)
    else
      var (st', h', outcomes) := RestoreRows(st, h, picked);
      assert forall k | 0 <= k < |picked| ::
        var m := RestoreRows(st, h, picked[..k]);
        outcomes[k] == RestoreRow(m.0, m.1, picked[k]).2
      by {
        forall k | 0 <= k < |picked|
          ensures var m := RestoreRows(st, h, picked[..k]);
            outcomes[k] == RestoreRow(m.0, m.1, picked[k]).2
        {
          RestoreRowsInOrder(st, h, picked, k);
        }
      }
      (st', h', PerRow(outcomes))
  }

  // ---------------------------------------------------------------- deleting

  /** The widget's `removeItem`: drop the first row with the given text. */
  function RemoveRow(rows: seq<string>, row: string): (r: seq<string>)
    ensures row in rows ==> r == RemoveAt(rows, IndexOf(rows, row))
    ensures row !in rows ==> r == rows
  {
    if row in rows then RemoveAt(rows, IndexOf(rows, row)) else rows
  }

  /** One row of `delete_selected_from_list`: the first entry with the row's name goes, and so
      does the first row with the row's text. */
  function DeleteRow(st: State, row: string): (r: (State, RowOutcome))
    ensures FirstNamed(st.store, Before(row, Separator)).None? ==> r == (st, NotInStore(Before(row, Separator)))
    ensures FirstNamed(st.store, Before(row, Separator)).Some? ==>
      var k := FirstNamed(st.store, Before(row, Separator)).value;
      && r.0.store == RemoveAt(st.store, k)
      && r.0.rows == RemoveRow(st.rows, row)
      && r.1 == Removed(Before(row, Separator))
    ensures NoDup(Uuids(st.store)) ==> NoDup(Uuids(r.0.store))
  {
    var name := Before(row, Separator);
    match FirstNamed(st.store, name)
    case None => (st, NotInStore(name))
    case Some(k) =>
      var store := RemoveAt(st.store, k);
      assert NoDup(Uuids(st.store)) ==> NoDup(Uuids(store)) by {
        if NoDup(Uuids(st.store)) {
          forall i, j | 0 <= i < j < |store|
            ensures store[i].uuid != store[j].uuid
          {
            var i', j' := if i < k then i else i + 1, if j < k then j else j + 1;
            assert Uuids(st.store)[i'] != Uuids(st.store)[j'];
          }
        }
      }
      (State(store, RemoveRow(st.rows, row)), Removed(name))
  }

  /** With uniquely named, space-free entries, deleting a shown row removes exactly its entry
      and its row, and rows and store stay in step. */
  lemma DeleteRowKeepsStep(st: State, k: nat)
    requires InStep(st) && k < |st.store|
    requires NoDup(Names(st.store))
    requires forall j | 0 <= j < |st.store| :: ' ' !in st.store[j].name
    ensures var r := DeleteRow(st, st.rows[k]);
      && r.0.store == RemoveAt(st.store, k)
      && InStep(r.0)
  {
    RowPointsAtItsEntry(st.store, k);
    var r := DeleteRow(st, st.rows[k]);
    assert r.0.rows == RemoveAt(st.rows, k);
    assert Labels(RemoveAt(st.store, k)) == RemoveAt(st.rows, k);
  }

  function DeleteRows(st: State, picked: seq<string>): (r: (State, seq<RowOutcome>))
    ensures |r.1| == |picked|
    ensures NoDup(Uuids(st.store)) ==> NoDup(Uuids(r.0.store))
    ensures |r.0.store| <= |st.store|
  {
    if |picked| == 0 then (st, [])
    else
      var front := DeleteRows(st, picked[..|picked| - 1]);
      var last := DeleteRow(front.0, picked[|picked| - 1]);
      (last.0, front.1 + [last.1])
  }

  /** Outcome `k` is what deleting row `k` reports, against the store the first `k` rows
      left behind: the rows are handled one by one, in the order they were picked. */
  lemma {:induction false} DeleteRowsInOrder(st: State, picked: seq<string>, k: nat)
    requires k < |picked|
    ensures DeleteRows(st, picked).1[k] == DeleteRow(DeleteRows(st, picked[..k]).0, picked[k]).1
    decreases |picked|
  {
    var front := picked[..|picked| - 1];
    var f := DeleteRows(st, front);
    assert DeleteRows(st, picked).1 == f.1 + [DeleteRow(f.0, picked[|picked| - 1]).1];
    if k < |picked| - 1 {
      DeleteRowsInOrder(st, front, k);
      assert front[..k] == picked[..k] && front[k] == picked[k];
    } else {
      assert front == picked[..k];
    }
  }

  /** Entries with unique names that hold no space: each row reads back as its own entry. */
  predicate Tidy(store: seq<Snapshot>) {
    NoDup(Names(store)) && forall s | s in store :: ' ' !in s.name
  }

  function NameOf(s: Snapshot): string {
    s.name
  }

  lemma LabelsAreKeys(store: seq<Snapshot>)
    ensures Labels(store) == Keys(store, Label)
    ensures Names(store) == Keys(store, NameOf)
  {
  }

  /** Two entries of a tidy store with the same name are the same entry. */
  lemma TidySameName(store: seq<Snapshot>, s: Snapshot, t: Snapshot)
    requires Tidy(store) && s in store && t in store && s.name == t.name
    ensures s == t
  {
    var i :| 0 <= i < |store| && store[i] == s;
    var j :| 0 <= j < |store| && store[j] == t;
    assert Names(store)[i] == Names(store)[j];
  }

  /** In a tidy store every entry has its own row. */
  lemma TidyLabelsDistinct(store: seq<Snapshot>)
    requires Tidy(store)
    ensures NoDup(Keys(store, Label))
  {
    var ks := Keys(store, Label);
    forall i, j | 0 <= i < j < |ks|
      ensures ks[i] != ks[j]
    {
      LabelNameRoundTrip(store[i]);
      LabelNameRoundTrip(store[j]);
      assert Names(store)[i] != Names(store)[j];
    }
  }

  /** What is left of a tidy store is tidy. */
  lemma WithoutKeepsTidy(store: seq<Snapshot>, picked: seq<string>)
    requires Tidy(store)
    ensures Tidy(Without(store, Label, picked))
  {
    var u := Without(store, Label, picked);
    LabelsAreKeys(store);
    LabelsAreKeys(u);
    WithoutKeepsNoDup(store, Label, picked, NameOf);
  }

  /** Deleting shown rows from a tidy store in step with its rows keeps exactly the entries
      whose row was not picked, in order, with the rows still in step. */
  lemma {:induction false} DeleteRowsRemovesPicked(st: State, picked: seq<string>)
    requires InStep(st) && Tidy(st.store)
    requires forall x | x in picked :: x in st.rows
    ensures DeleteRows(st, picked).0.store == Without(st.store, Label, picked)
    ensures InStep(DeleteRows(st, picked).0)
    decreases |picked|
  {
    if |picked| == 0 {
      WithoutNothing(st.store, Label);
    } else {
      var front, x := picked[..|picked| - 1], picked[|picked| - 1];
      assert picked == front + [x];
      DeleteRowsRemovesPicked(st, front);
      var u := Without(st.store, Label, front);
      var m := DeleteRows(st, front).0;
      assert m == State(u, Labels(u));
      WithoutKeepsTidy(st.store, front);
      LabelsAreKeys(u);
      if x in Labels(u) {
        DeleteRowKeepsStep(m, IndexOf(Labels(u), x));
        TidyLabelsDistinct(st.store);
        WithoutDrop(st.store, Label, front, x);
      } else {
        DeleteGoneRow(st, front, x);
        WithoutGone(st.store, Label, front, x);
      }
    }
  }

  /** A shown row whose entry is already gone deletes nothing more. */
  lemma DeleteGoneRow(st: State, front: seq<string>, x: string)
    requires InStep(st) && Tidy(st.store) && x in st.rows
    requires x !in Labels(Without(st.store, Label, front))
    ensures var u := Without(st.store, Label, front);
      DeleteRow(State(u, Labels(u)), x).0 == State(u, Labels(u))
  {
    var u := Without(st.store, Label, front);
    var e := st.store[IndexOf(st.rows, x)];
    LabelNameRoundTrip(e);
    forall j | 0 <= j < |u|
      ensures u[j].name != e.name
    {
      if u[j].name == e.name {
        TidySameName(st.store, u[j], e);
      }
    }
  }

  /** `delete_selected_from_list`. */
  function Delete(st: State, picked: seq<string>): (r: (State, Report))
    ensures picked == [] ==> r == (st, NoRowSelected)
    ensures picked != [] ==> r.1.PerRow? && |r.1.outcomes| == |picked|
    ensures picked != [] ==> forall k | 0 <= k < |picked| ::
      r.1.outcomes[k] == DeleteRow(DeleteRows(st, picked[..k]).0, picked[k]).1
    ensures NoDup(Uuids(st.store)) ==> NoDup(Uuids(r.0.store))
    ensures InStep(st) && Tidy(st.store) && (forall x | x in picked :: x in st.rows) ==>
      && r.0.store == Without(st.store, Label, picked)
      && InStep(r.0)
  {
    if picked == [] then
      WithoutNothing(st.store, Label);
      (st, NoRowSelected)
    else
      var (st', outcomes) := DeleteRows(st, picked);
      assert forall k | 0 <= k < |picked| :: outcomes[k] == DeleteRow(DeleteRows(st, picked[..k]).0, picked[k]).1 by {
        forall k | 0 <= k < |picked|
          ensures outcomes[k] == DeleteRow(DeleteRows(st, picked[..k]).0, picked[k]).1
        {
          DeleteRowsInOrder(st, picked, k);
        }
      }
      if InStep(st) && Tidy(st.store) && (forall x | x in picked :: x in st.rows) then
        DeleteRowsRemovesPicked(st, picked);
        (st', PerRow(outcomes))
      else
        (st', PerRow(outcomes))
  }
}

=== FILE: selection_manager.dfy ===
/** The selection-set manager: a list of saved selections, each a list of (name, uuid) entries,
    shown in a list widget as "Set 1: …", "Set 2: …". Sets are saved from the current
    selection, restored by (1-based) row number through their uuids, and deleted by row. */
module SelectionManager {
  import opened Text
  import opened Seqs

  datatype Entry = Entry(name: string, uuid: string)

  /** The host: the current selection, the uuid of each node, and the node each uuid
      currently resolves to (absent once the node is deleted). */
  datatype Scene = Scene(selection: seq<string>, uuidOf: map<string, string>, nameOf: map<string, string>)

  /** The manager's state: the saved sets and the rows the list widget shows. */
  datatype Manager = Manager(saved: seq<seq<Entry>>, labels: seq<string>)

  datatype Notice =
    | Quiet
    | NoObjectsSelected       // save with an empty selection
    | NoValidObjects          // restore found nothing to select

  // ---------------------------------------------------------------- saving

  /** The loop of `save_selection`: one entry per selected node that has a uuid, in selection
      order; nodes whose uuid cannot be read are skipped. */
  function Capture(sel: seq<string>, uuidOf: map<string, string>): (r: seq<Entry>)
    ensures |r| <= |sel|
    ensures forall e | e in r :: e.name in sel && e.name in uuidOf && e.uuid == uuidOf[e.name]
    ensures forall o | o in sel && o in uuidOf :: Entry(o, uuidOf[o]) in r
    ensures r == [] <==> forall o | o in sel :: o !in uuidOf
  {
    if |sel| == 0 then []
    else
      var front := Capture(sel[..|sel| - 1], uuidOf);
      var o := sel[|sel| - 1];
      assert sel == sel[..|sel| - 1] + [o];
      if o in uuidOf then front + [Entry(o, uuidOf[o])] else front
  }

  /** Capturing keeps selection order: it distributes over concatenation. */
  lemma {:induction false} CaptureAppend(a: seq<string>, b: seq<string>, uuidOf: map<string, string>)
    ensures Capture(a + b, uuidOf) == Capture(a, uuidOf) + Capture(b, uuidOf)
    decreases |b|
  {
    if |b| == 0 {
      assert a + b == a;
    } else {
      assert (a + b)[..|a + b| - 1] == a + b[..|b| - 1];
      assert (a + b)[|a + b| - 1] == b[|b| - 1];
      CaptureAppend(a, b[..|b| - 1], uuidOf);
    }
  }

  /** `save_selection`: an empty selection only warns; otherwise the captured set is appended
      (and the list refreshed) unless no selected node had a uuid. */
  function SaveSelection(m: Manager, scene: Scene): (r: (Manager, Notice))
    ensures scene.selection == [] ==> r == (m, NoObjectsSelected)
    ensures scene.selection != [] && Capture(scene.selection, scene.uuidOf) == [] ==> r == (m, Quiet)
    ensures scene.selection != [] && Capture(scene.selection, scene.uuidOf) != [] ==>
      && |r.0.saved| == |m.saved| + 1
      && r.0 == RefreshList(m.saved + [Capture(scene.selection, scene.uuidOf)], scene.nameOf)
  {
    if scene.selection == [] then (m, NoObjectsSelected)
    else
      var data := Capture(scene.selection, scene.uuidOf);
      if data == [] then (m, Quiet)
      else (RefreshList(m.saved + [data], scene.nameOf), Quiet)
  }

  // ---------------------------------------------------------------- the list widget

  /** How an entry is shown: the current name of its uuid, or a marker once it is gone. */
  function DisplayName(e: Entry, nameOf: map<string, string>): (r: string)
    ensures e.uuid in nameOf ==> r == nameOf[e.uuid]
    ensures e.uuid !in nameOf ==> r == "<deleted:" + e.uuid + ">"
  {
    if e.uuid in nameOf then nameOf[e.uuid] else "<deleted:" + e.uuid + ">"
  }

  /** An entry with its stored name brought up to date; unresolvable entries keep theirs. */
  function RefreshEntry(e: Entry, nameOf: map<string, string>): Entry {
    if e.uuid in nameOf then e.(name := nameOf[e.uuid]) else e
  }

  function RefreshSet(entries: seq<Entry>, nameOf: map<string, string>): seq<Entry> {
    seq(|entries|, k requires 0 <= k < |entries| => RefreshEntry(entries[k], nameOf))
  }

  function DisplayNames(entries: seq<Entry>, nameOf: map<string, string>): (r: seq<string>)
    ensures |r| == |entries| && forall k | 0 <= k < |entries| :: r[k] == DisplayName(entries[k], nameOf)
  {
    seq(|entries|, k requires 0 <= k < |entries| => DisplayName(entries[k], nameOf))
  }

  /** The header of the row for the set at (0-based) index `i`. */
  function RowHead(i: nat): string {
    "Set " + NatToString(i + 1) + ": "
  }

  /** The row text for the set at (0-based) index `i`. */
  function Label(i: nat, entries: seq<Entry>, nameOf: map<string, string>): string {
    RowHead(i) + Join(", ", DisplayNames(entries, nameOf))
  }

  /** `refresh_list`: rebuild every row and, as a side effect, rewrite each stored name that
      still resolves to the node's current name. */
  function RefreshList(saved: seq<seq<Entry>>, nameOf: map<string, string>): (r: Manager)
    ensures |r.saved| == |saved| && |r.labels| == |saved|
    ensures forall i | 0 <= i < |saved| ::
      && |r.saved[i]| == |saved[i]|
      && (forall k | 0 <= k < |saved[i]| ::
            && r.saved[i][k].uuid == saved[i][k].uuid
            && r.saved[i][k].name == (if saved[i][k].uuid in nameOf then nameOf[saved[i][k].uuid] else saved[i][k].name))
    ensures forall i | 0 <= i < |saved| :: RowHeaded(r.labels[i], i)
  {
    var sets := seq(|saved|, i requires 0 <= i < |saved| => RefreshSet(saved[i], nameOf));
    var labels := seq(|saved|, i requires 0 <= i < |saved| => Label(i, saved[i], nameOf));
    forall i | 0 <= i < |saved|
      ensures RowHeaded(labels[i], i)
    {
      assert labels[i][..|"Set " + NatToString(i + 1) + ": "|] == "Set " + NatToString(i + 1) + ": ";
    }
    Manager(sets, labels)
  }

  /** Row `i` (0-based) is headed by "Set {i+1}: ". */
  predicate RowHeaded(row: string, i: nat) {
    var head := "Set " + NatToString(i + 1) + ": ";
    head <= row
  }

  /** The number shown in row `i`'s label reads back as `i + 1`: rows are numbered from one. */
  lemma RowNumberReadsBack(saved: seq<seq<Entry>>, nameOf: map<string, string>, i: nat)
    requires i < |saved|
    ensures var text := RefreshList(saved, nameOf).labels[i];
      var digits := NatToString(i + 1);
      && text[..4 + |digits|] == "Set " + digits
      && ParseDigits(text[4..4 + |digits|]) == i + 1
  {
    var text := RefreshList(saved, nameOf).labels[i];
    var digits := NatToString(i + 1);
    assert ("Set " + digits + ": ")[4..4 + |digits|] == digits;
    NatToStringRoundTrip(i + 1);
  }

  /** Row `i` shows, after its header, every entry of set `i` in order: the node's current
      name, or `<deleted:uuid>` once the uuid no longer resolves, with ", " between
      consecutive entries and nothing after the last. */
  lemma RowShowsEntries(saved: seq<seq<Entry>>, nameOf: map<string, string>, i: nat, k: nat)
    requires i < |saved| && k < |saved[i]|
    ensures var row := RefreshList(saved, nameOf).labels[i];
      var at := |RowHead(i)| + JoinOffset(", ", DisplayNames(saved[i], nameOf), k);
      var e := saved[i][k];
      && RowHead(i) <= row
      && OccursAt(row, DisplayName(e, nameOf), at)
      && (k > 0 ==> OccursAt(row, ", ", at - 2))
      && (k == |saved[i]| - 1 ==> |row| == at + |DisplayName(e, nameOf)|)
  {
    RowIsLabel(saved, nameOf, i);
    JoinedShowsEntries(RefreshList(saved, nameOf).labels[i], RowHead(i), saved[i], nameOf, k);
  }

  lemma RowIsLabel(saved: seq<seq<Entry>>, nameOf: map<string, string>, i: nat)
    requires i < |saved|
    ensures RefreshList(saved, nameOf).labels[i] == Label(i, saved[i], nameOf)
  {
  }

  /** A header followed by the entries' display names joined with ", " shows entry `k` at its
      offset. */
  lemma JoinedShowsEntries(row: string, head: string, entries: seq<Entry>, nameOf: map<string, string>, k: nat)
    requires row == head + Join(", ", DisplayNames(entries, nameOf))
    requires k < |entries|
    ensures var at := |head| + JoinOffset(", ", DisplayNames(entries, nameOf), k);
      && head <= row
      && OccursAt(row, DisplayName(entries[k], nameOf), at)
      && (k > 0 ==> OccursAt(row, ", ", at - 2))
      && (k == |entries| - 1 ==> |row| == at + |DisplayName(entries[k], nameOf)|)
  {
    var names := DisplayNames(entries, nameOf);
    assert names[k] == DisplayName(entries[k], nameOf);
    HeadedJoinPartAt(row, head, ", ", names, k);
    if k > 0 {
      HeadedJoinSepAt(row, head, ", ", names, k);
      assert |", "| == 2;
    }
  }

  /** A set without entries shows its header alone. */
  lemma EmptySetShowsHead(saved: seq<seq<Entry>>, nameOf: map<string, string>, i: nat)
    requires i < |saved| && saved[i] == []
    ensures RefreshList(saved, nameOf).labels[i] == RowHead(i)
  {
    assert DisplayNames(saved[i], nameOf) == [];
  }

  /** Refreshing twice shows and stores exactly what refreshing once does. */
  lemma RefreshIdempotent(saved: seq<seq<Entry>>, nameOf: map<string, string>)
    ensures RefreshList(RefreshList(saved, nameOf).saved, nameOf) == RefreshList(saved, nameOf)
  {
    var once := RefreshList(saved, nameOf);
    var twice := RefreshList(once.saved, nameOf);
    forall i | 0 <= i < |saved|
      ensures twice.saved[i] == once.saved[i] && twice.labels[i] == once.labels[i]
    {
      var entries := saved[i];
      var refreshed := once.saved[i];
      assert refreshed == RefreshSet(entries, nameOf);
      assert twice.saved[i] == RefreshSet(refreshed, nameOf);
      var shownOnce := DisplayNames(entries, nameOf);
      var shownTwice := DisplayNames(refreshed, nameOf);
      forall k | 0 <= k < |entries|
        ensures RefreshSet(refreshed, nameOf)[k] == refreshed[k]
        ensures shownTwice[k] == shownOnce[k]
      {
        assert refreshed[k] == RefreshEntry(entries[k], nameOf);
      }
      assert RefreshSet(refreshed, nameOf) == refreshed;
      assert shownOnce == shownTwice;
      assert once.labels[i] == Label(i, entries, nameOf);
      assert twice.labels[i] == Label(i, refreshed, nameOf);
    }
    assert twice.saved == once.saved;
    assert twice.labels == once.labels;
  }

  // ---------------------------------------------------------------- restoring

  /** The current names of the entries of one set, skipping uuids that no longer resolve. */
  function Resolve(entries: seq<Entry>, nameOf: map<string, string>): (r: seq<string>)
    ensures |r| <= |entries|
    ensures forall x | x in r :: exists e | e in entries :: e.uuid in nameOf && nameOf[e.uuid] == x
    ensures forall e | e in entries && e.uuid in nameOf :: nameOf[e.uuid] in r
  {
    if |entries| == 0 then []
    else
      var front := Resolve(entries[..|entries| - 1], nameOf);
      var e := entries[|entries| - 1];
      assert entries == entries[..|entries| - 1] + [e];
      if e.uuid in nameOf then front + [nameOf[e.uuid]] else front
  }

  /** The names `restore_selection` collects: the resolvable members of every in-range set,
      set by set in the order the indices are given. */
  function Collect(saved: seq<seq<Entry>>, indices: seq<int>, nameOf: map<string, string>): (r: seq<string>)
    ensures forall x | x in r :: exists i | i in indices && 0 <= i < |saved| :: x in Resolve(saved[i], nameOf)
    ensures forall i | i in indices && 0 <= i < |saved| :: forall x | x in Resolve(saved[i], nameOf) :: x in r
  {
    if |indices| == 0 then []
    else
      var front := Collect(saved, indices[..|indices| - 1], nameOf);
      var i := indices[|indices| - 1];
      assert indices == indices[..|indices| - 1] + [i];
      if 0 <= i < |saved| then front + Resolve(saved[i], nameOf) else front
  }

  /** Resolving distributes over concatenation: names come in set order, one per resolvable
      entry, repeats included. */
  lemma {:induction false} ResolveAppend(a: seq<Entry>, b: seq<Entry>, nameOf: map<string, string>)
    ensures Resolve(a + b, nameOf) == Resolve(a, nameOf) + Resolve(b, nameOf)
    decreases |b|
  {
    if |b| > 0 {
      var b' := b[..|b| - 1];
      assert (a + b)[..|a + b| - 1] == a + b';
      assert (a + b)[|a + b| - 1] == b[|b| - 1];
      ResolveAppend(a, b', nameOf);
    } else {
      assert a + b == a;
    }
  }

  /** A single entry resolves to its node's current name, or to nothing once it is gone. */
  lemma ResolveOne(e: Entry, nameOf: map<string, string>)
    ensures Resolve([e], nameOf) == if e.uuid in nameOf then [nameOf[e.uuid]] else []
  {
    assert [e][..0] == [];
  }

  /** Collecting distributes over concatenation of the indices: sets come in index order. */
  lemma {:induction false} CollectAppend(saved: seq<seq<Entry>>, left: seq<int>, right: seq<int>, nameOf: map<string, string>)
    ensures Collect(saved, left + right, nameOf) == Collect(saved, left, nameOf) + Collect(saved, right, nameOf)
    decreases |right|
  {
    if |right| > 0 {
      var right' := right[..|right| - 1];
      assert (left + right)[..|left + right| - 1] == left + right';
      assert (left + right)[|left + right| - 1] == right[|right| - 1];
      CollectAppend(saved, left, right', nameOf);
    } else {
      assert left + right == left;
    }
  }

  /** A single index contributes its set's resolved names when in range, nothing otherwise. */
  lemma CollectOne(saved: seq<seq<Entry>>, i: int, nameOf: map<string, string>)
    ensures Collect(saved, [i], nameOf) == if 0 <= i < |saved| then Resolve(saved[i], nameOf) else []
  {
    assert [i][..0] == [];
  }

  /** Out-of-range indices contribute nothing: dropping them changes nothing. */
  lemma {:induction false} CollectIgnoresOutOfRange(saved: seq<seq<Entry>>, indices: seq<int>, nameOf: map<string, string>)
    ensures Collect(saved, indices, nameOf) == Collect(saved, InRange(indices, |saved|), nameOf)
  {
    if |indices| > 0 {
      var front := indices[..|indices| - 1];
      var i := indices[|indices| - 1];
      CollectIgnoresOutOfRange(saved, front, nameOf);
      var kept := InRange(front, |saved|);
      assert front == indices[..|indices| - 1];
      if 0 <= i < |saved| {
        assert InRange(indices, |saved|) == kept + [i];
        assert (kept + [i])[..|kept + [i]| - 1] == kept;
        assert Collect(saved, kept + [i], nameOf) == Collect(saved, kept, nameOf) + Resolve(saved[i], nameOf);
        assert Collect(saved, indices, nameOf) == Collect(saved, front, nameOf) + Resolve(saved[i], nameOf);
      } else {
        assert InRange(indices, |saved|) == kept;
        assert Collect(saved, indices, nameOf) == Collect(saved, front, nameOf);
      }
    }
  }

  /** A single index restores exactly the resolvable members of that set. */
  lemma CollectSingle(saved: seq<seq<Entry>>, indices: seq<int>, nameOf: map<string, string>)
    ensures |indices| == 1 && 0 <= indices[0] < |saved| ==>
      Collect(saved, indices, nameOf) == Resolve(saved[indices[0]], nameOf)
  {
    if |indices| == 1 {
      assert indices[..0] == [];
    }
  }

  /** The indices of `indices` that address a saved set, in order. */
  function InRange(indices: seq<int>, n: nat): (r: seq<int>)
    ensures forall i | i in r :: i in indices && 0 <= i < n
    ensures forall i | i in indices && 0 <= i < n :: i in r
  {
    if |indices| == 0 then []
    else
      var i := indices[|indices| - 1];
      assert indices == indices[..|indices| - 1] + [i];
      InRange(indices[..|indices| - 1], n) + if 0 <= i < n then [i] else []
  }

  /** `restore_selection`: replace the selection with the collected names, or warn and leave
      the selection alone when there are none. */
  function RestoreSelection(saved: seq<seq<Entry>>, indices: seq<int>, scene: Scene): (r: (Scene, Notice))
    ensures r.0.uuidOf == scene.uuidOf && r.0.nameOf == scene.nameOf
    ensures Collect(saved, indices, scene.nameOf) == [] ==> r == (scene, NoValidObjects)
    ensures Collect(saved, indices, scene.nameOf) != [] ==>
      r.1 == Quiet && r.0.selection == Collect(saved, indices, scene.nameOf)
  {
    var objs := Collect(saved, indices, scene.nameOf);
    if objs != [] then (scene.(selection := objs), Quiet) else (scene, NoValidObjects)
  }

  // ---------------------------------------------------------------- deleting

  predicate Descending(s: seq<int>) {
    forall i, j | 0 <= i < j < |s| :: s[i] >= s[j]
  }

  function InsertDesc(x: int, s: seq<int>): (r: seq<int>)
    requires Descending(s)
    ensures Descending(r)
    ensures multiset(r) == multiset(s) + multiset{x}
    ensures NoDup(s) && x !in s ==> NoDup(r)
  {
    if |s| == 0 then [x]
    else if x >= s[0] then [x] + s
    else
      var rest := InsertDesc(x, s[1..]);
      InsertedBelowHead(x, s, rest);
      [s[0]] + rest
  }

  lemma InsertedBelowHead(x: int, s: seq<int>, rest: seq<int>)
    requires |s| > 0 && Descending(s) && x < s[0]
    requires multiset(rest) == multiset(s[1..]) + multiset{x}
    requires Descending(rest)
    requires NoDup(s) && x !in s ==> NoDup(rest)
    ensures Descending([s[0]] + rest)
    ensures multiset([s[0]] + rest) == multiset(s) + multiset{x}
    ensures NoDup(s) && x !in s ==> NoDup([s[0]] + rest)
  {
    assert s == [s[0]] + s[1..];
    var t := [s[0]] + rest;
    forall y | y in rest
      ensures y <= s[0] && (y == x || y in s[1..])
      ensures NoDup(s) ==> y != s[0] || y == x
    {
      assert y in multiset(rest);
      if y != x {
        var k :| 0 <= k < |s[1..]| && s[1..][k] == y;
        assert s[k + 1] == y;
      }
    }
    forall i, j | 0 <= i < j < |t|
      ensures t[i] >= t[j]
    {
      if i == 0 {
        assert t[j] == rest[j - 1] && rest[j - 1] in rest;
      } else {
        assert t[i] == rest[i - 1] && t[j] == rest[j - 1];
      }
    }
    if NoDup(s) && x !in s {
      forall i, j | 0 <= i < j < |t|
        ensures t[i] != t[j]
      {
        if i == 0 {
          assert t[0] == s[0] && t[j] == rest[j - 1] && rest[j - 1] in rest;
        } else {
          assert t[i] == rest[i - 1] && t[j] == rest[j - 1];
        }
      }
    }
  }

  /** Python's `sorted(indices, reverse=True)`. */
  function SortDesc(s: seq<int>): (r: seq<int>)
    ensures Descending(r)
    ensures multiset(r) == multiset(s)
    ensures NoDup(s) ==> NoDup(r)
  {
    if |s| == 0 then []
    else
      var rest := SortDesc(s[1..]);
      HeadThenRest(s, rest);
      InsertDesc(s[0], rest)
  }

  /** What `SortDesc` needs of a permutation `rest` of the tail of `s`. */
  lemma HeadThenRest(s: seq<int>, rest: seq<int>)
    requires |s| > 0 && multiset(rest) == multiset(s[1..])
    ensures multiset(s) == multiset(rest) + multiset{s[0]}
    ensures NoDup(s) ==> NoDup(s[1..]) && s[0] !in rest
  {
    assert s == [s[0]] + s[1..];
    assert s[0] in multiset(rest) <==> s[0] in s[1..];
  }

  /** The loop of `delete_selection`: delete each index in the given order when it is in
      range at that moment. */
  function DeleteInOrder<T>(s: seq<T>, order: seq<int>): seq<T>
    decreases |order|
  {
    if |order| == 0 then s
    else DeleteInOrder(if 0 <= order[0] < |s| then RemoveAt(s, order[0]) else s, order[1..])
  }

  /** The reference meaning of deleting a set of rows: the elements at positions outside
      `doomed`, in their original order. */
  function Keep<T>(s: seq<T>, doomed: set<int>): (r: seq<T>)
    ensures |r| <= |s|
  {
    if |s| == 0 then []
    else Keep(s[..|s| - 1], doomed) + if |s| - 1 in doomed then [] else [s[|s| - 1]]
  }

  /** Dooming no position keeps everything. */
  lemma {:induction false} KeepAll<T>(s: seq<T>, doomed: set<int>)
    requires forall i | 0 <= i < |s| :: i !in doomed
    ensures Keep(s, doomed) == s
  {
    if |s| > 0 {
      KeepAll(s[..|s| - 1], doomed);
      assert s == s[..|s| - 1] + [s[|s| - 1]];
    }
  }

  /** Only the in-range members of `doomed` matter. */
  lemma {:induction false} KeepLooksOnlyInRange<T>(s: seq<T>, d: set<int>, e: set<int>)
    requires forall i | 0 <= i < |s| :: i in d <==> i in e
    ensures Keep(s, d) == Keep(s, e)
  {
    if |s| > 0 {
      KeepLooksOnlyInRange(s[..|s| - 1], d, e);
    }
  }

  /** Deleting the highest doomed position first leaves the lower positions where they were. */
  lemma {:induction false} KeepAfterRemoveAt<T>(s: seq<T>, d: nat, lower: set<int>)
    requires d < |s|
    requires forall x | x in lower :: x < d
    ensures Keep(RemoveAt(s, d), lower) == Keep(s, lower + {d})
  {
    var front := s[..|s| - 1];
    if d == |s| - 1 {
      assert RemoveAt(s, d) == front;
      KeepLooksOnlyInRange(front, lower, lower + {d});
    } else {
      var t := RemoveAt(s, d);
      assert t[..|t| - 1] == RemoveAt(front, d);
      assert t[|t| - 1] == s[|s| - 1];
      KeepAfterRemoveAt(front, d, lower);
    }
  }

  function Elements(s: seq<int>): set<int> {
    set x | x in s
  }

  /** Deleting strictly descending indices one by one removes exactly those positions and
      keeps the rest in order. */
  lemma {:induction false} DescendingDeleteIsKeep<T>(s: seq<T>, order: seq<int>)
    requires forall i, j | 0 <= i < j < |order| :: order[i] > order[j]
    ensures DeleteInOrder(s, order) == Keep(s, Elements(order))
    decreases |order|
  {
    if |order| == 0 {
      KeepAll(s, Elements(order));
    } else {
      var d, rest := order[0], order[1..];
      assert Elements(order) == Elements(rest) + {d};
      assert forall x | x in Elements(rest) :: x < d;
      if 0 <= d < |s| {
        assert DeleteInOrder(s, order) == DeleteInOrder(RemoveAt(s, d), rest);
        DescendingDeleteIsKeep(RemoveAt(s, d), rest);
        KeepAfterRemoveAt(s, d, Elements(rest));
      } else {
        assert DeleteInOrder(s, order) == DeleteInOrder(s, rest);
        DescendingDeleteIsKeep(s, rest);
        KeepLooksOnlyInRange(s, Elements(rest), Elements(order));
      }
    }
  }

  /** Deleting in the order `SortDesc` gives removes exactly the listed rows, provided each
      row is listed once. */
  lemma DeleteSortedIsKeep<T>(s: seq<T>, indices: seq<int>)
    ensures NoDup(indices) ==> DeleteInOrder(s, SortDesc(indices)) == Keep(s, Elements(indices))
  {
    if NoDup(indices) {
      SortDescElements(indices);
      SortDescStrict(indices);
      DescendingDeleteIsKeep(s, SortDesc(indices));
    }
  }

  lemma SortDescElements(indices: seq<int>)
    ensures Elements(SortDesc(indices)) == Elements(indices)
  {
    var order := SortDesc(indices);
    forall x
      ensures x in order <==> x in indices
    {
      assert x in order <==> x in multiset(order);
    }
  }

  lemma SortDescStrict(indices: seq<int>)
    requires NoDup(indices)
    ensures forall i, j | 0 <= i < j < |SortDesc(indices)| :: SortDesc(indices)[i] > SortDesc(indices)[j]
  {
    var order := SortDesc(indices);
    forall i, j | 0 <= i < j < |order|
      ensures order[i] > order[j]
    {
      assert order[i] >= order[j] && order[i] != order[j];
    }
  }

  /** `delete_selection`: delete in descending index order, then refresh the list. */
  function DeleteSelection(m: Manager, indices: seq<int>, nameOf: map<string, string>): (r: Manager)
    ensures NoDup(indices) ==> r == RefreshList(Keep(m.saved, Elements(indices)), nameOf)
  {
    DeleteSortedIsKeep(m.saved, indices);
    RefreshList(DeleteInOrder(m.saved, SortDesc(indices)), nameOf)
  }

  // ---------------------------------------------------------------- the widget's callbacks

  function ToZeroBased(rows: seq<int>): (r: seq<int>)
    ensures |r| == |rows| && forall k | 0 <= k < |rows| :: r[k] == rows[k] - 1
  {
    seq(|rows|, k requires 0 <= k < |rows| => rows[k] - 1)
  }

  /** `on_select`: the widget reports 1-based rows; row `k` restores saved set `k - 1`. */
  function OnSelect(m: Manager, rows: seq<int>, scene: Scene): (r: (Scene, Notice))
    ensures rows == [] ==> r == (scene, Quiet)
    ensures rows != [] ==> r == RestoreSelection(m.saved, ToZeroBased(rows), scene)
    ensures |rows| == 1 && 1 <= rows[0] <= |m.saved| ==>
      var members := Resolve(m.saved[rows[0] - 1], scene.nameOf);
      && (members != [] ==> r.0.selection == members && r.1 == Quiet)
      && (members == [] ==> r == (scene, NoValidObjects))
  {
    if rows == [] then (scene, Quiet)
    else
      var indices := ToZeroBased(rows);
      CollectSingle(m.saved, indices, scene.nameOf);
      RestoreSelection(m.saved, indices, scene)
  }

  /** `delete_selected`: the widget's distinct 1-based rows delete the sets at those rows
      minus one, and nothing else. */
  function DeleteSelected(m: Manager, rows: seq<int>, nameOf: map<string, string>): (r: Manager)
    ensures rows == [] ==> r == m
    ensures rows != [] && NoDup(rows) ==>
      r == RefreshList(Keep(m.saved, set k | k in rows :: k - 1), nameOf)
  {
    if rows == [] then m
    else
      var indices := ToZeroBased(rows);
      assert NoDup(rows) ==> NoDup(indices);
      assert Elements(indices) == set k | k in rows :: k - 1 by {
        forall x
          ensures x in indices <==> x + 1 in rows
        {
          if x in indices {
            var k :| 0 <= k < |indices| && indices[k] == x;
            assert rows[k] == x + 1;
          }
          if x + 1 in rows {
            var k :| 0 <= k < |rows| && rows[k] == x + 1;
            assert indices[k] == x;
          }
        }
      }
      DeleteSelection(m, indices, nameOf)
  }
}

=== FILE: seqs.dfy ===
/** Sequence facts shared by the bookkeeping scripts: duplicate-freedom, first positions,
    first-occurrence de-duplication and removal at an index. */
module Seqs {

  predicate NoDup<T(==)>(s: seq<T>) {
    forall i, j | 0 <= i < j < |s| :: s[i] != s[j]
  }

  /** Python's `s.index(x)`: the first position holding `x`. */
  function IndexOf<T(==)>(s: seq<T>, x: T): (i: nat)
    requires x in s
    ensures i < |s| && s[i] == x
    ensures forall j | 0 <= j < i :: s[j] != x
  {
    if s[0] == x then 0 else 1 + IndexOf(s[1..], x)
  }

  /** Positions inside a prefix are the same whether looked up in the prefix or in the
      whole sequence; an element absent from the prefix is found at the end. */
  lemma IndexOfSnoc<T>(s: seq<T>, x: T)
    requires |s| > 0
    ensures x in s[..|s| - 1] ==> x in s && IndexOf(s, x) == IndexOf(s[..|s| - 1], x) < |s| - 1
    ensures x !in s[..|s| - 1] && x == s[|s| - 1] ==> IndexOf(s, x) == |s| - 1
  {
    var p := s[..|s| - 1];
    if x in p {
      var i := IndexOf(p, x);
      assert s[i] == x;
      var j := IndexOf(s, x);
      assert j <= i;
      assert p[j] == x;
    } else if x == s[|s| - 1] {
      assert forall j | 0 <= j < |s| - 1 :: s[j] == p[j];
    }
  }

  /** The elements of `s` once each, in order of first occurrence. */
  function Dedup<T(==)>(s: seq<T>): (r: seq<T>)
    ensures NoDup(r)
    ensures forall x | x in r :: x in s
    ensures forall x | x in s :: x in r
    ensures |r| <= |s|
  {
    if |s| == 0 then []
    else
      var p := Dedup(s[..|s| - 1]);
      var last := s[|s| - 1];
      assert s == s[..|s| - 1] + [last];
      if last in p then p else p + [last]
  }

  /** Python's `del s[i]`. */
  function RemoveAt<T>(s: seq<T>, i: nat): (r: seq<T>)
    requires i < |s|
    ensures |r| == |s| - 1
    ensures forall k | 0 <= k < i :: r[k] == s[k]
    ensures forall k | i <= k < |r| :: r[k] == s[k + 1]
  {
    s[..i] + s[i + 1..]
  }

  /** Removing behind a first element keeps that element in front. */
  lemma RemoveAtCons<T>(a: T, u: seq<T>, k: nat)
    requires k < |u|
    ensures RemoveAt([a] + u, k + 1) == [a] + RemoveAt(u, k)
  {
    assert ([a] + u)[..k + 1] == [a] + u[..k];
    assert ([a] + u)[k + 2..] == u[k + 1..];
  }

  /** The key of every element, in order. */
  function Keys<T, K>(xs: seq<T>, key: T -> K): (r: seq<K>)
    ensures |r| == |xs| && forall i | 0 <= i < |xs| :: r[i] == key(xs[i])
  {
    seq(|xs|, i requires 0 <= i < |xs| => key(xs[i]))
  }

  /** The elements, in order, whose key is not among `picked`. */
  function Without<T(==), K(==)>(xs: seq<T>, key: T -> K, picked: seq<K>): (r: seq<T>)
    ensures forall y | y in r :: y in xs && key(y) !in picked
    ensures forall y | y in xs && key(y) !in picked :: y in r
    ensures |r| <= |xs|
    decreases |xs|
  {
    if |xs| == 0 then []
    else
      var rest := Without(xs[1..], key, picked);
      assert forall y | y in xs :: y == xs[0] || y in xs[1..];
      if key(xs[0]) in picked then rest else [xs[0]] + rest
  }

  lemma KeysCons<T, K>(a: T, xs: seq<T>, key: T -> K)
    ensures Keys([a] + xs, key) == [key(a)] + Keys(xs, key)
  {
    var l, r := Keys([a] + xs, key), [key(a)] + Keys(xs, key);
    forall j | 0 <= j < |l|
      ensures l[j] == r[j]
    {
      if j > 0 {
        assert ([a] + xs)[j] == xs[j - 1];
      }
    }
  }

  lemma KeysTail<T, K>(xs: seq<T>, key: T -> K)
    requires |xs| > 0
    ensures Keys(xs[1..], key) == Keys(xs, key)[1..]
  {
  }

  /** Nothing picked, nothing left out. */
  lemma {:induction false} WithoutNothing<T, K>(xs: seq<T>, key: T -> K)
    ensures Without(xs, key, []) == xs
    decreases |xs|
  {
    if |xs| > 0 {
      WithoutNothing(xs[1..], key);
      assert xs == [xs[0]] + xs[1..];
    }
  }

  /** Leaving out depends only on which keys of `xs` are picked. */
  lemma {:induction false} WithoutSame<T, K>(xs: seq<T>, key: T -> K, p: seq<K>, q: seq<K>)
    requires forall y | y in xs :: key(y) in p <==> key(y) in q
    ensures Without(xs, key, p) == Without(xs, key, q)
    decreases |xs|
  {
    if |xs| > 0 {
      assert xs[0] in xs;
      assert forall y | y in xs[1..] :: y in xs;
      WithoutSame(xs[1..], key, p, q);
    }
  }

  /** What is left keeps any key that was unique unique. */
  lemma {:induction false} WithoutKeepsNoDup<T, K, J>(xs: seq<T>, key: T -> K, picked: seq<K>, g: T -> J)
    requires NoDup(Keys(xs, g))
    ensures NoDup(Keys(Without(xs, key, picked), g))
    decreases |xs|
  {
    if |xs| > 0 {
      var rest := Without(xs[1..], key, picked);
      KeysTail(xs, g);
      WithoutKeepsNoDup(xs[1..], key, picked, g);
      if key(xs[0]) !in picked {
        KeysCons(xs[0], rest, g);
        forall j | 0 <= j < |rest|
          ensures g(rest[j]) != g(xs[0])
        {
          assert rest[j] in xs[1..];
          var i :| 0 <= i < |xs[1..]| && xs[1..][i] == rest[j];
          assert Keys(xs, g)[i + 1] == g(rest[j]);
        }
      }
    }
  }

  /** With unique keys, a key shown by the head occurs nowhere in the tail. */
  lemma HeadKeyUnique<T, K>(xs: seq<T>, key: T -> K)
    requires |xs| > 0 && NoDup(Keys(xs, key))
    ensures forall y | y in xs[1..] :: key(y) != key(xs[0])
  {
    forall y | y in xs[1..]
      ensures key(y) != key(xs[0])
    {
      var i :| 0 <= i < |xs[1..]| && xs[1..][i] == y;
      assert Keys(xs, key)[i + 1] == key(y) && Keys(xs, key)[0] == key(xs[0]);
    }
  }

  /** With unique keys, removing the element that shows key `x` is leaving `x` out as well. */
  lemma {:induction false} WithoutDrop<T, K>(xs: seq<T>, key: T -> K, picked: seq<K>, x: K)
    requires NoDup(Keys(xs, key))
    requires x in Keys(Without(xs, key, picked), key)
    ensures var u := Without(xs, key, picked);
      RemoveAt(u, IndexOf(Keys(u, key), x)) == Without(xs, key, picked + [x])
    decreases |xs|
  {
    var a, rest := xs[0], xs[1..];
    KeysTail(xs, key);
    if key(a) in picked {
      WithoutDrop(rest, key, picked, x);
    } else {
      WithoutDropKept(xs, key, picked, x);
    }
  }

  /** The step of `WithoutDrop` where the head is kept. */
  lemma {:induction false} WithoutDropKept<T, K>(xs: seq<T>, key: T -> K, picked: seq<K>, x: K)
    requires |xs| > 0 && key(xs[0]) !in picked
    requires NoDup(Keys(xs, key))
    requires x in Keys(Without(xs, key, picked), key)
    ensures var u := Without(xs, key, picked);
      RemoveAt(u, IndexOf(Keys(u, key), x)) == Without(xs, key, picked + [x])
    decreases |xs|, 0
  {
    var a, rest := xs[0], xs[1..];
    var u := Without(xs, key, picked);
    var u' := Without(rest, key, picked);
    assert u == [a] + u';
    KeysCons(a, u', key);
    KeysTail(xs, key);
    if key(a) == x {
      assert RemoveAt(u, 0) == u';
      HeadKeyUnique(xs, key);
      WithoutSame(rest, key, picked, picked + [x]);
    } else {
      WithoutDrop(rest, key, picked, x);
      RemoveAtCons(a, u', IndexOf(Keys(u', key), x));
    }
  }

  /** A key of `xs` that is no longer shown is already left out: leaving it out again changes
      nothing. */
  lemma WithoutGone<T, K>(xs: seq<T>, key: T -> K, picked: seq<K>, x: K)
    requires x !in Keys(Without(xs, key, picked), key)
    ensures Without(xs, key, picked + [x]) == Without(xs, key, picked)
  {
    WithoutSame(xs, key, picked, picked + [x]);
  }
}

=== FILE: show_hide.dfy ===
/** The show/hide tool: toggling flips the visibility of each selected node and keeps a set of
    the nodes it hid; "show all" makes every remembered node visible again and forgets them. */
module ShowHide {

  /** The visibility of every existing node, and the nodes the tool remembers hiding. */
  datatype State = State(visible: map<string, bool>, hidden: set<string>)

  datatype Notice = Quiet | NothingSelected

  /** One pass of the toggling loop: nodes that no longer exist are skipped. */
  function ToggleOne(st: State, o: string): State {
    if o !in st.visible then st
    else if st.visible[o] then State(st.visible[o := false], st.hidden + {o})
    else State(st.visible[o := true], st.hidden - {o})
  }

  /** How often a node occurs in the selection decides its fate: an odd count flips it. */
  function Flipped(sel: seq<string>, o: string): bool {
    multiset(sel)[o] % 2 == 1
  }

  lemma FlippedSnoc(front: seq<string>, o: string, p: string)
    ensures Flipped(front + [o], p) == if p == o then !Flipped(front, p) else Flipped(front, p)
  {
    assert multiset(front + [o]) == multiset(front) + multiset{o};
  }

  /** The toggling loop over the whole selection. */
  function ToggleEach(st: State, sel: seq<string>): (r: State)
    ensures r.visible.Keys == st.visible.Keys
    ensures forall o | o in st.visible ::
      r.visible[o] == (if Flipped(sel, o) then !st.visible[o] else st.visible[o])
    ensures forall o | o in st.visible && o in sel :: o in r.hidden <==> !r.visible[o]
    ensures forall o | o !in st.visible || o !in sel :: o in r.hidden <==> o in st.hidden
  {
    if |sel| == 0 then st
    else
      var front := sel[..|sel| - 1];
      var o := sel[|sel| - 1];
      assert sel == front + [o];
      var mid := ToggleEach(st, front);
      var r := ToggleOne(mid, o);
      ToggleEachStep(st, front, o, mid, r);
      r
  }

  lemma ToggleEachStep(st: State, front: seq<string>, o: string, mid: State, r: State)
    requires r == ToggleOne(mid, o)
    requires mid.visible.Keys == st.visible.Keys
    requires forall p | p in st.visible ::
      mid.visible[p] == (if Flipped(front, p) then !st.visible[p] else st.visible[p])
    requires forall p | p in st.visible && p in front :: p in mid.hidden <==> !mid.visible[p]
    requires forall p | p !in st.visible || p !in front :: p in mid.hidden <==> p in st.hidden
    ensures r.visible.Keys == st.visible.Keys
    ensures forall p | p in st.visible ::
      r.visible[p] == (if Flipped(front + [o], p) then !st.visible[p] else st.visible[p])
    ensures forall p | p in st.visible && p in front + [o] :: p in r.hidden <==> !r.visible[p]
    ensures forall p | p !in st.visible || p !in front + [o] :: p in r.hidden <==> p in st.hidden
  {
    forall p | p in st.visible
      ensures r.visible[p] == (if Flipped(front + [o], p) then !st.visible[p] else st.visible[p])
    {
      FlippedSnoc(front, o, p);
    }
  }

  /** `toggle_visibility`: an empty selection only warns. */
  function Toggle(st: State, sel: seq<string>): (r: (State, Notice))
    ensures sel == [] ==> r == (st, NothingSelected)
    ensures sel != [] ==> r.1 == Quiet && r.0 == ToggleEach(st, sel)
  {
    if sel == [] then (st, NothingSelected) else (ToggleEach(st, sel), Quiet)
  }

  /** Toggling the same selection twice restores every node's visibility. */
  lemma ToggleTwiceRestores(st: State, sel: seq<string>)
    ensures Toggle(Toggle(st, sel).0, sel).0.visible == st.visible
  {
  }

  /** Every invisible node is one the tool remembers hiding. */
  predicate HiddenTracked(st: State) {
    forall o | o in st.visible && !st.visible[o] :: o in st.hidden
  }

  lemma ToggleKeepsHiddenTracked(st: State, sel: seq<string>)
    requires HiddenTracked(st)
    ensures HiddenTracked(Toggle(st, sel).0)
  {
  }

  /** `show_all_hidden`: remembered nodes that still exist become visible; the memory is
      cleared, including nodes that no longer exist. */
  function ShowAll(st: State): (r: State)
    ensures r.hidden == {}
    ensures r.visible.Keys == st.visible.Keys
    ensures forall o | o in st.visible && o in st.hidden :: r.visible[o]
    ensures forall o | o in st.visible && o !in st.hidden :: r.visible[o] == st.visible[o]
  {
    State(map o | o in st.visible :: if o in st.hidden then true else st.visible[o], {})
  }

  /** When every invisible node is remembered, showing all leaves nothing invisible. */
  lemma ShowAllShowsEverything(st: State)
    requires HiddenTracked(st)
    ensures forall o | o in ShowAll(st).visible :: ShowAll(st).visible[o]
  {
  }

  /** After showing all, toggling any selection keeps every invisible node remembered. */
  lemma ShowAllThenToggleTracked(st: State, sel: seq<string>)
    requires HiddenTracked(st)
    ensures HiddenTracked(Toggle(ShowAll(st), sel).0)
  {
    ShowAllShowsEverything(st);
    ToggleKeepsHiddenTracked(ShowAll(st), sel);
  }
}

=== FILE: text.dfy ===
/** String operations the scripts borrow from Python's `str` and C++'s `std::string`:
    substring search, `split(sep)[0]`, character replacement, `replace(pat, "")`,
    `sep.join(parts)`, `endswith` and decimal rendering of integers. */
module Text {

  /** `pat` occurs in `s` starting at index `i`. */
  predicate OccursAt(s: string, pat: string, i: int) {
    0 <= i && i + |pat| <= |s| && s[i..i + |pat|] == pat
  }

  /** Python's `pat in s`; C++'s `s.find(pat) != npos` and `MString::indexW(pat) != -1`. */
  predicate Contains(s: string, pat: string) {
    exists i | 0 <= i <= |s| :: OccursAt(s, pat, i)
  }

  /** Python's `s.endswith(suffix)`. */
  predicate EndsWith(s: string, suffix: string) {
    |suffix| <= |s| && s[|s| - |suffix|..] == suffix
  }

  lemma OccursInMiddle(a: string, pat: string, b: string)
    ensures OccursAt(a + pat + b, pat, |a|)
    ensures Contains(a + pat + b, pat)
  {
    assert (a + pat + b)[|a|..|a| + |pat|] == pat;
    assert OccursAt(a + pat + b, pat, |a|);
  }

  lemma OccursAtShift(s: string, pat: string, i: int)
    requires |s| > 0
    requires i >= 0
    ensures OccursAt(s[1..], pat, i) <==> OccursAt(s, pat, i + 1)
  {
    if 0 <= i && i + |pat| <= |s| - 1 {
      assert s[1..][i..i + |pat|] == s[i + 1..i + 1 + |pat|];
    }
  }

  lemma OccursAtShiftAll(s: string, pat: string)
    requires |s| > 0
    ensures forall i | i >= 0 :: OccursAt(s[1..], pat, i) <==> OccursAt(s, pat, i + 1)
    ensures forall j | j >= 1 :: OccursAt(s, pat, j) <==> OccursAt(s[1..], pat, j - 1)
  {
    forall i | i >= 0
      ensures OccursAt(s[1..], pat, i) <==> OccursAt(s, pat, i + 1)
    {
      OccursAtShift(s, pat, i);
    }
    forall j | j >= 1
      ensures OccursAt(s, pat, j) <==> OccursAt(s[1..], pat, j - 1)
    {
      OccursAtShift(s, pat, j - 1);
    }
  }

  /** A string with no occurrence of `pat` keeps none once its first character is dropped. */
  lemma AbsentFromTail(s: string, pat: string)
    requires |s| > 0
    requires !Contains(s, pat)
    ensures !Contains(s[1..], pat)
  {
    OccursAtShiftAll(s, pat);
  }

  /** A character that `pat` needs at every occurrence: if `s` never holds it, `pat` never occurs. */
  lemma AbsentCharBlocksOccurrence(s: string, pat: string, k: nat)
    requires k < |pat|
    requires forall i | 0 <= i < |s| :: s[i] != pat[k]
    ensures !Contains(s, pat)
  {
    forall i | 0 <= i <= |s|
      ensures !OccursAt(s, pat, i)
    {
      if i + |pat| <= |s| {
        assert s[i..i + |pat|][k] == s[i + k];
      }
    }
  }

  /** Python's `s.split(sep)[0]`: the part of `s` before the first occurrence of `sep`,
      or all of `s` when `sep` does not occur. */
  function Before(s: string, sep: string): (r: string)
    requires |sep| > 0
    ensures r <= s
    ensures forall i | 0 <= i < |r| :: !OccursAt(s, sep, i)
    ensures |r| == |s| || OccursAt(s, sep, |r|)
    decreases |s|
  {
    if |s| < |sep| then s
    else if s[..|sep|] == sep then ""
    else
      OccursAtShiftAll(s, sep);
      [s[0]] + Before(s[1..], sep)
  }

  /** `Before` stops exactly at the first occurrence of `sep`: whenever `sep` sits right after
      `head` and `head` holds a character that every earlier occurrence would need, `head`
      is what comes back. */
  lemma BeforeFirstOccurrence(head: string, sep: string, tail: string)
    requires |sep| > 0
    requires forall i | 0 <= i < |head| :: head[i] != sep[0]
    ensures Before(head + sep + tail, sep) == head
  {
    var s := head + sep + tail;
    var r := Before(s, sep);
    OccursInMiddle(head, sep, tail);
    forall i | 0 <= i < |head|
      ensures !OccursAt(s, sep, i)
    {
      if i + |sep| <= |s| {
        assert s[i..i + |sep|][0] == head[i];
      }
    }
    assert |r| == |head|;
    assert r == s[..|r|] == head;
  }

  /** Python's `s.replace(a, b)` for single characters. */
  function ReplaceChar(s: string, a: char, b: char): (r: string)
    ensures |r| == |s|
    ensures forall i | 0 <= i < |s| :: s[i] == a ==> r[i] == b
    ensures forall i | 0 <= i < |s| :: s[i] != a ==> r[i] == s[i]
  {
    seq(|s|, i requires 0 <= i < |s| => if s[i] == a then b else s[i])
  }

  lemma ReplaceCharLeavesNone(s: string, a: char, b: char)
    requires a != b
    ensures a !in ReplaceChar(s, a, b)
  {
    var r := ReplaceChar(s, a, b);
    assert forall i | 0 <= i < |r| :: r[i] != a;
  }

  lemma ReplaceCharAppend(s: string, t: string, a: char, b: char)
    ensures ReplaceChar(s + t, a, b) == ReplaceChar(s, a, b) + ReplaceChar(t, a, b)
  {
  }

  lemma ReplaceCharAbsent(s: string, a: char, b: char)
    requires a !in s
    ensures ReplaceChar(s, a, b) == s
  {
  }

  /** Python's `s.replace(pat, "")`: one left-to-right pass removing non-overlapping occurrences. */
  function RemoveAll(s: string, pat: string): (r: string)
    requires |pat| > 0
    ensures |r| <= |s|
    decreases |s|
  {
    if |s| < |pat| then s
    else if s[..|pat|] == pat then RemoveAll(s[|pat|..], pat)
    else [s[0]] + RemoveAll(s[1..], pat)
  }

  /** Removing a pattern brings in no character the string did not already hold. */
  lemma {:induction false} RemoveAllAddsNoChar(s: string, pat: string, c: char)
    requires |pat| > 0
    requires c !in s
    ensures c !in RemoveAll(s, pat)
    decreases |s|
  {
    if |s| < |pat| {
    } else if s[..|pat|] == pat {
      assert c !in s[|pat|..];
      RemoveAllAddsNoChar(s[|pat|..], pat, c);
    } else {
      assert c !in s[1..];
      RemoveAllAddsNoChar(s[1..], pat, c);
    }
  }

  /** Removing a pattern that never occurs leaves the string as it was. */
  lemma {:induction false} RemoveAllAbsent(s: string, pat: string)
    requires |pat| > 0
    requires !Contains(s, pat)
    ensures RemoveAll(s, pat) == s
    decreases |s|
  {
    if |s| >= |pat| {
      assert !OccursAt(s, pat, 0);
      AbsentFromTail(s, pat);
      RemoveAllAbsent(s[1..], pat);
      assert s == [s[0]] + s[1..];
    }
  }

  /** `RemoveAll` splits around an occurrence of a pattern that no occurrence can overlap (its
      first character appears nowhere else in it): what comes before and what comes after are
      treated on their own. */
  lemma {:induction false} RemoveAllSplits(head: string, pat: string, tail: string)
    requires |pat| > 0
    requires forall k | 0 < k < |pat| :: pat[k] != pat[0]
    ensures RemoveAll(head + pat + tail, pat) == RemoveAll(head, pat) + RemoveAll(tail, pat)
    decreases |head|
  {
    var s := head + pat + tail;
    if |head| == 0 {
      assert s == pat + tail;
      assert s[..|pat|] == pat;
      assert s[|pat|..] == tail;
    } else if |head| >= |pat| && head[..|pat|] == pat {
      assert s[..|pat|] == pat;
      assert s[|pat|..] == head[|pat|..] + pat + tail;
      RemoveAllSplits(head[|pat|..], pat, tail);
    } else {
      RemoveAllSplitsSkip(head, pat, tail);
    }
  }

  /** The step of `RemoveAllSplits` where the head does not start with the pattern, so its
      first character is kept. */
  lemma {:induction false} RemoveAllSplitsSkip(head: string, pat: string, tail: string)
    requires |pat| > 0 && |head| > 0
    requires forall k | 0 < k < |pat| :: pat[k] != pat[0]
    requires !(|head| >= |pat| && head[..|pat|] == pat)
    ensures RemoveAll(head + pat + tail, pat) == RemoveAll(head, pat) + RemoveAll(tail, pat)
    decreases |head|, 0
  {
    var s := head + pat + tail;
    NoMatchBeforePattern(head, pat, tail);
    RemoveAllKeepsFirst(s, pat);
    RemoveAllKeepsFirst(head, pat);
    DropFirstOfAppend(head, pat);
    DropFirstOfAppend(head + pat, tail);
    RemoveAllSplits(head[1..], pat, tail);
  }

  lemma DropFirstOfAppend(a: string, b: string)
    requires |a| > 0
    ensures (a + b)[0] == a[0] && (a + b)[1..] == a[1..] + b
  {
  }

  /** A string that does not start with the pattern keeps its first character. */
  lemma RemoveAllKeepsFirst(s: string, pat: string)
    requires |pat| > 0 && |s| > 0
    requires !(|s| >= |pat| && s[..|pat|] == pat)
    ensures RemoveAll(s, pat) == [s[0]] + RemoveAll(s[1..], pat)
  {
    if |s| < |pat| {
      assert s == [s[0]] + s[1..];
    }
  }

  /** A non-empty head that does not start with the pattern does not start a match in front of
      the pattern either: a match would have to overlap the pattern itself. */
  lemma NoMatchBeforePattern(head: string, pat: string, tail: string)
    requires |pat| > 0 && |head| > 0
    requires forall k | 0 < k < |pat| :: pat[k] != pat[0]
    requires !(|head| >= |pat| && head[..|pat|] == pat)
    ensures (head + pat + tail)[..|pat|] != pat
  {
    var s := head + pat + tail;
    if |head| >= |pat| {
      assert s[..|pat|] == head[..|pat|];
    } else {
      assert s[..|pat|][|head|] == pat[0];
    }
  }

  /** Python's `sep.join(parts)`. */
  function Join(sep: string, parts: seq<string>): (r: string)
    ensures |parts| == 1 ==> r == parts[0]
  {
    if |parts| == 0 then ""
    else if |parts| == 1 then parts[0]
    else parts[0] + sep + Join(sep, parts[1..])
  }

  /** Where `parts[k]` starts in `Join(sep, parts)`: behind every earlier part and separator. */
  function JoinOffset(sep: string, parts: seq<string>, k: nat): nat
    requires k < |parts|
  {
    if k == 0 then 0 else |parts[0]| + |sep| + JoinOffset(sep, parts[1..], k - 1)
  }

  /** An occurrence stays one, shifted, behind a prefix. */
  lemma OccursAfterPrefix(pre: string, s: string, pat: string, i: int)
    requires OccursAt(s, pat, i)
    ensures OccursAt(pre + s, pat, |pre| + i)
  {
    assert (pre + s)[|pre| + i..|pre| + i + |pat|] == s[i..i + |pat|];
  }

  /** `Join` puts every part at its offset, the separator right before every part but the
      first, and nothing after the last part. */
  lemma {:induction false} JoinPartAt(sep: string, parts: seq<string>, k: nat)
    requires k < |parts|
    ensures OccursAt(Join(sep, parts), parts[k], JoinOffset(sep, parts, k))
    ensures k > 0 ==> OccursAt(Join(sep, parts), sep, JoinOffset(sep, parts, k) - |sep|)
    ensures k == |parts| - 1 ==> |Join(sep, parts)| == JoinOffset(sep, parts, k) + |parts[k]|
    decreases k
  {
    var j := Join(sep, parts);
    if |parts| == 1 {
      assert j == parts[0];
      assert j[0..|parts[0]|] == parts[0];
    } else if k == 0 {
      assert j == parts[0] + sep + Join(sep, parts[1..]);
      assert j[0..|parts[0]|] == parts[0];
    } else {
      JoinLaterPartAt(sep, parts, k);
    }
  }

  /** The step of `JoinPartAt` for a part behind the first. */
  lemma {:induction false} JoinLaterPartAt(sep: string, parts: seq<string>, k: nat)
    requires 0 < k < |parts|
    ensures OccursAt(Join(sep, parts), parts[k], JoinOffset(sep, parts, k))
    ensures OccursAt(Join(sep, parts), sep, JoinOffset(sep, parts, k) - |sep|)
    ensures k == |parts| - 1 ==> |Join(sep, parts)| == JoinOffset(sep, parts, k) + |parts[k]|
    decreases k, 0
  {
    var rest := Join(sep, parts[1..]);
    assert Join(sep, parts) == parts[0] + sep + rest;
    JoinPartAt(sep, parts[1..], k - 1);
    assert parts[1..][k - 1] == parts[k];
    OccursAfterPrefix(parts[0] + sep, rest, parts[k], JoinOffset(sep, parts[1..], k - 1));
    if k == 1 {
      OccursInMiddle(parts[0], sep, rest);
    } else {
      OccursAfterPrefix(parts[0] + sep, rest, sep, JoinOffset(sep, parts[1..], k - 1) - |sep|);
    }
  }

  /** `JoinPartAt` behind a header: `row` is `head` followed by the joined parts, and part `k`
      sits behind the header at its offset. */
  lemma HeadedJoinPartAt(row: string, head: string, sep: string, parts: seq<string>, k: nat)
    requires row == head + Join(sep, parts)
    requires k < |parts|
    ensures var at := |head| + JoinOffset(sep, parts, k);
      && head <= row
      && OccursAt(row, parts[k], at)
      && (k == |parts| - 1 ==> |row| == at + |parts[k]|)
  {
    JoinPartAt(sep, parts, k);
    OccursAfterPrefix(head, Join(sep, parts), parts[k], JoinOffset(sep, parts, k));
  }

  /** Behind a header, the separator sits right before every part but the first. */
  lemma HeadedJoinSepAt(row: string, head: string, sep: string, parts: seq<string>, k: nat)
    requires row == head + Join(sep, parts)
    requires 0 < k < |parts|
    ensures OccursAt(row, sep, |head| + JoinOffset(sep, parts, k) - |sep|)
  {
    var off := JoinOffset(sep, parts, k);
    JoinPartAt(sep, parts, k);
    OccursAfterPrefix(head, Join(sep, parts), sep, off - |sep|);
    assert |head| + (off - |sep|) == |head| + off - |sep|;
  }

  predicate IsDigit(c: char) {
    '0' <= c <= '9'
  }

  function DigitChar(d: nat): (c: char)
    requires d < 10
    ensures IsDigit(c)
  {
    "0123456789"[d]
  }

  function DigitValue(c: char): nat
    requires IsDigit(c)
  {
    (c as int - '0' as int) as nat
  }

  /** Python's `str(n)` for a non-negative integer. */
  function NatToString(n: nat): (r: string)
    ensures |r| > 0
    ensures forall i | 0 <= i < |r| :: IsDigit(r[i])
  {
    if n < 10 then [DigitChar(n)] else NatToString(n / 10) + [DigitChar(n % 10)]
  }

  /** Reads back a run of decimal digits. */
  function ParseDigits(s: string): nat
    requires forall i | 0 <= i < |s| :: IsDigit(s[i])
  {
    if |s| == 0 then 0 else 10 * ParseDigits(s[..|s| - 1]) + DigitValue(s[|s| - 1])
  }

  /** The decimal rendering is faithful: reading it back gives the number. */
  lemma {:induction false} NatToStringRoundTrip(n: nat)
    ensures ParseDigits(NatToString(n)) == n
  {
    var r := NatToString(n);
    if n < 10 {
      assert DigitValue(DigitChar(n)) == n;
    } else {
      var q := NatToString(n / 10);
      assert r[..|r| - 1] == q;
      assert DigitValue(DigitChar(n % 10)) == n % 10;
      NatToStringRoundTrip(n / 10);
    }
  }

  /** Python's `str(i)` for any integer. */
  function IntToString(i: int): (r: string)
    ensures |r| > 0
    ensures i < 0 <==> r[0] == '-'
  {
    if i < 0 then "-" + NatToString(-i) else NatToString(i)
  }
}

=== FILE: texture_reload.dfy ===
/** The texture auto-reload tool: a list of the scene's file texture nodes, a button that
    re-sets the selected nodes' texture paths so the host reloads them, and an automatic mode
    that does so every few seconds, counting down the last five seconds before each reload. */
module TextureReload {
  import opened Options

  // ---------------------------------------------------------------------------------------
  // Starting and stopping the automatic mode
  // ---------------------------------------------------------------------------------------

  datatype StartNotice = AlreadyRunning | IntervalTooSmall | Started(interval: int)

  datatype StopNotice = NotRunning | Stopped

  /** `start_auto_reload`: the running flag after the click, and what was reported. */
  function Start(running: bool, interval: int): (r: (bool, StartNotice))
    ensures running ==> r == (true, AlreadyRunning)
    ensures !running && interval <= 0 ==> r == (false, IntervalTooSmall)
    ensures r.0 <==> running || interval > 0
    ensures r.1.Started? ==> !running && r.1.interval == interval && r.1.interval >= 1
  {
    if running then (true, AlreadyRunning)
    else if interval <= 0 then (false, IntervalTooSmall)
    else (true, Started(interval))
  }

  /** `stop_auto_reload`. */
  function Stop(running: bool): (r: (bool, StopNotice))
    ensures !r.0
    ensures r.1 == Stopped <==> running
  {
    if !running then (false, NotRunning) else (false, Stopped)
  }

  /** A successful start followed by a stop ends where it began, and every further start or
      stop in between is refused. */
  lemma StartStopRoundTrip(interval: int)
    requires interval > 0
    ensures Start(false, interval) == (true, Started(interval))
    ensures Start(Start(false, interval).0, interval).1 == AlreadyRunning
    ensures Stop(Start(false, interval).0) == (false, Stopped)
    ensures Stop(Stop(Start(false, interval).0).0).1 == NotRunning
  {
  }

  // ---------------------------------------------------------------------------------------
  // One waiting period of the automatic loop
  // ---------------------------------------------------------------------------------------

  /** Whether the countdown line is printed in second `i` of a period of `interval` seconds. */
  predicate ShowsCountdown(interval: int, i: int) {
    interval > 5 && interval - i <= 5
  }

  /** The countdown values printed during the first `n` seconds of a period, second by second. */
  function Printed(interval: int, n: nat): seq<int> {
    if n == 0 then []
    else Printed(interval, n - 1) + if ShowsCountdown(interval, n - 1) then [interval - (n - 1)] else []
  }

  /** Within a period only the last five seconds print, counting 5, 4, 3, 2, 1. */
  lemma {:induction false} PrintedCountsDown(interval: int, n: nat)
    requires n <= interval
    ensures var shown := if interval > 5 && n > interval - 5 then n - (interval - 5) else 0;
      && |Printed(interval, n)| == shown
      && forall k | 0 <= k < shown :: Printed(interval, n)[k] == 5 - k
  {
    if n > 0 {
      PrintedCountsDown(interval, n - 1);
    }
  }

  /** The waiting part of `auto_reload_loop`: one second per step for `interval` steps,
      leaving early at the first step at which the flag has been cleared, here step `stopAt`.
      It returns the remaining-seconds values it prints and the number of seconds slept. */
  method WaitPeriod(interval: int, stopAt: nat) returns (lines: seq<int>, slept: nat)
    ensures interval <= 0 ==> slept == 0
    ensures interval > 0 ==> slept == if stopAt < interval then stopAt else interval
    ensures interval <= 5 ==> lines == []
    ensures forall k | 0 <= k < |lines| :: 1 <= lines[k] <= 5 && lines[k] == 5 - k
    ensures interval > 5 && stopAt >= interval ==> lines == [5, 4, 3, 2, 1]
    ensures interval > 5 && stopAt <= interval - 5 ==> lines == []
    ensures lines == Printed(interval, slept)
  {
    lines, slept := [], 0;
    var i := 0;
    while i < interval
      invariant 0 <= i <= (if interval > 0 then interval else 0)
      invariant slept == i
      invariant i <= stopAt
      invariant interval <= 5 ==> lines == []
      invariant interval > 5 ==> |lines| == (if i <= interval - 5 then 0 else i - (interval - 5))
      invariant forall k | 0 <= k < |lines| :: lines[k] == 5 - k
      invariant lines == Printed(interval, i)
    {
      if i >= stopAt {
        break;
      }
      var remaining := interval - i;
      if ShowsCountdown(interval, i) {
        lines := lines + [remaining];
      }
      slept := slept + 1;
      i := i + 1;
    }
    if interval > 5 && stopAt >= interval {
      assert |lines| == 5;
    }
  }

  // ---------------------------------------------------------------------------------------
  // Reloading and listing file nodes
  // ---------------------------------------------------------------------------------------

  /** What happened to one selected node: its path was set again, it had no path, or the
      `try` failed: reading its path failed because the node is gone, or writing the path back
      failed because the attribute cannot be set (locked, or driven by a connection). */
  datatype NodeOutcome = ReSet(node: string, path: string) | NoPath(node: string) | Failed(node: string)

  datatype ReloadReport = NoNodeSelected | PerNode(outcomes: seq<NodeOutcome>)

  /** One pass of the loop body. `paths` holds the `fileTextureName` of every existing file
      node; `unsettable` holds the nodes whose `fileTextureName` cannot be written. */
  function ReloadOne(paths: map<string, string>, unsettable: set<string>, node: string): (r: NodeOutcome)
    ensures r.node == node
    ensures r.ReSet? <==> node in paths && paths[node] != "" && node !in unsettable
    ensures r.ReSet? ==> r.path == paths[node]
    ensures r.NoPath? <==> node in paths && paths[node] == ""
    ensures r.Failed? <==> node !in paths || (paths[node] != "" && node in unsettable)
  {
    match Get(paths, node)
    case None => Failed(node)
    case Some(p) =>
      if p == "" then NoPath(node)
      else if node in unsettable then Failed(node)
      else ReSet(node, p)
  }

  /** `reload_selected_file` over the nodes' texture paths: every path is set to the value it
      already had, or left alone when the write fails, so the paths come back unchanged, and
      one outcome is reported per node. */
  function ReloadSelected(paths: map<string, string>, unsettable: set<string>, sel: seq<string>): (r: (map<string, string>, ReloadReport))
    ensures r.0 == paths
    ensures sel == [] <==> r.1 == NoNodeSelected
    ensures r.1.PerNode? ==>
      && |r.1.outcomes| == |sel|
      && forall k | 0 <= k < |sel| :: r.1.outcomes[k] == ReloadOne(paths, unsettable, sel[k])
  {
    if sel == [] then (paths, NoNodeSelected)
    else (ReSetEach(paths, unsettable, sel), PerNode(seq(|sel|, k requires 0 <= k < |sel| => ReloadOne(paths, unsettable, sel[k]))))
  }

  /** The loop of `setAttr` calls: each one writes back the path it read, and a failed one
      writes nothing. */
  function ReSetEach(paths: map<string, string>, unsettable: set<string>, sel: seq<string>): (r: map<string, string>)
    ensures r == paths
  {
    if |sel| == 0 then paths
    else
      var front := ReSetEach(paths, unsettable, sel[..|sel| - 1]);
      var node := sel[|sel| - 1];
      match ReloadOne(front, unsettable, node)
      case ReSet(_, p) => front[node := p]
      case NoPath(_) => front
      case Failed(_) => front
  }

  const Placeholder := "(ファイルノードなし)"

  /** `refresh_file_list`: the rows shown, and whether the "no file node" warning is given. */
  function RefreshFileList(fileNodes: seq<string>): (r: (seq<string>, bool))
    ensures r.1 <==> fileNodes == []
    ensures |r.0| >= 1
    ensures !r.1 ==> r.0 == fileNodes
    ensures r.1 ==> r.0 == [Placeholder]
  {
    if fileNodes != [] then (fileNodes, false) else ([Placeholder], true)
  }

  /** Characters a Maya node name may hold: letters, digits, "_", and the "|" and ":" of
      paths and namespaces. */
  predicate NodeNameChar(c: char) {
    ('a' <= c <= 'z') || ('A' <= c <= 'Z') || ('0' <= c <= '9') || c == '_' || c == '|' || c == ':'
  }

  /** The placeholder row cannot be mistaken for a node: it is shown exactly when the warning
      is given, since no node name can spell it. */
  lemma PlaceholderOnlyWhenEmpty(fileNodes: seq<string>)
    requires forall n | n in fileNodes :: forall i | 0 <= i < |n| :: NodeNameChar(n[i])
    ensures Placeholder in RefreshFileList(fileNodes).0 <==> RefreshFileList(fileNodes).1
  {
    assert !NodeNameChar(Placeholder[0]);
  }
}

=== FILE: vertex_snapper.dfy ===
/** The vertex snapper: a log of picked vertices, consumed in pairs (source, target) to move
    each source onto its target's recorded position, with an optional distance tolerance and
    an optional merge of pairs that lie on the same object. */
module VertexSnapper {
  import opened Options
  import opened Text
  import opened Seqs
  import opened Geometry

  /** One recorded vertex: its component name and its world position when it was picked. */
  datatype Logged = Logged(vertex: string, pos: Vec3)

  /** The host as the snapper sees it: the flattened selection, the world position of every
      vertex, and the merges requested so far (each an unordered vertex pair). */
  datatype Scene = Scene(selection: seq<string>, positions: map<string, Vec3>, merges: seq<(string, string)>)

  datatype SnapOutcome =
    | TooFewVertices                      // warning, nothing done
    | OddVertexCount                      // host error raised, nothing done
    | Finished(snapped: bool, merged: bool)

  /** A flattened selection entry names a vertex when it holds ".vtx[". */
  predicate IsVertex(name: string) {
    Contains(name, ".vtx[")
  }

  /** The object part of a component name: everything before the first '.'. */
  function ObjectOf(name: string): string {
    Before(name, ".")
  }

  function Names(log: seq<Logged>): (r: seq<string>)
    ensures |r| == |log|
    ensures forall k | 0 <= k < |log| :: r[k] == log[k].vertex
  {
    seq(|log|, k requires 0 <= k < |log| => log[k].vertex)
  }

  /** The host can report a position for every selected vertex. */
  ghost predicate PositionsKnown(sel: seq<string>, positions: map<string, Vec3>) {
    forall v | v in sel && IsVertex(v) :: v in positions
  }

  /** The shape the log keeps: vertex names only, none of them twice. */
  ghost predicate WellFormedLog(log: seq<Logged>) {
    NoDup(Names(log)) && forall k | 0 <= k < |log| :: IsVertex(log[k].vertex)
  }

  /** The loop of `log_selected_vertices`: walk the selection in order and append every
      vertex not yet logged, together with its current world position. */
  function AppendNew(log: seq<Logged>, sel: seq<string>, positions: map<string, Vec3>): (r: seq<Logged>)
    requires PositionsKnown(sel, positions)
    ensures log <= r
    ensures forall k | |log| <= k < |r| ::
      && IsVertex(r[k].vertex) && r[k].vertex in sel
      && r[k].vertex !in Names(log)
      && r[k].pos == positions[r[k].vertex]
    ensures forall v | v in sel && IsVertex(v) :: v in Names(r)
    ensures NoDup(Names(log)) ==> NoDup(Names(r))
    decreases |sel|
  {
    if |sel| == 0 then log
    else
      var front := sel[..|sel| - 1];
      var v := sel[|sel| - 1];
      assert sel == front + [v];
      var prev := AppendNew(log, front, positions);
      if IsVertex(v) && v !in Names(prev) then
        var r := prev + [Logged(v, positions[v])];
        assert Names(r) == Names(prev) + [v];
        r
      else prev
  }

  /** The appended entries come in selection order. */
  lemma {:induction false} AppendNewKeepsSelectionOrder(log: seq<Logged>, sel: seq<string>, positions: map<string, Vec3>)
    requires PositionsKnown(sel, positions)
    ensures forall i, j | |log| <= i < j < |AppendNew(log, sel, positions)| ::
      IndexOf(sel, AppendNew(log, sel, positions)[i].vertex) < IndexOf(sel, AppendNew(log, sel, positions)[j].vertex)
    decreases |sel|
  {
    if |sel| > 0 {
      var front := sel[..|sel| - 1];
      var v := sel[|sel| - 1];
      assert sel == front + [v];
      var prev := AppendNew(log, front, positions);
      var r := AppendNew(log, sel, positions);
      AppendNewKeepsSelectionOrder(log, front, positions);
      forall k | |log| <= k < |prev|
        ensures IndexOf(sel, prev[k].vertex) == IndexOf(front, prev[k].vertex) < |sel| - 1
      {
        IndexOfSnoc(sel, prev[k].vertex);
      }
      forall i, j | |log| <= i < j < |prev|
        ensures IndexOf(sel, prev[i].vertex) < IndexOf(sel, prev[j].vertex)
      {
        assert IndexOf(front, prev[i].vertex) < IndexOf(front, prev[j].vertex);
      }
      if IsVertex(v) && v !in Names(prev) {
        assert v !in front;
        IndexOfSnoc(sel, v);
        assert r == prev + [Logged(v, positions[v])];
        forall i, j | |log| <= i < j < |r|
          ensures IndexOf(sel, r[i].vertex) < IndexOf(sel, r[j].vertex)
        {
          assert r[i] == prev[i];
          if j == |prev| {
            assert r[j].vertex == v;
          } else {
            assert r[j] == prev[j];
          }
        }
      } else {
        assert r == prev;
      }
    }
  }

  /** `log_selected_vertices`: nothing while recording is off, an emptied log when nothing is
      selected, otherwise the newly selected vertices appended in selection order. */
  function LogSelectedVertices(log: seq<Logged>, recordEnabled: bool, scene: Scene): (r: seq<Logged>)
    requires PositionsKnown(scene.selection, scene.positions)
    ensures !recordEnabled ==> r == log
    ensures recordEnabled && scene.selection == [] ==> r == []
    ensures recordEnabled && scene.selection != [] ==>
      && log <= r
      && (forall v | v in scene.selection && IsVertex(v) :: v in Names(r))
      && (forall k | |log| <= k < |r| ::
            IsVertex(r[k].vertex) && r[k].vertex in scene.selection && r[k].vertex !in Names(log))
    ensures WellFormedLog(log) ==> WellFormedLog(r)
  {
    if !recordEnabled then log
    else if scene.selection == [] then []
    else AppendNew(log, scene.selection, scene.positions)
  }

  /** `vertex_unlock`: the selection with every vertex dropped, order kept. */
  function NonVertices(sel: seq<string>): (r: seq<string>)
    ensures |r| <= |sel|
    ensures forall x | x in r :: x in sel && !IsVertex(x)
    ensures forall x | x in sel && !IsVertex(x) :: x in r
  {
    if |sel| == 0 then []
    else
      var front := NonVertices(sel[..|sel| - 1]);
      var last := sel[|sel| - 1];
      assert sel == sel[..|sel| - 1] + [last];
      if IsVertex(last) then front else front + [last]
  }

  /** Unlocking keeps the order of what remains: it distributes over concatenation. */
  lemma {:induction false} NonVerticesAppend(a: seq<string>, b: seq<string>)
    ensures NonVertices(a + b) == NonVertices(a) + NonVertices(b)
    decreases |b|
  {
    if |b| > 0 {
      var b' := b[..|b| - 1];
      assert (a + b)[..|a + b| - 1] == a + b';
      assert (a + b)[|a + b| - 1] == b[|b| - 1];
      NonVerticesAppend(a, b');
    } else {
      assert a + b == a;
    }
  }

  /** A selection without vertices survives unlocking unchanged. */
  lemma {:induction false} NonVerticesKeepsObjects(sel: seq<string>)
    requires forall i | 0 <= i < |sel| :: !IsVertex(sel[i])
    ensures NonVertices(sel) == sel
  {
    if |sel| > 0 {
      NonVerticesKeepsObjects(sel[..|sel| - 1]);
      assert sel == sel[..|sel| - 1] + [sel[|sel| - 1]];
    }
  }

  /** Pair `k` is entries 2k (the source) and 2k+1 (the target). */
  function Source(log: seq<Logged>, k: nat): Logged
    requires k < |log| / 2
  {
    log[2 * k]
  }

  function Target(log: seq<Logged>, k: nat): Logged
    requires k < |log| / 2
  {
    log[2 * k + 1]
  }

  /** `distance > tolerance` with `distance` the Euclidean length of the recorded offset,
      compared without a square root: a negative tolerance rejects every pair. */
  predicate OutOfTolerance(a: Vec3, b: Vec3, tolerance: real) {
    tolerance < 0.0 || SqDist(a, b) > tolerance * tolerance
  }

  /** Whether pair `k` is snapped: always without a tolerance, else when within it. */
  predicate Snaps(log: seq<Logged>, k: nat, tolerance: Option<real>)
    requires k < |log| / 2
  {
    tolerance.None? || !OutOfTolerance(Source(log, k).pos, Target(log, k).pos, tolerance.value)
  }

  /** Whether pair `k` is also merged. */
  predicate Merges(log: seq<Logged>, k: nat, tolerance: Option<real>, mergeSameObject: bool)
    requires k < |log| / 2
  {
    Snaps(log, k, tolerance) && mergeSameObject
    && ObjectOf(Source(log, k).vertex) == ObjectOf(Target(log, k).vertex)
  }

  /** Whether any of the first `n` pairs is snapped. */
  function AnySnaps(log: seq<Logged>, n: nat, tolerance: Option<real>): (r: bool)
    requires n <= |log| / 2
    ensures r <==> exists k | 0 <= k < n :: Snaps(log, k, tolerance)
  {
    if n == 0 then false else AnySnaps(log, n - 1, tolerance) || Snaps(log, n - 1, tolerance)
  }

  /** `v` is the source of one of the first `n` pairs. */
  ghost predicate SourceAmong(log: seq<Logged>, v: string, n: nat)
    requires n <= |log| / 2
  {
    exists k | 0 <= k < n :: Source(log, k).vertex == v
  }

  /** In a duplicate-free log a vertex is the source of at most one pair, and never a target
      of a pair that has it as source. */
  lemma SourcesDistinct(log: seq<Logged>, k: nat, j: nat)
    requires NoDup(Names(log))
    requires k < |log| / 2 && j < |log| / 2
    ensures k != j ==> Source(log, k).vertex != Source(log, j).vertex
    ensures Target(log, j).vertex != Source(log, k).vertex
  {
    var names := Names(log);
    assert names[2 * k] == Source(log, k).vertex;
    assert names[2 * j] == Source(log, j).vertex;
    assert names[2 * j + 1] == Target(log, j).vertex;
  }

  /** The merges the first `n` pairs request, in pair order. */
  function MergeRequests(log: seq<Logged>, n: nat, tolerance: Option<real>, mergeSameObject: bool): (r: seq<(string, string)>)
    requires n <= |log| / 2
    ensures |r| <= n
    ensures !mergeSameObject ==> r == []
  {
    if n == 0 then []
    else
      MergeRequests(log, n - 1, tolerance, mergeSameObject)
      + if Merges(log, n - 1, tolerance, mergeSameObject)
        then [(Source(log, n - 1).vertex, Target(log, n - 1).vertex)]
        else []
  }

  /** Every requested merge comes from a pair that qualifies for merging. */
  lemma {:induction false} MergeRequestsSound(log: seq<Logged>, n: nat, tolerance: Option<real>, mergeSameObject: bool)
    requires n <= |log| / 2
    ensures forall m | m in MergeRequests(log, n, tolerance, mergeSameObject) :: exists k | 0 <= k < n ::
      Merges(log, k, tolerance, mergeSameObject) && m == (Source(log, k).vertex, Target(log, k).vertex)
  {
    if n > 0 {
      MergeRequestsSound(log, n - 1, tolerance, mergeSameObject);
      var prev := MergeRequests(log, n - 1, tolerance, mergeSameObject);
      forall m | m in MergeRequests(log, n, tolerance, mergeSameObject)
        ensures exists k | 0 <= k < n ::
          Merges(log, k, tolerance, mergeSameObject) && m == (Source(log, k).vertex, Target(log, k).vertex)
      {
        if m !in prev {
          assert Merges(log, n - 1, tolerance, mergeSameObject);
          assert m == (Source(log, n - 1).vertex, Target(log, n - 1).vertex);
        }
      }
    }
  }

  /** Every pair that qualifies for merging has its merge requested. */
  lemma {:induction false} MergeRequestsComplete(log: seq<Logged>, n: nat, tolerance: Option<real>, mergeSameObject: bool, k: nat)
    requires k < n <= |log| / 2
    requires Merges(log, k, tolerance, mergeSameObject)
    ensures (Source(log, k).vertex, Target(log, k).vertex) in MergeRequests(log, n, tolerance, mergeSameObject)
  {
    if k < n - 1 {
      MergeRequestsComplete(log, n - 1, tolerance, mergeSameObject, k);
    }
  }

  /** Whether any of the first `n` pairs qualifies for merging. */
  function AnyMerges(log: seq<Logged>, n: nat, tolerance: Option<real>, mergeSameObject: bool): (r: bool)
    requires n <= |log| / 2
    ensures r <==> exists k | 0 <= k < n :: Merges(log, k, tolerance, mergeSameObject)
  {
    if n == 0 then false else AnyMerges(log, n - 1, tolerance, mergeSameObject) || Merges(log, n - 1, tolerance, mergeSameObject)
  }

  /** No merge is requested exactly when no pair qualifies for merging. */
  lemma {:induction false} MergeRequestsNone(log: seq<Logged>, n: nat, tolerance: Option<real>, mergeSameObject: bool)
    requires n <= |log| / 2
    ensures MergeRequests(log, n, tolerance, mergeSameObject) == []
      <==> forall k | 0 <= k < n :: !Merges(log, k, tolerance, mergeSameObject)
  {
    assert MergeRequests(log, n, tolerance, mergeSameObject) == [] <==> !AnyMerges(log, n, tolerance, mergeSameObject) by {
      if n > 0 {
        MergeRequestsNone(log, n - 1, tolerance, mergeSameObject);
      }
    }
  }

  /** World positions after the first `n` pairs have been processed. */
  function SnappedPositions(log: seq<Logged>, n: nat, tolerance: Option<real>, positions0: map<string, Vec3>): map<string, Vec3>
    requires n <= |log| / 2
  {
    if n == 0 then positions0
    else
      var p := SnappedPositions(log, n - 1, tolerance, positions0);
      if Snaps(log, n - 1, tolerance) then p[Source(log, n - 1).vertex := Target(log, n - 1).pos] else p
  }

  /** Only sources move: a vertex that is not the source of a processed pair keeps its position. */
  lemma {:induction false} OnlySourcesMove(log: seq<Logged>, n: nat, tolerance: Option<real>, positions0: map<string, Vec3>, v: string)
    requires n <= |log| / 2
    requires !SourceAmong(log, v, n)
    ensures Get(SnappedPositions(log, n, tolerance, positions0), v) == Get(positions0, v)
  {
    if n > 0 {
      assert Source(log, n - 1).vertex != v;
      assert !SourceAmong(log, v, n - 1);
      OnlySourcesMove(log, n - 1, tolerance, positions0, v);
    }
  }

  /** In a duplicate-free log, the source of pair `k` ends at its target's recorded position
      when the pair is within tolerance, and where it was otherwise. */
  lemma {:induction false} SourceLandsOnTarget(log: seq<Logged>, n: nat, tolerance: Option<real>, positions0: map<string, Vec3>, k: nat)
    requires NoDup(Names(log))
    requires k < n <= |log| / 2
    ensures Get(SnappedPositions(log, n, tolerance, positions0), Source(log, k).vertex)
      == if Snaps(log, k, tolerance) then Some(Target(log, k).pos) else Get(positions0, Source(log, k).vertex)
  {
    var v := Source(log, k).vertex;
    if k == n - 1 {
      forall j | 0 <= j < k
        ensures Source(log, j).vertex != v
      {
        SourcesDistinct(log, j, k);
      }
      OnlySourcesMove(log, n - 1, tolerance, positions0, v);
    } else {
      SourcesDistinct(log, k, n - 1);
      SourceLandsOnTarget(log, n - 1, tolerance, positions0, k);
    }
  }

  /** Processing pair `k` after the first `k` pairs. */
  lemma SnapStep(log: seq<Logged>, k: nat, tolerance: Option<real>, mergeSameObject: bool, positions0: map<string, Vec3>)
    requires k < |log| / 2
    ensures AnySnaps(log, k + 1, tolerance) == (AnySnaps(log, k, tolerance) || Snaps(log, k, tolerance))
    ensures SnappedPositions(log, k + 1, tolerance, positions0)
      == if Snaps(log, k, tolerance)
         then SnappedPositions(log, k, tolerance, positions0)[Source(log, k).vertex := Target(log, k).pos]
         else SnappedPositions(log, k, tolerance, positions0)
    ensures MergeRequests(log, k + 1, tolerance, mergeSameObject)
      == MergeRequests(log, k, tolerance, mergeSameObject)
         + if Merges(log, k, tolerance, mergeSameObject) then [(Source(log, k).vertex, Target(log, k).vertex)] else []
  {
  }

  /** The loop over pairs of `snap_and_merge_vertices`: each pair within tolerance moves its
      source onto its target's recorded position and, when asked and on the same object,
      requests a merge. */
  method SnapPairs(log: seq<Logged>, positions0: map<string, Vec3>, tolerance: Option<real>, mergeSameObject: bool)
    returns (positions: map<string, Vec3>, requests: seq<(string, string)>, snapped: bool)
    ensures snapped <==> exists k | 0 <= k < |log| / 2 :: Snaps(log, k, tolerance)
    ensures requests == MergeRequests(log, |log| / 2, tolerance, mergeSameObject)
    ensures positions == SnappedPositions(log, |log| / 2, tolerance, positions0)
  {
    var n := |log| / 2;
    positions, requests, snapped := positions0, [], false;
    var k := 0;
    while k < n
      invariant 0 <= k <= n
      invariant snapped == AnySnaps(log, k, tolerance)
      invariant requests == MergeRequests(log, k, tolerance, mergeSameObject)
      invariant positions == SnappedPositions(log, k, tolerance, positions0)
    {
      var source, target := Source(log, k), Target(log, k);
      SnapStep(log, k, tolerance, mergeSameObject, positions0);
      if Snaps(log, k, tolerance) {
        positions := positions[source.vertex := target.pos];
        snapped := true;
      }
      if Merges(log, k, tolerance, mergeSameObject) {
        requests := requests + [(source.vertex, target.vertex)];
      }
      k := k + 1;
    }
  }

  /** `snap_and_merge_vertices` followed by `vertex_unlock` and `clear_vertex_log`. */
  method SnapAndMergeVertices(log: seq<Logged>, scene: Scene, tolerance: Option<real>, mergeSameObject: bool)
    returns (newLog: seq<Logged>, newScene: Scene, outcome: SnapOutcome)
    ensures |log| < 2 ==> outcome == TooFewVertices && newLog == log && newScene == scene
    ensures |log| >= 2 && |log| % 2 == 1 ==> outcome == OddVertexCount && newLog == log && newScene == scene
    ensures |log| >= 2 && |log| % 2 == 0 ==>
      && outcome.Finished?
      && newLog == []
      && newScene.selection == NonVertices(scene.selection)
      && (outcome.snapped <==> exists k | 0 <= k < |log| / 2 :: Snaps(log, k, tolerance))
      && (outcome.merged <==> exists k | 0 <= k < |log| / 2 :: Merges(log, k, tolerance, mergeSameObject))
      && scene.merges <= newScene.merges
      && newScene.merges == scene.merges + MergeRequests(log, |log| / 2, tolerance, mergeSameObject)
      && (forall m | m in newScene.merges[|scene.merges|..] :: exists k | 0 <= k < |log| / 2 ::
            Merges(log, k, tolerance, mergeSameObject) && m == (Source(log, k).vertex, Target(log, k).vertex))
      && (forall k | 0 <= k < |log| / 2 && Merges(log, k, tolerance, mergeSameObject) ::
            (Source(log, k).vertex, Target(log, k).vertex) in newScene.merges[|scene.merges|..])
    ensures |log| >= 2 && |log| % 2 == 0 && NoDup(Names(log)) ==>
      && (forall k | 0 <= k < |log| / 2 ::
            Get(newScene.positions, Source(log, k).vertex)
              == if Snaps(log, k, tolerance) then Some(Target(log, k).pos)
                 else Get(scene.positions, Source(log, k).vertex))
      && (forall v | !SourceAmong(log, v, |log| / 2) ::
            Get(newScene.positions, v) == Get(scene.positions, v))
      && (forall k | 0 <= k < |log| / 2 ::
            Get(newScene.positions, Target(log, k).vertex) == Get(scene.positions, Target(log, k).vertex))
  {
    if |log| < 2 {
      return log, scene, TooFewVertices;
    }
    if |log| % 2 != 0 {
      return log, scene, OddVertexCount;
    }
    var positions, requests, snapped := SnapPairs(log, scene.positions, tolerance, mergeSameObject);
    MergeRequestsSound(log, |log| / 2, tolerance, mergeSameObject);
    MergeRequestsNone(log, |log| / 2, tolerance, mergeSameObject);
    var merges := scene.merges + requests;
    assert merges[|scene.merges|..] == requests;
    forall k | 0 <= k < |log| / 2 && Merges(log, k, tolerance, mergeSameObject)
      ensures (Source(log, k).vertex, Target(log, k).vertex) in requests
    {
      MergeRequestsComplete(log, |log| / 2, tolerance, mergeSameObject, k);
    }
    forall v | !SourceAmong(log, v, |log| / 2)
      ensures Get(positions, v) == Get(scene.positions, v)
    {
      OnlySourcesMove(log, |log| / 2, tolerance, scene.positions, v);
    }
    if NoDup(Names(log)) {
      forall k | 0 <= k < |log| / 2
        ensures Get(positions, Source(log, k).vertex)
          == if Snaps(log, k, tolerance) then Some(Target(log, k).pos)
             else Get(scene.positions, Source(log, k).vertex)
      {
        SourceLandsOnTarget(log, |log| / 2, tolerance, scene.positions, k);
      }
      forall k | 0 <= k < |log| / 2
        ensures Get(positions, Target(log, k).vertex) == Get(scene.positions, Target(log, k).vertex)
      {
        forall j | 0 <= j < |log| / 2
          ensures Source(log, j).vertex != Target(log, k).vertex
        {
          SourcesDistinct(log, j, k);
        }
        OnlySourcesMove(log, |log| / 2, tolerance, scene.positions, Target(log, k).vertex);
      }
    }
    newScene := scene.(selection := NonVertices(scene.selection), positions := positions, merges := merges);
    return [], newScene, Finished(snapped, requests != []);
  }
}
